=== FILE: README.md ===
# Workout tracker: progression engine and services, modelled in Dafny

This project models the checkable core of a workout-tracker app, in two parts.

**Front end (JavaScript).**
- The progression engine. It expands a base week, a map from day key to an ordered exercise list, into `blockLength` weeks. Week 1 keeps its base loads. Weeks 2 to N−1 grow by `(1+p)^(w−1)`. Week N is a deload at `deloadRate` × base. Every derived load is rounded to the nearest 2.5 kg.
- The two CSV readers that build the base week. They are one parser, parameterised by its column list.
- The transformation into the backend's request shape.
- Block generation in `BlockSetup`, which allocates the next id and reshapes the day map into a list.
- The plan editor in `StandaloneSetup`.
- The list operations of `workoutStorage.js`. Storage is a map from key to value.

**Backend (Java, Spring).** The services `TrainingBlockService`, `WorkoutService`, `ActualSetService`, `UserService` and `ExerciseService` are pure functions over a database value.
- Each table is a list of `(id, row)` pairs in id order, plus an identity counter (module `Repo`).
- Relations are parent ids.
- A thrown exception is a `Failure` carrying its message. Because the services are transactional, a failure leaves every row unchanged. The identity counters are modelled as unchanged too, which the database does not promise (see "## Left out").

JavaScript values are a datatype (`Js.Value`) with explicit truthiness, `||`, `??`, property access, `Number(...)` and `parseInt(...)`. Numbers are `real`. `NaN` is a value of its own.

Modules follow the source files:

| module | models |
|---|---|
| `Rounding` | `Math.round` and `roundToNearestIncrement` |
| `Progression` | `calculateWeekWeight` and `generateBlockWeeks` |
| `ApiTransformers` | `apiTransformers.js` |
| `Csv` | `blockCsvParser.js` and `csvParser.js` |
| `WorkoutStorage` | `workoutStorage.js` |
| `BlockSetup` | `BlockSetup.js` |
| `StandaloneSetup` | `StandaloneSetup.js` |
| `Entities`, `Repo` | the JPA entities and repositories |
| `TrainingBlockService`, `WorkoutService`, `ActualSetService`, `UserService`, `ExerciseService` | the services |

Support modules: `Wrappers`, `Seqs`, `Strings`, `Js` and `Dicts`. `Dicts` models JavaScript objects used as dictionaries.

## Model

| member | source | states |
|---|---|---|
| Rounding.MathRound | src/utils/blockProgression.js:11 | `Math.round(x)` lies in `[x − 1/2, x + 1/2)`, so halves round upward |
| Rounding.MathRoundUnique | src/utils/blockProgression.js:11 | only one integer lies in that interval, so the contract pins `Math.round` down |
| Rounding.RoundToNearestIncrement | src/utils/blockProgression.js:10-12 | the result is a whole number of 2.5 kg steps within 1.25 kg of the weight; a tie goes to the heavier load |
| Rounding.RoundUnique | src/utils/blockProgression.js:10-12 | any grid load nearest to the weight is the rounded value |
| Rounding.RoundIdempotentOnMultiples | src/utils/blockProgression.js:10-12 | a load already on the 2.5 kg grid is unchanged |
| Rounding.RoundIdempotent | src/utils/blockProgression.js:10-12 | rounding twice is rounding once |
| Rounding.RoundMonotone | src/utils/blockProgression.js:10-12 | a heavier weight never rounds to a lighter load |
| Progression.PowMonotone | src/utils/blockProgression.js:34 | for a base of at least 1, `Math.pow` is at least 1 and grows with the exponent |
| Progression.RoundedLoad | src/utils/blockProgression.js:29-35 | a derived load is NaN exactly when the product is NaN; otherwise it is the grid load nearest to the product |
| Progression.CalculateWeekWeight | src/utils/blockProgression.js:23-36 | week 1 returns the base unrounded, even when it is also the last week; the last week is the rounded deload; every other week is the rounded compounded growth; NaN comes only from a non-numeric base |
| Progression.ScaledLoadMonotone | src/utils/blockProgression.js:29-35 | a larger factor never gives a lighter rounded load |
| Progression.ProgressionMonotone | src/utils/blockProgression.js:34-35 | for a non-negative base and rate, loads never decrease across the progression weeks `2 ≤ j < k < blockLength` |
| Progression.ProgressExercise | src/utils/blockProgression.js:58-87 | the base fields are gone; every other field is copied; a computed `LoadMin`/`LoadMax` appears exactly when the base load is truthy and is that week's weight; otherwise an existing load is kept |
| Progression.ProgressWeek | src/utils/blockProgression.js:50-88 | the week has its number, the same day keys in the same order, and per day the same number of exercises, each the progressed base exercise at the same position |
| Progression.GenerateBlockWeeks | src/utils/blockProgression.js:46-94 | exactly `max(0, blockLength)` weeks, numbered 1 .. blockLength in order, each the progressed base week |
| ApiTransformers.WeekTypeOf | src/utils/apiTransformers.js:17-21 | BASE exactly for week 1, even when `blockLength` is 1; DELOAD exactly for a last week other than 1; PROGRESSION otherwise |
| ApiTransformers.WeekTypeMatchesWeekWeight | src/utils/apiTransformers.js:17-21 | the week type names the rule `calculateWeekWeight` applies to that week |
| ApiTransformers.CategoryOf | src/utils/apiTransformers.js:5-46 | the key is `String(v)`: "Squat", "Bench" and "Deadlift" map to their own category exactly when the key is that name; a key naming an `Object.prototype` member (`constructor`, `toString`, `__proto__`, …) yields that inherited member; anything else is ACCESSORY |
| ApiTransformers.TempoOf | src/utils/apiTransformers.js:12-39 | the key is `String(v)`: EXPLOSIVE exactly when it is "Explosive"; an `Object.prototype` member name yields that inherited member; anything else is CONTROLLED |
| ApiTransformers.SingletonKey | src/utils/apiTransformers.js:39-46 | a one-element array looks up as its element, since `String([x])` is `String(x)` |
| ApiTransformers.LoopCount | src/utils/apiTransformers.js:27-31 | the loop `i <= sets` runs ⌊sets⌋ times when sets ≥ 1, and never for NaN or a bound below 1 |
| ApiTransformers.SetTemplate | src/utils/apiTransformers.js:32-41 | reps default to 10; loads fall back `LoadX || BaseLoadX || null`, so a falsy 0 becomes null; RPE defaults to null; tempo as mapped; `videoRequired` is false |
| ApiTransformers.TransformExercise | src/utils/apiTransformers.js:26-50 | `n = Sets || 1` sets numbered 1..n in order, all with `targetSets = n`; all sets identical apart from their number; name, category and order copied |
| ApiTransformers.TransformDay | src/utils/apiTransformers.js:60-71 | `dayNumber = parseInt(key)`; `dayName = "Day " + key`; a rest day exactly when the day has no exercises; exercise `m` has `orderInWorkout = m + 1` |
| ApiTransformers.TransformWeeks | src/utils/apiTransformers.js:55-80 | same number of weeks, in order, with the same `weekNumber` and its week type; week `i` starts `7i` days after the start; one day per day key, in key order |
| ApiTransformers.TransformBlockForApi | src/utils/apiTransformers.js:85-94 | `blockLength` and both rates copied unchanged; one payload week per generated week, with its number and type, starting 7 days after the previous one from the block's start date, or from today when it has none |
| Csv.Cells | src/utils/blockCsvParser.js:31 | a line splits into at least one cell; no cell holds a comma or starts or ends with whitespace |
| Csv.Cell | src/utils/blockCsvParser.js:39-47 | a numeric column maps empty text to null and other text to `Number(text)`; other columns keep their text |
| Csv.MakeRow | src/utils/blockCsvParser.js:38-48 | the row has exactly the header names as keys; a repeated header takes its last column |
| Csv.AcceptedRowsConcat | src/utils/blockCsvParser.js:27-36 | the rows of `a + b` are the rows of `a` then those of `b`, so skipping a line never affects another |
| Csv.AcceptedRowsAreKeptLines | src/utils/blockCsvParser.js:27-36 | the rows are the non-blank lines with the header's column count, in file order, each turned into its row |
| Csv.ParseCsv | src/utils/blockCsvParser.js:7-58 | fewer than two lines is the "at least a header row" error; a missing required header is the headers error whatever the header order; otherwise the parse succeeds and holds as many exercises as accepted rows |
| Csv.ParseCsvGroupsByDay | src/utils/blockCsvParser.js:50-55 | the exercises under a day are exactly the accepted rows of that day, in file order; a day no row names is absent |
| Csv.ParseCsvKeepsEveryRow | src/utils/csvParser.js:49-54 | every accepted row appears under its own day as often as in the file |
| WorkoutStorage.GetFromStorage | src/utils/workoutStorage.js:63-69 | a missing key reads as null for `workouts_by_day` and the standalone id, and as `[]` for any other key |
| WorkoutStorage.SetInStorage | src/utils/workoutStorage.js:72-86 | the standalone id is stored as text; null or undefined removes any other key; no other key changes |
| WorkoutStorage.SaveWorkoutLog | src/utils/workoutStorage.js:109-118 | the logs read back as before with the new log at the end; no other key changes |
| WorkoutStorage.SaveTrainingBlock | src/utils/workoutStorage.js:148-157 | the blocks read back as before with the new block at the end; no other key changes |
| WorkoutStorage.FindBlock | src/utils/workoutStorage.js:174 | the index found is the first block whose `Number(blockId ?? id)` equals the id; none found means no block matches; a null entry before a match throws |
| WorkoutStorage.FindBlockFirst | src/utils/workoutStorage.js:174 | `find` stops at index `i` exactly when block `i` has the id and every block before it is neither a match nor `null` |
| WorkoutStorage.GetTrainingBlock | src/utils/workoutStorage.js:169-179 | a NaN id gives null; when a first match has no `null` block before it, that block is the result; a non-null result is always such a first match |
| WorkoutStorage.DeleteTrainingBlock | src/utils/workoutStorage.js:189-201 | the remaining blocks are those whose id differs, in order; a null entry makes the delete throw |
| WorkoutStorage.DeleteThenGet | src/utils/workoutStorage.js:169-201 | after a delete no block with that id can be read back |
| WorkoutStorage.UpdateTrainingBlock | src/utils/workoutStorage.js:214-227 | succeeds exactly when the update has a numeric id and no stored block is `null`; then the list keeps its length, matching blocks become the update and the others stay; every failure is "Failed to update training block" |
| WorkoutStorage.DeleteWorkoutLog | src/utils/workoutStorage.js:203-212 | only the log at the index goes, the others keep their order; an out-of-range or non-number index changes nothing |
| WorkoutStorage.GetWorkoutsByDay | src/utils/workoutStorage.js:238-246 | the stored value when it is a non-array object, otherwise null |
| WorkoutStorage.WorkoutsByDayRoundTrip | src/utils/workoutStorage.js:229-246 | a saved object reads back unchanged; anything else reads back as null |
| WorkoutStorage.GetStandaloneBlockId | src/utils/workoutStorage.js:256-265 | nothing stored, or empty text, reads as null; stored text reads as what `parseInt` finds at its start, null when it holds no digits |
| WorkoutStorage.StandaloneBlockIdRoundTrip | src/utils/workoutStorage.js:256-270 | an integer id that is saved reads back as itself |
| BlockSetup.MathMax | src/components/BlockSetup.js:44 | `Math.max` is NaN exactly when an argument is NaN, and otherwise bounds every argument |
| BlockSetup.BlockIds | src/components/BlockSetup.js:44 | reading `b.blockId` throws exactly when a stored block is null or undefined |
| BlockSetup.NextBlockId | src/components/BlockSetup.js:42-45 | 1 for an empty list; otherwise the largest id plus one, above every stored id |
| BlockSetup.DayNumberOfIntegerKey | src/components/BlockSetup.js:57 | a day stored under an integer key gets that integer as its `dayNumber`, `parseInt` being `Js.ParseInt` as everywhere else |
| BlockSetup.StoreWeek | src/components/BlockSetup.js:54-60 | same week number; one day per day key, in key order, with the key's exercises unchanged |
| BlockSetup.HandleGenerateBlock | src/components/BlockSetup.js:28-61 | no base week is the upload error and nothing is saved; otherwise the saved block carries the next id, the length and rates as given, and the generated weeks; it is appended to the stored blocks |
| BlockSetup.NextIdFresh | src/components/BlockSetup.js:42-45 | when every stored block has a numeric id, no stored block carries the next id |
| BlockSetup.GeneratedBlockIsFound | src/components/BlockSetup.js:42-64 | when the stored blocks form an array of numbered blocks, whatever else the store holds, generation succeeds and the new block reads back by its new id |
| BlockSetup.SavedBlockFound | src/utils/workoutStorage.js:169-179 | a lookup by an id that only the last block carries finds that block |
| StandaloneSetup.Initial | src/components/StandaloneSetup.js:15-20 | the editor opens valid, with three empty days |
| StandaloneSetup.NewExercise | src/components/StandaloneSetup.js:39-50 | the saved exercise has the ten form fields, its day, and `Equipment` defaulting to "" |
| StandaloneSetup.SaveExercise | src/components/StandaloneSetup.js:38-64 | a new exercise goes at the end of the current day; an edit replaces only the element at its index; other days are unchanged |
| StandaloneSetup.DeleteExercise | src/components/StandaloneSetup.js:70-76 | exactly the element at the index goes, the rest keep their order; an out-of-range index changes nothing |
| StandaloneSetup.MoveExercise | src/components/StandaloneSetup.js:78-93 | swaps with the neighbour above or below; does nothing for up at 0 or down at the end; the day is permuted; other days are unchanged |
| StandaloneSetup.MoveDownThenUp | src/components/StandaloneSetup.js:78-93 | moving down and then back up restores the plan |
| StandaloneSetup.AddDay | src/components/StandaloneSetup.js:95-101 | below seven days, an empty day `numDays + 1` is added; at seven nothing changes |
| StandaloneSetup.RemoveDay | src/components/StandaloneSetup.js:103-111 | above one day, the highest day and its exercises go; at one nothing changes |
| StandaloneSetup.HandlersPreserveValid | src/components/StandaloneSetup.js:38-111 | every handler keeps the day count in [1, 7] with days numbered 1..numDays |
| StandaloneSetup.CopyExercise | src/components/StandaloneSetup.js:124-135 | the copy has exactly the ten known fields, taken from the exercise, with `Equipment` defaulting to "" |
| StandaloneSetup.MinDay | src/components/StandaloneSetup.js:151-152 | the smallest saved day number |
| StandaloneSetup.SaveManualWorkout | src/components/StandaloneSetup.js:113-152 | an error exactly when no day has exercises; otherwise exactly the non-empty days are saved, with their exercises copied in order, and the smallest of them is opened |
| Strings.SplitJoin | src/utils/blockCsvParser.js:8-31 | splitting a join of separator-free pieces gives the pieces back |
| Strings.TrimIdempotent | src/utils/blockCsvParser.js:8-28 | trimming twice is trimming once |
| Strings.TrimWithin | src/utils/blockCsvParser.js:31 | trimming only removes characters, so a trimmed cell holds no comma |
| Strings.ParseIntTextRoundTrip | src/components/BlockSetup.js:57 | `parseInt` reads back an integer's decimal text |
| Strings.ParseDecimalRoundTrip | backend/src/main/java/com/workouttracker/service/WorkoutService.java:141-144 | `Long.parseLong` / `Integer.parseInt` read back an integer's decimal text |
| Seqs.RemoveAtCounts | src/components/StandaloneSetup.js:71 | removing a position takes away one occurrence of that element and nothing else |
| Seqs.SwapPermutes | src/components/StandaloneSetup.js:85-88 | exchanging two elements permutes the list |
| Seqs.FilterMapConcat | src/utils/blockCsvParser.js:27-36 | a skip-or-convert loop over `a + b` gives the results for `a`, then those for `b` |
| Dicts.AppendLookup | src/utils/blockCsvParser.js:51-54 | pushing onto a key's list extends only that key's list, at its end |
| Dicts.GroupByLookup | src/utils/blockCsvParser.js:50-55 | the group under a key holds the elements with that key, in order; a key no element carries is absent |
| Dicts.GroupByDistinct | backend/src/main/java/com/workouttracker/service/WorkoutService.java:94-95 | grouping never produces the same key twice |
| Repo.InsertChildren | backend/src/main/java/com/workouttracker/service/TrainingBlockService.java:124-125 | after a cascading insert, the children read back under parent `k` are the rows built from the `k`-th parent |
| TrainingBlockService.GetTrainingBlockById | backend/src/main/java/com/workouttracker/service/TrainingBlockService.java:29-33 | the stored block, or "Training block not found with id: <id>" |
| TrainingBlockService.BuildSet | backend/src/main/java/com/workouttracker/service/TrainingBlockService.java:97-107 | set number, target sets, reps, both loads, RPE and tempo are the request's; `videoRequired` is true only when the request says true, so null becomes false |
| TrainingBlockService.BuildExercise | backend/src/main/java/com/workouttracker/service/TrainingBlockService.java:87-111 | name, category and order copied; one set per requested set, in order; a null list gives no sets |
| TrainingBlockService.BuildDay | backend/src/main/java/com/workouttracker/service/TrainingBlockService.java:77-115 | number and name copied; a null `restDay` becomes false; one exercise per requested exercise, in order |
| TrainingBlockService.BuildWeek | backend/src/main/java/com/workouttracker/service/TrainingBlockService.java:66-119 | number, type and start date copied; the week ends six days after it starts; one day per requested day, in order |
| TrainingBlockService.BuildBlock | backend/src/main/java/com/workouttracker/service/TrainingBlockService.java:56-122 | length and rates copied; macrocycle and mesocycle "Default"; one week per requested week, in order |
| TrainingBlockService.BuildWeekRoundTrip | backend/src/main/java/com/workouttracker/service/TrainingBlockService.java:65-122 | building from the request read back off a built week gives the same week |
| TrainingBlockService.BuildWeekReadsBack | backend/src/main/java/com/workouttracker/service/TrainingBlockService.java:65-122 | the request read back off a built week is the original request with absent lists made empty and absent flags made false, at every level, so every field comes from the request and nothing else is invented |
| TrainingBlockService.BuildDayReadsBack | backend/src/main/java/com/workouttracker/service/TrainingBlockService.java:76-109 | the same for one day, with its exercises and their sets |
| TrainingBlockService.Persist | backend/src/main/java/com/workouttracker/service/TrainingBlockService.java:124-125 | the cascading save inserts the block and one row per week, day and exercise of the graph (its prescribed sets are inserted too, as PersistSets states); actual sets and users are untouched |
| TrainingBlockService.CreateBlockWithWeeks | backend/src/main/java/com/workouttracker/service/TrainingBlockService.java:55-127 | the new block gets the next id and reads back with the request's length and rates; every other block reads as before |
| TrainingBlockService.PersistWeeks | backend/src/main/java/com/workouttracker/service/TrainingBlockService.java:65-121 | the new block's weeks, read through their foreign key, are the requested weeks in order |
| TrainingBlockService.PersistDays | backend/src/main/java/com/workouttracker/service/TrainingBlockService.java:76-117 | the `k`-th saved week's days are the `k`-th requested week's days, in order |
| TrainingBlockService.PersistExercises | backend/src/main/java/com/workouttracker/service/TrainingBlockService.java:86-113 | the `k`-th saved day's exercises are those of the `k`-th requested day, in order |
| TrainingBlockService.PersistSets | backend/src/main/java/com/workouttracker/service/TrainingBlockService.java:96-109 | the `k`-th saved exercise's prescribed sets are the requested ones, in order |
| TrainingBlockService.PersistKeepsValid | backend/src/main/java/com/workouttracker/service/TrainingBlockService.java:124-125 | saving a graph keeps every table well formed |
| TrainingBlockService.PersistKeepsLinked | backend/src/main/java/com/workouttracker/service/TrainingBlockService.java:124-125 | saving a graph leaves no row pointing at a missing parent |
| TrainingBlockService.CreatedBlockIsFound | backend/src/main/java/com/workouttracker/service/TrainingBlockService.java:29-127 | a block just created is found by its id, with the request's length and rates |
| TrainingBlockService.DeleteTrainingBlock | backend/src/main/java/com/workouttracker/service/TrainingBlockService.java:48-53 | a missing id is "Training block not found with id: <id>" and nothing is deleted; otherwise the cascading delete |
| TrainingBlockService.CascadeBlock | backend/src/main/java/com/workouttracker/model/TrainingBlock.java:49-51 | the block is gone; users and every other block are unchanged |
| TrainingBlockService.CascadeBlockRemoves | backend/src/main/java/com/workouttracker/model/Week.java:42-44 | a week, day, exercise or set stays exactly when it is not under the deleted block |
| TrainingBlockService.CascadeBlockKeepsValid | backend/src/main/java/com/workouttracker/service/TrainingBlockService.java:48-53 | the delete keeps every table well formed |
| TrainingBlockService.CascadeBlockKeepsLinked | backend/src/main/java/com/workouttracker/model/WorkoutDay.java:37-39 | after the delete no row points at a deleted parent |
| ExerciseService.DeleteExercise | backend/src/main/java/com/workouttracker/service/ExerciseService.java:16-20 | a missing id is "Exercise not found with id: <id>" and nothing is deleted; otherwise the cascading delete |
| ExerciseService.CascadeExercise | backend/src/main/java/com/workouttracker/model/Exercise.java:38-44 | the exercise goes with exactly its prescribed and actual sets; blocks, weeks, days, users and other exercises are unchanged |
| ExerciseService.CascadeExerciseKeepsValid | backend/src/main/java/com/workouttracker/service/ExerciseService.java:19 | the delete keeps every table well formed |
| ExerciseService.CascadeExerciseKeepsLinked | backend/src/main/java/com/workouttracker/service/ExerciseService.java:19 | after the delete no set points at the deleted exercise |
| ActualSetService.GetActualSetById | backend/src/main/java/com/workouttracker/service/ActualSetService.java:37-41 | the stored set, or "Actual set not found with id: <id>" |
| ActualSetService.CreateActualSet | backend/src/main/java/com/workouttracker/service/ActualSetService.java:43-59 | succeeds exactly when the exercise and any given prescribed set exist and `videoRecorded` is present; the matching not-found message otherwise, or the NOT NULL failure of the `video_recorded` column (`ActualSet.java:47-48`); the new set is stamped with the call's time and points at its exercise |
| ActualSetService.CreateActualSetKeepsLinked | backend/src/main/java/com/workouttracker/service/ActualSetService.java:43-59 | creating a set keeps the database well formed and linked |
| ActualSetService.Patch | backend/src/main/java/com/workouttracker/service/ActualSetService.java:77-97 | the completion time is never changed |
| ActualSetService.PatchLaws | backend/src/main/java/com/workouttracker/service/ActualSetService.java:77-97 | null means unchanged: an all-null request is the identity, a patch is idempotent, and for each of the nine request fields a present value overwrites and an absent one keeps the stored value; `completedAt` never changes |
| ActualSetService.UpdateActualSet | backend/src/main/java/com/workouttracker/service/ActualSetService.java:61-101 | a missing set gives "Actual set not found"; then a different exercise that does not exist gives "Exercise not found" with its id; then a named prescribed set that does not exist gives "Prescribed set not found" with its id; otherwise only that set changes, reassigned only to a different existing exercise |
| ActualSetService.UpdateActualSetKeepsLinked | backend/src/main/java/com/workouttracker/service/ActualSetService.java:65-75 | an update keeps every set pointing at an existing exercise |
| ActualSetService.DeleteActualSet | backend/src/main/java/com/workouttracker/service/ActualSetService.java:103-108 | a missing id is an error and nothing is deleted; otherwise only that set goes |
| ActualSetService.DeleteActualSetKeepsLinked | backend/src/main/java/com/workouttracker/service/ActualSetService.java:103-108 | deleting a set keeps the database well formed and linked |
| UserService.GetUserById | backend/src/main/java/com/workouttracker/service/UserService.java:31-35 | the stored user, or "User not found with id: <id>" |
| UserService.CreateUser | backend/src/main/java/com/workouttracker/service/UserService.java:37-45 | refused with "User with email … already exists" exactly when the email is in use; otherwise the user is saved under the next id |
| UserService.CreateUserKeepsEmailsUnique | backend/src/main/java/com/workouttracker/service/UserService.java:38-40 | creating a user keeps emails unique |
| UserService.MergeLaws | backend/src/main/java/com/workouttracker/mapper/UserMapper.java:11 | null fields are ignored: an all-null request changes nothing, a merge is idempotent, and for each of the seven fields a present value overwrites and an absent one keeps the stored value |
| UserService.UpdateUser | backend/src/main/java/com/workouttracker/service/UserService.java:47-60 | a missing user is not found; changing to an email another user holds is refused; keeping one's own email is allowed; otherwise only that user changes, to the merge |
| UserService.UpdateUserKeepsEmailsUnique | backend/src/main/java/com/workouttracker/service/UserService.java:51-55 | updating a user keeps emails unique |
| UserService.UpdateRowKeepsEmailsUnique | backend/src/main/java/com/workouttracker/service/UserService.java:51-58 | rewriting a user with their own email or an unused one keeps emails unique |
| UserService.DeleteUser | backend/src/main/java/com/workouttracker/service/UserService.java:62-67 | a missing id is an error and nothing is removed; otherwise only that user goes |
| WorkoutService.DaysAt | backend/src/main/java/com/workouttracker/repository/WorkoutDayRepository.java:16-20 | the days whose week has that block and number and whose day number matches |
| WorkoutService.FindDay | backend/src/main/java/com/workouttracker/service/WorkoutService.java:29-33 | found exactly when one day sits at the place; no day gives "Workout day not found for block …, week …, day …" |
| WorkoutService.EntryError | backend/src/main/java/com/workouttracker/service/WorkoutService.java:39-46 | an entry is refused exactly when its exercise is missing or belongs to another day; a missing exercise gives "Exercise not found with id", one of another day gives "Exercise <id> does not belong to the specified workout day" |
| WorkoutService.FirstRefused | backend/src/main/java/com/workouttracker/service/WorkoutService.java:38-46 | the position the request-order loop stops at: every entry before it is accepted and the entry there, if any, is refused |
| WorkoutService.FirstError | backend/src/main/java/com/workouttracker/service/WorkoutService.java:38-46 | no error exactly when every entry's exercise belongs to the day; otherwise the error of the entry at FirstRefused, the first refused in request order |
| WorkoutService.LoggedRow | backend/src/main/java/com/workouttracker/service/WorkoutService.java:50-63 | the saved set carries the exercise and every field of its requested set, a null `videoRecorded` becomes false and a given one is kept, and it is stamped with the call's time |
| WorkoutService.LoggedRows | backend/src/main/java/com/workouttracker/service/WorkoutService.java:49-66 | one saved set per requested set, all with the same completion time, and `videoRecorded` never null |
| WorkoutService.LoggedRowsAt | backend/src/main/java/com/workouttracker/service/WorkoutService.java:49-66 | set `i` of entry `k` is saved at position `SetCount(es[..k]) + i`, as that entry's exercise and requested set |
| WorkoutService.LoggedRowsOwners | backend/src/main/java/com/workouttracker/service/WorkoutService.java:49-66 | every saved set points at the exercise of one of the entries |
| WorkoutService.LogWorkout | backend/src/main/java/com/workouttracker/service/WorkoutService.java:27-71 | an unknown day is an error with its message; otherwise the first refused entry's message is the error and no set is saved; otherwise exactly the new sets are appended |
| WorkoutService.AppendSets | backend/src/main/java/com/workouttracker/service/WorkoutService.java:49-66 | the old sets are kept, then one new set per requested set, in request order, the `j`-th taking the `j`-th free id; each is stamped with the call's time |
| WorkoutService.AppendedRowIs | backend/src/main/java/com/workouttracker/service/WorkoutService.java:49-66 | set `i` of entry `k` becomes the new row at offset `SetCount(es[..k]) + i`, with the next free id at that offset and the fields of its requested set |
| WorkoutService.LogWorkoutKeepsLinked | backend/src/main/java/com/workouttracker/service/WorkoutService.java:42-46 | the ownership check keeps every set pointing at an existing exercise |
| WorkoutService.LatestCompletion | backend/src/main/java/com/workouttracker/service/WorkoutService.java:87-91 | null exactly when no set has a completion time; otherwise the largest of them |
| WorkoutService.ByExercisePartition | backend/src/main/java/com/workouttracker/service/WorkoutService.java:94-112 | grouping by exercise partitions the sets: one group per exercise, each holding exactly that exercise's sets, in order, and every set in some group |
| WorkoutService.SetsAt | backend/src/main/java/com/workouttracker/repository/ActualSetRepository.java:20-25 | exactly the stored sets whose exercise's day sits at the place |
| WorkoutService.GetWorkout | backend/src/main/java/com/workouttracker/service/WorkoutService.java:73-121 | found exactly when the day is found; the response has the place, the latest completion and the sets at the place grouped by exercise |
| WorkoutService.LogThenGet | backend/src/main/java/com/workouttracker/service/WorkoutService.java:69-70 | a successful log answers with the workout of its day; every new set row is among the sets read at that place; when a set was logged the answer's completion time is no earlier than the call |
| WorkoutService.LoggedSetsAreAt | backend/src/main/java/com/workouttracker/service/WorkoutService.java:49-70 | every set row appended for exercises of the found day sits at the request's place |
| WorkoutService.PlaceKeyRoundTrip | backend/src/main/java/com/workouttracker/service/WorkoutService.java:132-144 | the `%d_%d_%d` key decodes back to the place it was written from |
| WorkoutService.SetsOfBlock | backend/src/main/java/com/workouttracker/service/WorkoutService.java:126 | exactly the stored sets whose exercise sits in the block |
| WorkoutService.ProgressEntry | backend/src/main/java/com/workouttracker/service/WorkoutService.java:140-180 | an entry exists exactly when its key decodes; it carries the decoded place, the group's latest completion and the group grouped by exercise |
| WorkoutService.Progress | backend/src/main/java/com/workouttracker/service/WorkoutService.java:139-182 | succeeds exactly when every group's key decodes; one entry per group, in group order |
| WorkoutService.GetBlockProgress | backend/src/main/java/com/workouttracker/service/WorkoutService.java:123-183 | never fails, because every key it writes decodes |
| WorkoutService.GroupKeyIsPlace | backend/src/main/java/com/workouttracker/service/WorkoutService.java:129-136 | every group's key is the key of the place of one of the block's sets |
| WorkoutService.BlockProgressEntry | backend/src/main/java/com/workouttracker/service/WorkoutService.java:139-180 | each entry is at a place of the block where a set sits, with the latest completion and exercises of exactly the block's sets there |
| WorkoutService.BlockProgressCovers | backend/src/main/java/com/workouttracker/service/WorkoutService.java:129-136 | every place where a set of the block sits has an entry |
| WorkoutService.BlockProgressDistinct | backend/src/main/java/com/workouttracker/service/WorkoutService.java:129-136 | no place has two entries |
| WorkoutService.BlockProgressEmpty | backend/src/test/java/com/workouttracker/service/WorkoutServiceTest.java:92-101 | a block without logged sets has an empty progress list |

## Left out

- Floating point: numbers are `real`, so IEEE-754 rounding in `Math.round`, `Math.pow` and products is not modelled.
- The grammar of `Number(string)` and the text of fractional numbers (`String(1.5)`) are parameters (`NumberFn`, `fractionText`). `parseInt` over exponent notation is not modelled.
- Rounding: only the default increment 2.5 is modelled, because no caller passes another.
- Js.ToNumber: an array or object converts to NaN; JavaScript would first turn it into a string.
- JavaScript object key order is modelled as insertion order; JavaScript lists integer-like keys first. `Object.keys` order therefore differs for day keys added out of numeric order.
- UI, routing and React state: the editor's state is a value passed in and returned; navigation is only the day number `handleSaveManualWorkout` opens.
- StandaloneSetup.SaveManualWorkout: the network calls `deleteBlock` and `ensureStandaloneBlock` are not modelled. The save of the day map and the navigation (StandaloneSetup.js:147-152) run only after `await ensureStandaloneBlock(...)` (line 145) resolves; the model assumes it resolves and does not model a rejection, which would skip both. The `src/services/api.js` in this repository exports no `ensureStandaloneBlock`, although StandaloneSetup.js:6 imports it, so its behaviour is unknown here.
- Storage: only the `localStorage` path is modelled; the Capacitor native store is left out. JSON serialisation is the identity on values; storage quota errors are not modelled.
- `setWorkoutLogs` and the `clear*` helpers of `workoutStorage.js` are not modelled; they are single writes or removals.
- Clocks: `new Date()`, `toISOString()` and `LocalDateTime.now()` are integer parameters. Dates are day numbers.
- BlockSetup.HandleGenerateBlock: the only exception modelled is the `TypeError` the id allocation raises (`existingBlocks.map` is not a function, or `b.blockId` is read from a `null` entry); its text is the parameter `engineMessage`, because the runtime words it. `generateBlockWeeks` is modelled as total, so its own exceptions are left out, and so is a `localStorage` text that is not JSON.
- The CSV upload handler (`handleFileUpload`) is not modelled; it only calls the parser.
- Identity counters after a rollback: every entity uses `GenerationType.IDENTITY` (for example `ActualSet.java:21`), so each `save` takes an id at once. When `logWorkout` refuses a later entry, or the `video_recorded` insert of `createActualSet` fails, the rollback restores the rows but not the counter. The model keeps `next` unchanged on every failure, so the ids it gives the following inserts can be lower than the database's. Only the ids are affected; the rows are not.
- Backend plumbing: controllers, mappers, DTOs, validation annotations and HTTP status mapping are not modelled. Database constraints are not modelled except the `video_recorded` column in ActualSetService.CreateActualSet. The text of that failure is the database's own; `Repo.NotNullMessage` stands for it.
- TrainingBlockService.CreateBlockWithWeeks: succeeds although the source never sets the `created_by_user_id` and `assigned_to_user_id` columns, which `TrainingBlock.java:26-32` declares NOT NULL. Under a schema that enforces them the source's save fails every time. The model states which rows the cascading save writes, not that the schema accepts them.
- ApiTransformers.CategoryOf and ApiTransformers.TempoOf: an inherited `Object.prototype` member is returned by name only. What `JSON.stringify` then sends (a method is dropped, the prototype becomes `{}`) and how the backend rejects it are not modelled.
- ActualSetService.CreateActualSet: requires a present exercise id and set number, which bean validation (`@NotNull`) guarantees before the service runs.
- The `prescribedSetId` foreign key of a logged set is not in `Linked`, because `logWorkout` saves it without checking it.
- `HashMap` iteration order in `getWorkout` and `getBlockProgress` is modelled as first-appearance order. Query results are in id order.
- WorkoutService.FindDay: when several days match, the message is the persistence layer's; it is modelled as a fixed text.
- Progression.CalculateWeekWeight: requires a week number of at least 1, the only numbers `generateBlockWeeks` passes; `Math.pow` with a negative exponent is not modelled.
- StandaloneSetup.SaveExercise: requires the form's day to exist and an edited index to be in range, which the handlers that open the form guarantee.
- StandaloneSetup.DeleteExercise and StandaloneSetup.MoveExercise: require the day to exist, and a move requires the index to be in range, as the buttons that call them guarantee.
- Strings.ParseDecimal: the `Long`/`Integer` range is not modelled.
- The `createdBy`/`assignedTo` relations of blocks and the user's `createdAt` timestamp are not modelled.
- `getAllTrainingBlocks`, `createTrainingBlock`, `getActualSetsByExercise` and `getAllUsers` are not modelled: each is a plain read or an insert without checks.
- `WorkoutService.deleteWorkout` and `TrainingBlockService.getTrainingBlocksBy*User` do not appear in the service source, so they are not modelled.

=== FILE: actual_set_service.dfy ===
/** backend/.../service/ActualSetService.java: reading, logging, patching and
    deleting one performed set. */
module ActualSetService {
  import opened Wrappers
  import opened Enums
  import opened Entities
  import Repo

  /** `CreateActualSetRequest`. Every field may be null here; bean validation
      makes `exerciseId` and `setNumber` present when a set is created. */
  datatype ActualSetRequest = ActualSetRequest(exerciseId: Option<int>, prescribedSetId: Option<int>,
                                               setNumber: Option<int>, actualWeight: Option<real>,
                                               actualReps: Option<int>, actualRPE: Option<int>,
                                               tempoUsed: Option<Tempo>, videoRecorded: Option<bool>,
                                               feedback: Option<string>)

  const ActualSetEntity := "Actual set"
  const ExerciseEntity := "Exercise"
  const PrescribedSetEntity := "Prescribed set"
  const VideoRecordedColumn := "video_recorded"

  datatype Saved = Saved(db: Db, id: int)

  /** `getActualSetById(id)`. */
  function GetActualSetById(db: Db, id: int): (r: Result<ActualRow>)
    ensures r.Success? <==> Repo.Contains(db.actuals, id)
    ensures r.Success? ==> Repo.Row(id, r.value) in db.actuals.rows
    ensures r.Failure? ==> r.error == Repo.NotFoundMessage(ActualSetEntity, id)
  {
    Repo.Get(db.actuals, id, ActualSetEntity)
  }

  /** The row `toEntity(request)` builds, stamped with the time of the call.
      `videoRecorded` is copied as it is; the column refuses a null one. */
  function NewActualRow(r: ActualSetRequest, now: int): ActualRow
    requires r.exerciseId.Some? && r.setNumber.Some?
  {
    ActualRow(r.exerciseId.value, r.prescribedSetId, r.setNumber.value, r.actualWeight, r.actualReps,
              r.actualRPE, r.tempoUsed, r.videoRecorded, r.feedback, Some(now))
  }

  /** `createActualSet(request)`: the exercise must exist, then the
      prescribed set when one is named; a request without `videoRecorded`
      then fails at the save, whose `video_recorded` column is NOT NULL. The
      new set is stamped `now` and only the set table changes. */
  function CreateActualSet(db: Db, r: ActualSetRequest, now: int): (s: Result<Saved>)
    requires r.exerciseId.Some? && r.setNumber.Some?
    ensures s.Success? <==>
      Repo.Contains(db.exercises, r.exerciseId.value)
      && (r.prescribedSetId.Some? ==> Repo.Contains(db.prescribed, r.prescribedSetId.value))
      && r.videoRecorded.Some?
    ensures !Repo.Contains(db.exercises, r.exerciseId.value) ==>
      s == Failure(Repo.NotFoundMessage(ExerciseEntity, r.exerciseId.value))
    ensures Repo.Contains(db.exercises, r.exerciseId.value) && r.prescribedSetId.Some?
            && !Repo.Contains(db.prescribed, r.prescribedSetId.value) ==>
      s == Failure(Repo.NotFoundMessage(PrescribedSetEntity, r.prescribedSetId.value))
    ensures Repo.Contains(db.exercises, r.exerciseId.value)
            && (r.prescribedSetId.Some? ==> Repo.Contains(db.prescribed, r.prescribedSetId.value))
            && r.videoRecorded.None? ==>
      s == Failure(Repo.NotNullMessage(VideoRecordedColumn))
    ensures s.Success? ==>
      s.value.id == db.actuals.next && s.value.db == db.(actuals := s.value.db.actuals)
      && (Repo.Valid(db.actuals) ==>
            GetActualSetById(s.value.db, s.value.id) == Success(NewActualRow(r, now)))
      && forall id :: id != s.value.id ==> Repo.Find(s.value.db.actuals, id) == Repo.Find(db.actuals, id)
  {
    if !Repo.Contains(db.exercises, r.exerciseId.value) then
      Failure(Repo.NotFoundMessage(ExerciseEntity, r.exerciseId.value))
    else if r.prescribedSetId.Some? && !Repo.Contains(db.prescribed, r.prescribedSetId.value) then
      Failure(Repo.NotFoundMessage(PrescribedSetEntity, r.prescribedSetId.value))
    else if r.videoRecorded.None? then
      Failure(Repo.NotNullMessage(VideoRecordedColumn))
    else
      Success(Saved(db.(actuals := Repo.Insert(db.actuals, NewActualRow(r, now))), db.actuals.next))
  }

  /** A created set keeps the database well formed and points at an
      existing exercise. */
  lemma CreateActualSetKeepsLinked(db: Db, r: ActualSetRequest, now: int)
    requires r.exerciseId.Some? && r.setNumber.Some?
    requires ValidDb(db) && Linked(db)
    ensures var s := CreateActualSet(db, r, now);
      s.Success? ==> ValidDb(s.value.db) && Linked(s.value.db)
  {
    if CreateActualSet(db, r, now).Success? {
      var row := NewActualRow(r, now);
      Repo.LinkedAfterInsert(db.actuals, row, ExerciseOfActual, db.exercises);
      WithActuals(db, Repo.Insert(db.actuals, row));
    }
  }

  /** `updateActualSet`'s field-by-field copy: a present request field
      overwrites the stored one, a null one leaves it as it was. The exercise
      is the requested one when given. */
  function Patch(a: ActualRow, r: ActualSetRequest): (p: ActualRow)
    ensures p.completedAt == a.completedAt
  {
    ActualRow(r.exerciseId.GetOr(a.exerciseId),
              if r.prescribedSetId.Some? then r.prescribedSetId else a.prescribedSetId,
              r.setNumber.GetOr(a.setNumber),
              if r.actualWeight.Some? then r.actualWeight else a.actualWeight,
              if r.actualReps.Some? then r.actualReps else a.actualReps,
              if r.actualRPE.Some? then r.actualRPE else a.actualRPE,
              if r.tempoUsed.Some? then r.tempoUsed else a.tempoUsed,
              if r.videoRecorded.Some? then r.videoRecorded else a.videoRecorded,
              if r.feedback.Some? then r.feedback else a.feedback,
              a.completedAt)
  }

  /** The request that changes nothing: every field null. */
  const NoChange := ActualSetRequest(None, None, None, None, None, None, None, None, None)

  /** The request that writes back every field of `a`. */
  function RequestOf(a: ActualRow): ActualSetRequest {
    ActualSetRequest(Some(a.exerciseId), a.prescribedSetId, Some(a.setNumber), a.actualWeight, a.actualReps,
                     a.actualRPE, a.tempoUsed, a.videoRecorded, a.feedback)
  }

  /** Null means "unchanged": an all-null request is the identity, applying
      the same request twice is applying it once, and writing back a row's
      own fields changes nothing. A field that is null in the request keeps
      its stored value; one that is present takes the request's value. */
  lemma PatchLaws(a: ActualRow, r: ActualSetRequest)
    ensures Patch(a, NoChange) == a
    ensures Patch(Patch(a, r), r) == Patch(a, r)
    ensures Patch(a, RequestOf(a)) == a
    ensures r.exerciseId.None? ==> Patch(a, r).exerciseId == a.exerciseId
    ensures r.exerciseId.Some? ==> Patch(a, r).exerciseId == r.exerciseId.value
    ensures r.prescribedSetId.None? ==> Patch(a, r).prescribedSetId == a.prescribedSetId
    ensures r.prescribedSetId.Some? ==> Patch(a, r).prescribedSetId == r.prescribedSetId
    ensures r.setNumber.None? ==> Patch(a, r).setNumber == a.setNumber
    ensures r.setNumber.Some? ==> Patch(a, r).setNumber == r.setNumber.value
    ensures r.actualWeight.None? ==> Patch(a, r).actualWeight == a.actualWeight
    ensures r.actualWeight.Some? ==> Patch(a, r).actualWeight == r.actualWeight
    ensures r.actualReps.None? ==> Patch(a, r).actualReps == a.actualReps
    ensures r.actualReps.Some? ==> Patch(a, r).actualReps == r.actualReps
    ensures r.actualRPE.None? ==> Patch(a, r).actualRPE == a.actualRPE
    ensures r.actualRPE.Some? ==> Patch(a, r).actualRPE == r.actualRPE
    ensures r.tempoUsed.None? ==> Patch(a, r).tempoUsed == a.tempoUsed
    ensures r.tempoUsed.Some? ==> Patch(a, r).tempoUsed == r.tempoUsed
    ensures r.videoRecorded.None? ==> Patch(a, r).videoRecorded == a.videoRecorded
    ensures r.videoRecorded.Some? ==> Patch(a, r).videoRecorded == r.videoRecorded
    ensures r.feedback.None? ==> Patch(a, r).feedback == a.feedback
    ensures r.feedback.Some? ==> Patch(a, r).feedback == r.feedback
    ensures Patch(a, r).completedAt == a.completedAt
  {
  }

  /** `updateActualSet(id, request)`: the set must exist; a different
      exercise must exist; a named prescribed set must exist; then the
      present fields are written and nothing else changes. */
  function UpdateActualSet(db: Db, id: int, r: ActualSetRequest): (s: Result<Db>)
    ensures !Repo.Contains(db.actuals, id) ==> s == Failure(Repo.NotFoundMessage(ActualSetEntity, id))
    ensures Repo.Contains(db.actuals, id) && r.exerciseId.Some?
      && r.exerciseId.value != Repo.Find(db.actuals, id).value.exerciseId
      && !Repo.Contains(db.exercises, r.exerciseId.value)
      ==> s == Failure(Repo.NotFoundMessage(ExerciseEntity, r.exerciseId.value))
    ensures Repo.Contains(db.actuals, id)
      && (r.exerciseId.Some? && r.exerciseId.value != Repo.Find(db.actuals, id).value.exerciseId
          ==> Repo.Contains(db.exercises, r.exerciseId.value))
      && r.prescribedSetId.Some? && !Repo.Contains(db.prescribed, r.prescribedSetId.value)
      ==> s == Failure(Repo.NotFoundMessage(PrescribedSetEntity, r.prescribedSetId.value))
    ensures s.Success? <==>
      Repo.Contains(db.actuals, id)
      && (r.exerciseId.Some? && r.exerciseId.value != Repo.Find(db.actuals, id).value.exerciseId
          ==> Repo.Contains(db.exercises, r.exerciseId.value))
      && (r.prescribedSetId.Some? ==> Repo.Contains(db.prescribed, r.prescribedSetId.value))
    ensures s.Success? ==>
      s.value == db.(actuals := s.value.actuals)
      && (Repo.Valid(db.actuals) ==>
            GetActualSetById(s.value, id) == Success(Patch(Repo.Find(db.actuals, id).value, r)))
      && (Repo.Valid(db.actuals) ==>
            forall other :: other != id ==> Repo.Find(s.value.actuals, other) == Repo.Find(db.actuals, other))
  {
    match Repo.Find(db.actuals, id)
    case None => Failure(Repo.NotFoundMessage(ActualSetEntity, id))
    case Some(a) =>
      if r.exerciseId.Some? && r.exerciseId.value != a.exerciseId && !Repo.Contains(db.exercises, r.exerciseId.value) then
        Failure(Repo.NotFoundMessage(ExerciseEntity, r.exerciseId.value))
      else if r.prescribedSetId.Some? && !Repo.Contains(db.prescribed, r.prescribedSetId.value) then
        Failure(Repo.NotFoundMessage(PrescribedSetEntity, r.prescribedSetId.value))
      else
        var t := Repo.Update(db.actuals, id, Patch(a, r));
        Repo.UpdateReads(db.actuals, id, Patch(a, r));
        Success(db.(actuals := t))
  }

  /** `deleteActualSet(id)`: a missing id is an error and nothing is
      deleted; otherwise that set goes and nothing else changes. */
  function DeleteActualSet(db: Db, id: int): (s: Result<Db>)
    ensures s.Success? <==> Repo.Contains(db.actuals, id)
    ensures s.Failure? ==> s.error == Repo.NotFoundMessage(ActualSetEntity, id)
    ensures s.Success? ==>
      s.value == db.(actuals := s.value.actuals) && GetActualSetById(s.value, id).Failure?
      && (Repo.Valid(db.actuals) ==>
            forall other :: other != id ==> Repo.Find(s.value.actuals, other) == Repo.Find(db.actuals, other))
  {
    if !Repo.Contains(db.actuals, id) then Failure(Repo.NotFoundMessage(ActualSetEntity, id))
    else Success(db.(actuals := Repo.Remove(db.actuals, id)))
  }

  /** Patching a set keeps the database well formed, and the set still points
      at an existing exercise. */
  lemma UpdateActualSetKeepsLinked(db: Db, id: int, r: ActualSetRequest)
    requires ValidDb(db) && Linked(db)
    ensures var s := UpdateActualSet(db, id, r);
      s.Success? ==> ValidDb(s.value) && Linked(s.value)
  {
    if UpdateActualSet(db, id, r).Success? {
      var a := Repo.Find(db.actuals, id).value;
      var i :| 0 <= i < |db.actuals.rows| && db.actuals.rows[i].id == id;
      Repo.FindUnique(db.actuals, id, i);
      Repo.LinkedAfterUpdate(db.actuals, id, Patch(a, r), ExerciseOfActual, db.exercises);
      WithActuals(db, Repo.Update(db.actuals, id, Patch(a, r)));
    }
  }

  /** Deleting a set keeps the database well formed and linked. */
  lemma DeleteActualSetKeepsLinked(db: Db, id: int)
    requires ValidDb(db) && Linked(db)
    ensures var s := DeleteActualSet(db, id);
      s.Success? ==> ValidDb(s.value) && Linked(s.value)
  {
    if DeleteActualSet(db, id).Success? {
      Repo.LinkedAfterRemove(db.actuals, id, ExerciseOfActual, db.exercises);
      WithActuals(db, Repo.Remove(db.actuals, id));
    }
  }
}

=== FILE: api_transformers.dfy ===
/** src/utils/apiTransformers.js: turns generated weeks into the payload the
    backend's block-creation endpoint accepts. Dates are day numbers. */
module ApiTransformers {
  import opened Wrappers
  import opened Js
  import opened Enums
  import Dicts
  import Seqs
  import Progression

  /** `weekTypeMap(weekNumber, blockLength)`: week 1 is the base week even in
      a one-week block, the last week is the deload, the rest progress. */
  function WeekTypeOf(weekNumber: int, blockLength: int): (r: WeekType)
    ensures r == Base <==> weekNumber == 1
    ensures r == Deload <==> weekNumber != 1 && weekNumber == blockLength
    ensures r == Progression <==> weekNumber != 1 && weekNumber != blockLength
  {
    if weekNumber == 1 then Base
    else if weekNumber == blockLength then Deload
    else Progression
  }

  /** The week type names the rule `calculateWeekWeight` applies to that week:
      the base load as it is, the deload factor, or compounded growth. */
  lemma WeekTypeMatchesWeekWeight(base: Value, weekNumber: int, progressionRate: real,
                                  deloadRate: real, blockLength: int, number: NumberFn)
    requires weekNumber >= 1
    ensures var w := Progression.CalculateWeekWeight(base, weekNumber, progressionRate,
                                                     deloadRate, blockLength, number);
            match WeekTypeOf(weekNumber, blockLength)
            case Base => w == base
            case Deload => w == Progression.ScaledLoad(base, deloadRate, number)
            case Progression =>
              w == Progression.ScaledLoad(base, Progression.Growth(progressionRate, weekNumber), number)
  {
  }

  /** What `map[key] || fallback` yields on an object literal: one of the
      map's own names (or the fallback), or a member every object inherits
      from `Object.prototype`, which is truthy and so beats the fallback. The
      payload field then holds that method (or, for `__proto__`, the
      prototype itself) instead of an enum name. */
  datatype Lookup<T> = Named(value: T) | Inherited(key: string)

  /** `categoryMap[v] || 'ACCESSORY'`: the property key is `String(v)`, so a
      one-element array looks up its element's text. */
  function CategoryOf(v: Value, fractionText: real -> string): (r: Lookup<Category>)
    ensures r == Named(Squat) <==> Text(v, fractionText) == "Squat"
    ensures r == Named(Bench) <==> Text(v, fractionText) == "Bench"
    ensures r == Named(Deadlift) <==> Text(v, fractionText) == "Deadlift"
    ensures r.Inherited? <==> Text(v, fractionText) in ObjectPrototypeKeys
    ensures r.Inherited? ==> r.key == Text(v, fractionText)
  {
    var key := Text(v, fractionText);
    if key == "Squat" then Named(Squat)
    else if key == "Bench" then Named(Bench)
    else if key == "Deadlift" then Named(Deadlift)
    else if key in ObjectPrototypeKeys then Inherited(key)
    else Named(Accessory)
  }

  /** `tempoMap[v] || 'CONTROLLED'`, looked up under `String(v)` as above. */
  function TempoOf(v: Value, fractionText: real -> string): (r: Lookup<Tempo>)
    ensures r == Named(Explosive) <==> Text(v, fractionText) == "Explosive"
    ensures r.Inherited? <==> Text(v, fractionText) in ObjectPrototypeKeys
    ensures r.Inherited? ==> r.key == Text(v, fractionText)
  {
    var key := Text(v, fractionText);
    if key == "Explosive" then Named(Explosive)
    else if key in ObjectPrototypeKeys then Inherited(key)
    else Named(Controlled)
  }

  /** A one-element array is looked up as its element: `String([x])` is
      `String(x)` unless `x` is `null` or `undefined`. */
  lemma SingletonKey(x: Value, fractionText: real -> string)
    requires !x.Null? && !x.Undefined?
    ensures CategoryOf(Arr([x]), fractionText) == CategoryOf(x, fractionText)
    ensures TempoOf(Arr([x]), fractionText) == TempoOf(x, fractionText)
  {
    var parts := seq(1, i requires 0 <= i < 1 =>
      if [x][i].Undefined? || [x][i].Null? then "" else Text([x][i], fractionText));
    assert parts == [Text(x, fractionText)];
  }

  /** How many times `for (let i = 1; i <= bound; i++)` runs: `i <= bound`
      compares numerically and is false against `NaN`. */
  function LoopCount(bound: Option<real>): (r: nat)
    ensures r == 0 <==> bound.None? || bound.value < 1.0
    ensures r > 0 ==> r as real <= bound.value < r as real + 1.0
  {
    if bound.Some? && bound.value >= 1.0 then bound.value.Floor else 0
  }

  datatype PrescribedSetPayload = PrescribedSetPayload(
    setNumber: int,
    targetSets: Value,
    targetReps: Value,
    targetLoadMin: Value,
    targetLoadMax: Value,
    targetRPE: Value,
    tempo: Lookup<Tempo>,
    videoRequired: bool)

  datatype ExercisePayload = ExercisePayload(
    name: Value,
    category: Lookup<Category>,
    orderInWorkout: int,
    prescribedSets: seq<PrescribedSetPayload>)

  datatype DayPayload = DayPayload(
    dayNumber: Option<int>,
    dayName: string,
    restDay: bool,
    exercises: seq<ExercisePayload>)

  datatype WeekPayload = WeekPayload(
    weekNumber: int,
    weekType: WeekType,
    startDate: int,
    days: seq<DayPayload>)

  datatype BlockPayload = BlockPayload(
    blockLength: int,
    progressionRate: real,
    deloadRate: real,
    weeks: seq<WeekPayload>)

  /** The set every prescribed set of an exercise copies, numbered
      `setNumber`: reps default to 10; a falsy load falls back to the base
      load and then to `null`; RPE defaults to `null`; video is never
      required. */
  function SetTemplate(exercise: Record, sets: Value, setNumber: int,
                       fractionText: real -> string): (r: PrescribedSetPayload)
    ensures r.setNumber == setNumber && r.targetSets == sets
    ensures r.targetReps == if Truthy(Get(exercise, "Reps")) then exercise["Reps"] else Num(10.0)
    ensures Truthy(Get(exercise, "LoadMin")) ==> r.targetLoadMin == exercise["LoadMin"]
    ensures !Truthy(Get(exercise, "LoadMin")) && Truthy(Get(exercise, "BaseLoadMin")) ==>
              r.targetLoadMin == exercise["BaseLoadMin"]
    ensures !Truthy(Get(exercise, "LoadMin")) && !Truthy(Get(exercise, "BaseLoadMin")) ==>
              r.targetLoadMin == Null
    ensures Truthy(Get(exercise, "LoadMax")) ==> r.targetLoadMax == exercise["LoadMax"]
    ensures !Truthy(Get(exercise, "LoadMax")) && Truthy(Get(exercise, "BaseLoadMax")) ==>
              r.targetLoadMax == exercise["BaseLoadMax"]
    ensures !Truthy(Get(exercise, "LoadMax")) && !Truthy(Get(exercise, "BaseLoadMax")) ==>
              r.targetLoadMax == Null
    ensures r.targetRPE == if Truthy(Get(exercise, "RPE")) then exercise["RPE"] else Null
    ensures r.tempo == TempoOf(Get(exercise, "Tempo"), fractionText) && !r.videoRequired
  {
    PrescribedSetPayload(
      setNumber,
      sets,
      Or(Get(exercise, "Reps"), Num(10.0)),
      Or(Or(Get(exercise, "LoadMin"), Get(exercise, "BaseLoadMin")), Null),
      Or(Or(Get(exercise, "LoadMax"), Get(exercise, "BaseLoadMax")), Null),
      Or(Get(exercise, "RPE"), Null),
      TempoOf(Get(exercise, "Tempo"), fractionText),
      false)
  }

  /** `transformExercise(exercise, orderInWorkout)`: `n = Sets || 1`
      prescribed sets numbered 1 .. n, all alike but for their number, each
      recording `n` as its target set count. */
  function TransformExercise(exercise: Record, orderInWorkout: int, number: NumberFn,
                             fractionText: real -> string): (r: ExercisePayload)
    ensures var sets := Or(Get(exercise, "Sets"), Num(1.0));
            |r.prescribedSets| == LoopCount(ToNumber(sets, number))
            && (forall i :: 0 <= i < |r.prescribedSets| ==>
                  r.prescribedSets[i].setNumber == i + 1 && r.prescribedSets[i].targetSets == sets)
            && (|r.prescribedSets| > 0 ==> r.prescribedSets[0] == SetTemplate(exercise, sets, 1, fractionText))
    ensures forall i, j :: 0 <= i < |r.prescribedSets| && 0 <= j < |r.prescribedSets| ==>
      r.prescribedSets[i].(setNumber := 0) == r.prescribedSets[j].(setNumber := 0)
    ensures r.name == Get(exercise, "Exercise")
    ensures r.category == CategoryOf(Get(exercise, "Category"), fractionText)
    ensures r.orderInWorkout == orderInWorkout
  {
    var sets := Or(Get(exercise, "Sets"), Num(1.0));
    var n := LoopCount(ToNumber(sets, number));
    ExercisePayload(
      Get(exercise, "Exercise"),
      CategoryOf(Get(exercise, "Category"), fractionText),
      orderInWorkout,
      seq(n, i requires 0 <= i < n => SetTemplate(exercise, sets, i + 1, fractionText)))
  }

  /** One day of a week: `{dayNumber, dayName, restDay, exercises}`. */
  function TransformDay(key: Value, exercises: seq<Record>, number: NumberFn,
                        fractionText: real -> string): (r: DayPayload)
    ensures r.dayNumber == ParseInt(key)
    ensures r.dayName == "Day " + Text(key, fractionText)
    ensures r.restDay <==> exercises == []
    ensures |r.exercises| == |exercises|
    ensures forall m :: 0 <= m < |exercises| ==>
      r.exercises[m] == TransformExercise(exercises[m], m + 1, number, fractionText)
  {
    DayPayload(
      ParseInt(key),
      "Day " + Text(key, fractionText),
      |exercises| == 0,
      seq(|exercises|, m requires 0 <= m < |exercises| =>
        TransformExercise(exercises[m], m + 1, number, fractionText)))
  }

  /** `transformWeeks(weeks, blockLength, startDate)`: week `i` starts
      `7 * i` days after `startDate`; its days follow the key order of
      `week.days`. */
  function TransformWeeks(weeks: seq<Progression.Week>, blockLength: int, startDate: int,
                          number: NumberFn, fractionText: real -> string): (r: seq<WeekPayload>)
    ensures |r| == |weeks|
    ensures forall i :: 0 <= i < |weeks| ==>
      r[i].weekNumber == weeks[i].weekNumber
      && r[i].weekType == WeekTypeOf(weeks[i].weekNumber, blockLength)
      && r[i].startDate == startDate + 7 * i
      && |r[i].days| == |weeks[i].days|
    ensures forall i, d :: 0 <= i < |weeks| && 0 <= d < |weeks[i].days| ==>
      r[i].days[d] == TransformDay(weeks[i].days[d].key, weeks[i].days[d].value, number, fractionText)
  {
    seq(|weeks|, i requires 0 <= i < |weeks| =>
      WeekPayload(
        weeks[i].weekNumber,
        WeekTypeOf(weeks[i].weekNumber, blockLength),
        startDate + 7 * i,
        seq(|weeks[i].days|, d requires 0 <= d < |weeks[i].days| =>
          TransformDay(weeks[i].days[d].key, weeks[i].days[d].value, number, fractionText))))
  }

  /** `transformBlockForAPI(block)`: the block's own start date when it has
      one, otherwise today; length and rates copied as they are. */
  function TransformBlockForApi(blockLength: int, progressionRate: real, deloadRate: real,
                                weeks: seq<Progression.Week>, startDate: Option<int>, today: int,
                                number: NumberFn, fractionText: real -> string): (r: BlockPayload)
    ensures r.blockLength == blockLength
    ensures r.progressionRate == progressionRate && r.deloadRate == deloadRate
    ensures |r.weeks| == |weeks|
    ensures forall i :: 0 <= i < |weeks| ==>
      r.weeks[i].weekNumber == weeks[i].weekNumber
      && r.weeks[i].weekType == WeekTypeOf(weeks[i].weekNumber, blockLength)
      && r.weeks[i].startDate == startDate.GetOr(today) + 7 * i
      && |r.weeks[i].days| == |weeks[i].days|
  {
    BlockPayload(blockLength, progressionRate, deloadRate,
      TransformWeeks(weeks, blockLength, startDate.GetOr(today), number, fractionText))
  }
}

=== FILE: block_setup.dfy ===
/** src/components/BlockSetup.js, `handleGenerateBlock`: generate the weeks
    of a block from the uploaded base week, number the block after the ones
    already stored, and save it. */
module BlockSetup {
  import opened Wrappers
  import opened Js
  import Strings
  import Seqs
  import Dicts
  import Progression
  import WorkoutStorage

  const NoWeek1Message := "Please upload Week 1 CSV file first"
  const ErrorPrefix := "Error generating block: "

  /** `Math.max(...xs)` over `Number(...)` of each argument: `NaN` (`None`) as
      soon as one argument is `NaN`, else the largest. */
  function MathMax(xs: seq<Option<real>>): (r: Option<real>)
    requires |xs| > 0
    ensures r.None? <==> exists i :: 0 <= i < |xs| && xs[i].None?
    ensures r.Some? ==> (forall i :: 0 <= i < |xs| ==> xs[i].value <= r.value)
                        && exists i :: 0 <= i < |xs| && xs[i] == r
  {
    if |xs| == 1 then xs[0]
    else
      var rest := MathMax(xs[1..]);
      assert forall i :: 1 <= i < |xs| ==> xs[i] == xs[1..][i - 1];
      if xs[0].None? || rest.None? then None
      else
        Some(if xs[0].value >= rest.value then xs[0].value else rest.value)
  }

  /** `b.blockId` for each stored block; `None` where reading it throws. */
  function BlockIds(blocks: seq<Value>, number: NumberFn): (r: Option<seq<Option<real>>>)
    ensures r.None? <==> WorkoutStorage.HasHole(blocks)
    ensures r.Some? ==>
      |r.value| == |blocks| && forall i :: 0 <= i < |blocks| ==> r.value[i] == ToNumber(Prop(blocks[i], "blockId"), number)
  {
    if WorkoutStorage.HasHole(blocks) then None
    else Some(Seqs.Map(blocks, (b: Value) => ToNumber(Prop(b, "blockId"), number)))
  }

  /** The raw `training_blocks` entry, parsed, `'[]'` standing in when absent. */
  function ExistingBlocks(store: WorkoutStorage.Store): Value {
    if WorkoutStorage.BlocksKey in store then store[WorkoutStorage.BlocksKey] else Arr([])
  }

  /** `existingBlocks.length > 0 ? Math.max(...existingBlocks.map(b => b.blockId)) + 1 : 1`.
      `Failure` is a thrown `TypeError`: the list is `null`, a non-empty
      string or a non-empty array-like object has no `map`, or an element is
      `null`. */
  function NextBlockId(existing: Value, number: NumberFn): (r: Result<Value>)
    ensures existing == Arr([]) ==> r == Success(Num(1.0))
    ensures existing.Arr? ==> (r.Failure? <==> WorkoutStorage.HasHole(existing.items))
    ensures existing.Arr? && |existing.items| > 0 && r.Success? ==>
      var ids := BlockIds(existing.items, number).value;
      (r.value.NaN? <==> exists i :: 0 <= i < |ids| && ids[i].None?)
      && (r.value.Num? ==> (forall i :: 0 <= i < |ids| ==> ids[i].value < r.value.n)
                           && exists i :: 0 <= i < |ids| && ids[i] == Some(r.value.n - 1.0))
    ensures r.Success? ==> r.value.Num? || r.value.NaN?
  {
    match existing
    case Null => Failure("TypeError")
    case Undefined => Failure("TypeError")
    case Str(s) => if |s| > 0 then Failure("TypeError") else Success(Num(1.0))
    case Obj(fields) =>
      var len := ToNumber(Get(fields, "length"), number);
      if len.Some? && len.value > 0.0 then Failure("TypeError") else Success(Num(1.0))
    case Arr(items) =>
      if |items| == 0 then Success(Num(1.0))
      else
        var ids := BlockIds(items, number);
        if ids.None? then Failure("TypeError")
        else
          var m := MathMax(ids.value);
          Success(if m.Some? then Num(m.value + 1.0) else NaN)
    case _ => Success(Num(1.0))
  }

  /** A day of a stored block: `{ dayNumber: parseInt(dayNum, 10), exercises }`. */
  datatype StoredDay = StoredDay(dayNumber: Option<int>, exercises: seq<Record>)

  /** A week of a stored block: `{ weekNumber, days }`. */
  datatype StoredWeek = StoredWeek(weekNumber: int, days: seq<StoredDay>)

  /** The block object `handleGenerateBlock` saves. */
  datatype StoredBlock = StoredBlock(blockId: Value, blockLength: int, progressionRate: real,
                                     deloadRate: real, createdAt: string, weeks: seq<StoredWeek>)

  /** A day grouped under an integer key gets that integer as its number:
      `parseInt(dayNum, 10)` is `Js.ParseInt` of the key. */
  lemma DayNumberOfIntegerKey(n: int)
    ensures ParseInt(Num(n as real)) == Some(n)
  {
    assert Trunc(n as real) == n;
  }

  /** `week => ({ weekNumber, days: Object.keys(week.days).map(...) })` */
  function StoreWeek(w: Progression.Week): (r: StoredWeek)
    ensures r.weekNumber == w.weekNumber && |r.days| == |w.days|
    ensures forall d :: 0 <= d < |w.days| ==>
      r.days[d].exercises == w.days[d].value
      && r.days[d].dayNumber == ParseInt(w.days[d].key)
  {
    StoredWeek(w.weekNumber, Seqs.Map(w.days, (e: Dicts.Entry<Value, seq<Record>>) =>
      StoredDay(ParseInt(e.key), e.value)))
  }

  /** The block as the value written to storage. */
  function BlockValue(b: StoredBlock): Value {
    Obj(map["blockId" := b.blockId, "blockLength" := Num(b.blockLength as real),
            "progressionRate" := Num(b.progressionRate), "deloadRate" := Num(b.deloadRate),
            "createdAt" := Str(b.createdAt),
            "weeks" := Arr(Seqs.Map(b.weeks, WeekValue))])
  }

  function WeekValue(w: StoredWeek): Value {
    Obj(map["weekNumber" := Num(w.weekNumber as real),
            "days" := Arr(Seqs.Map(w.days, DayValue))])
  }

  function DayValue(d: StoredDay): Value {
    Obj(map["dayNumber" := (if d.dayNumber.Some? then Num(d.dayNumber.value as real) else NaN),
            "exercises" := Arr(Seqs.Map(d.exercises, (e: Record) => Obj(e)))])
  }

  datatype Generated = Generated(block: StoredBlock, store: WorkoutStorage.Store)

  /** `handleGenerateBlock()`. The creation time is a parameter; `engineMessage`
      is the text of a `TypeError` the engine raises. */
  function HandleGenerateBlock(week1Data: Option<Dicts.Dict<Value, seq<Record>>>, blockLength: int,
                               progressionRate: real, deloadRate: real,
                               store: WorkoutStorage.Store, createdAt: string,
                               number: NumberFn, engineMessage: string): (r: Result<Generated>)
    ensures week1Data.None? ==> r == Failure(NoWeek1Message)
    ensures week1Data.Some? && r.Failure? ==> r.error == ErrorPrefix + engineMessage
    ensures week1Data.Some? ==> (r.Success? <==> NextBlockId(ExistingBlocks(store), number).Success?)
    ensures r.Success? ==>
      var b := r.value.block;
      var weeks := Progression.GenerateBlockWeeks(week1Data.value, blockLength, progressionRate,
                                                  deloadRate, number);
      b.blockId == NextBlockId(ExistingBlocks(store), number).value
      && b.blockLength == blockLength && b.progressionRate == progressionRate
      && b.deloadRate == deloadRate && b.createdAt == createdAt
      && |b.weeks| == |weeks|
      && (forall w :: 0 <= w < |weeks| ==> b.weeks[w] == StoreWeek(weeks[w]))
      && WorkoutStorage.GetTrainingBlocks(r.value.store)
           == WorkoutStorage.GetTrainingBlocks(store) + [BlockValue(b)]
  {
    if week1Data.None? then Failure(NoWeek1Message)
    else
      var weeks := Progression.GenerateBlockWeeks(week1Data.value, blockLength, progressionRate,
                                                  deloadRate, number);
      var nextBlockId := NextBlockId(ExistingBlocks(store), number);
      if nextBlockId.Failure? then Failure(ErrorPrefix + engineMessage)
      else
        var block := StoredBlock(nextBlockId.value, blockLength, progressionRate, deloadRate,
                                 createdAt, Seqs.Map(weeks, StoreWeek));
        Success(Generated(block, WorkoutStorage.SaveTrainingBlock(store, BlockValue(block))))
  }

  /** Every block already stored carries a numeric `blockId`, as the blocks
      this screen saves do. (A `null` id would count as 0 for `Math.max` yet
      let the lookup fall back to `id`.) */
  predicate NumberedBlocks(blocks: seq<Value>, number: NumberFn) {
    forall i :: 0 <= i < |blocks| ==> Prop(blocks[i], "blockId").Num?
  }

  /** When the stored blocks form an array whose entries all carry numeric
      ids, whatever else the store holds, the generated block gets a fresh id,
      and looking that id up afterwards finds the new block. */
  lemma {:induction false} GeneratedBlockIsFound(week1Data: Dicts.Dict<Value, seq<Record>>, blockLength: int,
                                                 progressionRate: real, deloadRate: real,
                                                 blocks: seq<Value>, store: WorkoutStorage.Store,
                                                 createdAt: string, number: NumberFn,
                                                 engineMessage: string)
    requires ExistingBlocks(store) == Arr(blocks)
    requires NumberedBlocks(blocks, number)
    ensures var r := HandleGenerateBlock(Some(week1Data), blockLength, progressionRate, deloadRate,
                                         store, createdAt, number, engineMessage);
            r.Success? && r.value.block.blockId.Num?
            && WorkoutStorage.GetTrainingBlock(r.value.store, r.value.block.blockId, number)
                 == BlockValue(r.value.block)
  {
    NextIdFresh(blocks, number);
    var r := HandleGenerateBlock(Some(week1Data), blockLength, progressionRate, deloadRate,
                                 store, createdAt, number, engineMessage);
    var saved := BlockValue(r.value.block);
    assert WorkoutStorage.GetTrainingBlocks(store) == blocks;
    assert WorkoutStorage.HasId(saved, r.value.block.blockId.n, number);
    SavedBlockFound(r.value.store, blocks, saved, r.value.block.blockId, number);
  }

  /** The next id of numbered blocks is a number no stored block carries. */
  lemma NextIdFresh(blocks: seq<Value>, number: NumberFn)
    requires NumberedBlocks(blocks, number)
    ensures var next := NextBlockId(Arr(blocks), number);
            next.Success? && next.value.Num?
            && forall i :: 0 <= i < |blocks| ==>
                 !(blocks[i].Null? || blocks[i].Undefined?)
                 && !WorkoutStorage.HasId(blocks[i], next.value.n, number)
  {
    var next := NextBlockId(Arr(blocks), number);
    assert !WorkoutStorage.HasHole(blocks);
    if blocks != [] {
      var ids := BlockIds(blocks, number).value;
      assert forall i :: 0 <= i < |ids| ==> ids[i].Some?;
      forall i | 0 <= i < |blocks|
        ensures !WorkoutStorage.HasId(blocks[i], next.value.n, number)
      {
        assert ids[i].value < next.value.n;
        assert Prop(blocks[i], "blockId") != Undefined && Prop(blocks[i], "blockId") != Null;
      }
    }
  }

  /** A lookup by an id that only the last block carries finds that block. */
  lemma SavedBlockFound(store: WorkoutStorage.Store, blocks: seq<Value>, saved: Value, id: Value,
                        number: NumberFn)
    requires WorkoutStorage.GetTrainingBlocks(store) == blocks + [saved]
    requires id.Num? && saved.Obj? && WorkoutStorage.HasId(saved, id.n, number)
    requires forall i :: 0 <= i < |blocks| ==>
      !(blocks[i].Null? || blocks[i].Undefined?) && !WorkoutStorage.HasId(blocks[i], id.n, number)
    ensures WorkoutStorage.GetTrainingBlock(store, id, number) == saved
  {
    FindAfter(blocks, saved, id.n, number);
    assert (blocks + [saved])[|blocks|] == saved;
  }

  /** Searching past a prefix of non-matching, non-null blocks finds the block after it. */
  lemma {:induction false} FindAfter(blocks: seq<Value>, last: Value, id: real, number: NumberFn)
    requires forall i :: 0 <= i < |blocks| ==>
      !(blocks[i].Null? || blocks[i].Undefined?) && !WorkoutStorage.HasId(blocks[i], id, number)
    requires WorkoutStorage.HasId(last, id, number)
    ensures WorkoutStorage.FindBlock(blocks + [last], id, number) == Success(Some(|blocks|))
    decreases |blocks|
  {
    if blocks != [] {
      assert (blocks + [last])[1..] == blocks[1..] + [last];
      FindAfter(blocks[1..], last, id, number);
    }
  }
}

=== FILE: csv.dfy ===
/** The two CSV readers, src/utils/blockCsvParser.js (`parseBlockCSV`, base
    loads) and src/utils/csvParser.js (`parseCSV`, fixed loads). They run
    the same algorithm and differ only in the names of their two load
    columns, so one parser is modelled, parameterised by its format. */
module Csv {
  import opened Wrappers
  import opened Js
  import Strings
  import Seqs
  import Dicts

  /** The columns a file must carry and those read as numbers. */
  datatype Format = Format(required: seq<string>, numeric: seq<string>)

  /** `parseBlockCSV`: a base week with `BaseLoadMin`/`BaseLoadMax`. */
  const BlockFormat := Format(
    ["Day", "Exercise", "Sets", "Reps", "BaseLoadMin", "BaseLoadMax", "RPE"],
    ["Day", "Sets", "Reps", "BaseLoadMin", "BaseLoadMax", "RPE"])

  /** `parseCSV`: a plan with fixed `LoadMin`/`LoadMax`. */
  const PlanFormat := Format(
    ["Day", "Exercise", "Sets", "Reps", "LoadMin", "LoadMax", "RPE"],
    ["Day", "Sets", "Reps", "LoadMin", "LoadMax", "RPE"])

  const TooShortMessage := "CSV file must have at least a header row and one data row"

  function MissingHeadersMessage(format: Format): string {
    "CSV must contain all required headers: " + Strings.JoinWith(format.required, ", ")
  }

  /** `s.split(',').map(v => v.trim())`: at least one cell, none holding a
      comma or starting or ending with whitespace. */
  function Cells(line: string): (r: seq<string>)
    ensures |r| >= 1
    ensures forall i :: 0 <= i < |r| ==> ',' !in r[i]
    ensures forall i :: 0 <= i < |r| ==>
      r[i] == [] || (!Strings.IsWhitespace(r[i][0]) && !Strings.IsWhitespace(r[i][|r[i]| - 1]))
  {
    var pieces := Strings.Split(line, ',');
    TrimmedCells(pieces);
    Seqs.Map(pieces, Strings.Trim)
  }

  lemma TrimmedCells(pieces: seq<string>)
    requires forall i :: 0 <= i < |pieces| ==> ',' !in pieces[i]
    ensures var r := Seqs.Map(pieces, Strings.Trim);
      forall i :: 0 <= i < |r| ==> ',' !in r[i]
  {
    forall i | 0 <= i < |pieces|
      ensures ',' !in Strings.Trim(pieces[i])
    {
      Strings.TrimWithin(pieces[i], ',');
    }
  }

  /** One cell of a row: numeric columns give `null` when empty and
      `Number(value)` otherwise; other columns keep the trimmed text. */
  function Cell(format: Format, header: string, value: string, number: NumberFn): (r: Value)
    ensures header in format.numeric && value == "" ==> r == Null
    ensures header in format.numeric && value != "" ==> r == FromNumber(number(value))
    ensures header !in format.numeric ==> r == Str(value)
  {
    if header in format.numeric then
      if value == "" then Null else FromNumber(number(value))
    else Str(value)
  }

  /** The index of the last occurrence of `h` in `hs`. */
  function LastIndex(hs: seq<string>, h: string): (r: nat)
    requires h in hs
    ensures r < |hs| && hs[r] == h
    ensures forall j :: r < j < |hs| ==> hs[j] != h
  {
    if hs[|hs| - 1] == h then |hs| - 1
    else
      assert h in hs[..|hs| - 1] by {
        var k :| 0 <= k < |hs| && hs[k] == h;
        assert hs[..|hs| - 1][k] == h;
      }
      LastIndex(hs[..|hs| - 1], h)
  }

  /** `headers.forEach((header, index) => workout[header] = ...)`: one field
      per header; a repeated header keeps the value of its last column. */
  function MakeRow(format: Format, headers: seq<string>, values: seq<string>, number: NumberFn): (r: Record)
    requires |headers| == |values|
    ensures r.Keys == set h | h in headers
    ensures forall h :: h in headers ==>
      r[h] == Cell(format, h, values[LastIndex(headers, h)], number)
    decreases |headers|
  {
    if headers == [] then map[]
    else
      var n := |headers| - 1;
      var prev := MakeRow(format, headers[..n], values[..n], number);
      var r := prev[headers[n] := Cell(format, headers[n], values[n], number)];
      forall h | h in headers
        ensures h in r && r[h] == Cell(format, h, values[LastIndex(headers, h)], number)
      {
        if h != headers[n] {
          var k :| 0 <= k < |headers| && headers[k] == h;
          assert headers[..n][k] == h;
          assert LastIndex(headers, h) == LastIndex(headers[..n], h);
        }
      }
      assert forall h :: h in headers[..n] ==> h in headers;
      r
  }

  /** A data line is kept when it is not blank and has as many cells as the
      header has columns. */
  predicate Accepted(headers: seq<string>, line: string) {
    Strings.Trim(line) != "" && |Cells(Strings.Trim(line))| == |headers|
  }

  /** The row a kept line yields. */
  function RowOf(format: Format, headers: seq<string>, number: NumberFn, line: string): Record {
    if Accepted(headers, line) then MakeRow(format, headers, Cells(Strings.Trim(line)), number)
    else map[]
  }

  /** `Accepted` and `RowOf` as function values, named so that each use
      denotes the same function. */
  function KeepLine(headers: seq<string>): string -> bool {
    l => Accepted(headers, l)
  }

  function RowMaker(format: Format, headers: seq<string>, number: NumberFn): string -> Record {
    l => RowOf(format, headers, number, l)
  }

  /** The loop over the data lines: blank lines and lines with the wrong
      number of cells are skipped, every other line becomes a row. */
  function AcceptedRows(format: Format, headers: seq<string>, lines: seq<string>, number: NumberFn): (r: seq<Record>)
    ensures |r| <= |lines|
  {
    Seqs.FilterMap(lines, KeepLine(headers), RowMaker(format, headers, number))
  }

  /** The rows of `a + b` are those of `a` followed by those of `b`: skipping
      a line never affects the others. */
  lemma AcceptedRowsConcat(format: Format, headers: seq<string>, a: seq<string>,
                           b: seq<string>, number: NumberFn)
    ensures AcceptedRows(format, headers, a + b, number) ==
            AcceptedRows(format, headers, a, number) + AcceptedRows(format, headers, b, number)
  {
    Seqs.FilterMapConcat(a, b, KeepLine(headers), RowMaker(format, headers, number));
  }

  /** The kept lines, in file order, each turned into its row. */
  lemma AcceptedRowsAreKeptLines(format: Format, headers: seq<string>,
                                 lines: seq<string>, number: NumberFn)
    ensures AcceptedRows(format, headers, lines, number) ==
            Seqs.Map(Seqs.Filter(lines, KeepLine(headers)), RowMaker(format, headers, number))
  {
    Seqs.FilterMapIsMapFilter(lines, KeepLine(headers), RowMaker(format, headers, number));
  }

  /** The data lines and the trimmed header cells of a file. */
  function Lines(csvText: string): seq<string> {
    Strings.Split(Strings.Trim(csvText), '\n')
  }

  function Headers(csvText: string): seq<string>
    requires |Lines(csvText)| >= 1
  {
    Cells(Lines(csvText)[0])
  }

  predicate HasAllHeaders(format: Format, headers: seq<string>) {
    forall h :: h in format.required ==> h in headers
  }

  /** The day an exercise row belongs to. */
  function DayOf(row: Record): Value {
    Get(row, "Day")
  }

  /** `parseBlockCSV` / `parseCSV`. */
  function ParseCsv(format: Format, csvText: string, number: NumberFn): (r: Result<Dicts.Dict<Value, seq<Record>>>)
    ensures |Lines(csvText)| < 2 ==> r == Failure(TooShortMessage)
    ensures |Lines(csvText)| >= 2 && !HasAllHeaders(format, Headers(csvText)) ==>
              r == Failure(MissingHeadersMessage(format))
    ensures |Lines(csvText)| >= 2 && HasAllHeaders(format, Headers(csvText)) ==> r.Success?
    ensures r.Success? ==>
      Dicts.TotalSize(r.value) == |AcceptedRows(format, Headers(csvText), Lines(csvText)[1..], number)|
  {
    var lines := Lines(csvText);
    if |lines| < 2 then Failure(TooShortMessage)
    else
      var headers := Cells(lines[0]);
      if !HasAllHeaders(format, headers) then
        Failure(MissingHeadersMessage(format))
      else
        Success(Dicts.GroupBy(AcceptedRows(format, headers, lines[1..], number), DayOf))
  }

  /** After a successful parse, the exercises under a day are exactly the kept
      rows of that day, in file order; a day no kept row names is absent. */
  lemma ParseCsvGroupsByDay(format: Format, csvText: string, number: NumberFn, day: Value)
    requires ParseCsv(format, csvText, number).Success?
    ensures var rows := AcceptedRows(format, Headers(csvText), Lines(csvText)[1..], number);
            var days := ParseCsv(format, csvText, number).value;
            Dicts.Lookup(days, day) ==
              if Dicts.Occurs(rows, DayOf, day) then Some(Seqs.Filter(rows, Dicts.HasKey(DayOf, day)))
              else None
  {
    var rows := AcceptedRows(format, Headers(csvText), Lines(csvText)[1..], number);
    Dicts.GroupByLookup(rows, DayOf, day);
  }

  /** Every kept row appears under its own day exactly as many times as it
      occurs among the kept rows. */
  lemma ParseCsvKeepsEveryRow(format: Format, csvText: string, number: NumberFn, row: Record)
    requires ParseCsv(format, csvText, number).Success?
    ensures var rows := AcceptedRows(format, Headers(csvText), Lines(csvText)[1..], number);
            var days := ParseCsv(format, csvText, number).value;
            row in rows ==>
              Dicts.Lookup(days, DayOf(row)).Some?
              && multiset(Dicts.Lookup(days, DayOf(row)).value)[row] == multiset(rows)[row]
  {
    var rows := AcceptedRows(format, Headers(csvText), Lines(csvText)[1..], number);
    if row in rows {
      var i :| 0 <= i < |rows| && rows[i] == row;
      assert Dicts.Occurs(rows, DayOf, DayOf(row));
      ParseCsvGroupsByDay(format, csvText, number, DayOf(row));
      Seqs.FilterCounts(rows, Dicts.HasKey(DayOf, DayOf(row)));
    }
  }

  /** `parseBlockCSV` */
  function ParseBlockCsv(csvText: string, number: NumberFn): Result<Dicts.Dict<Value, seq<Record>>> {
    ParseCsv(BlockFormat, csvText, number)
  }

  /** `parseCSV` */
  function ParsePlanCsv(csvText: string, number: NumberFn): Result<Dicts.Dict<Value, seq<Record>>> {
    ParseCsv(PlanFormat, csvText, number)
  }
}

=== FILE: dicts.dfy ===
/** JavaScript objects used as dictionaries (`workoutsByDay`, `week.days`):
    an ordered list of key/value entries, the order being the one
    `Object.keys` reports. The model keeps insertion order. */
module Dicts {
  import opened Wrappers
  import Seqs

  datatype Entry<K, V> = Entry(key: K, value: V)

  type Dict<K, V> = seq<Entry<K, V>>

  /** `Object.keys(d)` */
  function Keys<K, V>(d: Dict<K, V>): (r: seq<K>)
    ensures |r| == |d|
    ensures forall i :: 0 <= i < |d| ==> r[i] == d[i].key
  {
    seq(|d|, i requires 0 <= i < |d| => d[i].key)
  }

  /** A JavaScript object never holds the same key twice. */
  ghost predicate DistinctKeys<K, V>(d: Dict<K, V>) {
    forall i, j :: 0 <= i < j < |d| ==> d[i].key != d[j].key
  }

  /** `d[k]`, `None` standing for `undefined`. */
  function Lookup<K(==,!new), V>(d: Dict<K, V>, k: K): (r: Option<V>)
    ensures r.Some? <==> k in Keys(d)
    ensures r.Some? ==> Entry(k, r.value) in d
  {
    if d == [] then None
    else if d[0].key == k then Some(d[0].value)
    else
      var r := Lookup(d[1..], k);
      assert Keys(d) == [d[0].key] + Keys(d[1..]);
      r
  }

  /** The number of elements over all lists of the dictionary. */
  function TotalSize<K, V>(d: Dict<K, seq<V>>): nat {
    if d == [] then 0 else |d[0].value| + TotalSize(d[1..])
  }

  /** `if (!d[k]) d[k] = []; d[k].push(x);` : the list under `k` grows by
      `x` at its end; a new key goes after all existing ones; nothing else
      changes. */
  function Append<K(==,!new), V>(d: Dict<K, seq<V>>, k: K, x: V): (r: Dict<K, seq<V>>)
    ensures Keys(r) == if k in Keys(d) then Keys(d) else Keys(d) + [k]
    ensures TotalSize(r) == TotalSize(d) + 1
  {
    if d == [] then [Entry(k, [x])]
    else if d[0].key == k then
      var r := [Entry(k, d[0].value + [x])] + d[1..];
      assert r[1..] == d[1..];
      assert Keys(r) == Keys(d);
      r
    else
      var tail := Append(d[1..], k, x);
      var r := [d[0]] + tail;
      assert r[1..] == tail;
      assert Keys(d) == [d[0].key] + Keys(d[1..]);
      assert Keys(r) == [d[0].key] + Keys(tail);
      assert k in Keys(d) <==> k in Keys(d[1..]);
      r
  }

  /** After `Append(d, k, x)` the list under `k` has `x` at its end and every
      other key reads as before. */
  lemma {:induction false} AppendLookup<K(!new), V>(d: Dict<K, seq<V>>, k: K, x: V, k': K)
    ensures Lookup(Append(d, k, x), k') ==
      if k' == k then Some(Lookup(d, k).GetOr([]) + [x]) else Lookup(d, k')
  {
    var r := Append(d, k, x);
    if d == [] {
      assert r == [Entry(k, [x])];
      if k' == k {
        assert Lookup(d, k).GetOr([]) + [x] == [x];
      } else {
        assert r[1..] == [];
      }
    } else if d[0].key == k {
      assert r[1..] == d[1..];
      if k' != k {
        assert Lookup(r, k') == Lookup(d[1..], k');
      }
    } else {
      AppendLookup(d[1..], k, x, k');
      assert r[1..] == Append(d[1..], k, x);
      if d[0].key != k' {
        assert Lookup(r, k') == Lookup(r[1..], k');
        assert Lookup(d, k') == Lookup(d[1..], k');
      }
    }
  }

  /** A new dictionary with the same keys in the same order, each value
      transformed by `f`: `Object.keys(d).forEach(k => out[k] = f(d[k]))`. */
  function MapValues<K, V, W>(d: Dict<K, V>, f: V -> W): (r: Dict<K, W>)
    ensures |r| == |d|
    ensures forall i :: 0 <= i < |d| ==> r[i] == Entry(d[i].key, f(d[i].value))
  {
    seq(|d|, i requires 0 <= i < |d| => Entry(d[i].key, f(d[i].value)))
  }

  /** Groups `s` by `key`, folding `Append` over `s` from left to right. */
  function GroupBy<K(==,!new), V>(s: seq<V>, key: V -> K): (r: Dict<K, seq<V>>)
    ensures TotalSize(r) == |s|
    decreases |s|
  {
    if s == [] then []
    else Append(GroupBy(s[..|s| - 1], key), key(s[|s| - 1]), s[|s| - 1])
  }

  /** The filter "has key `k`", named so that every use denotes the same function. */
  function HasKey<K(==,!new), V>(key: V -> K, k: K): V -> bool {
    v => key(v) == k
  }

  ghost predicate Occurs<K, V>(s: seq<V>, key: V -> K, k: K) {
    exists i :: 0 <= i < |s| && key(s[i]) == k
  }

  /** Grouping never repeats a key. */
  lemma {:induction false} GroupByDistinct<K(!new), V>(s: seq<V>, key: V -> K)
    ensures DistinctKeys(GroupBy(s, key))
    decreases |s|
  {
    if s != [] {
      var prev := GroupBy(s[..|s| - 1], key);
      GroupByDistinct(s[..|s| - 1], key);
      var r := GroupBy(s, key);
      forall i, j | 0 <= i < j < |r|
        ensures r[i].key != r[j].key
      {
        assert Keys(r)[i] == r[i].key && Keys(r)[j] == r[j].key;
        if j < |prev| {
          assert Keys(prev)[i] == r[i].key && Keys(prev)[j] == r[j].key;
        } else {
          assert r[j].key == key(s[|s| - 1]) && r[j].key !in Keys(prev);
          assert Keys(prev)[i] == r[i].key;
        }
      }
    }
  }

  /** The list under `k` is the elements of `s` whose key is `k`, in their
      order in `s`; a key that no element carries is absent. */
  lemma {:induction false} GroupByLookup<K(!new), V>(s: seq<V>, key: V -> K, k: K)
    ensures Lookup(GroupBy(s, key), k) ==
      if Occurs(s, key, k) then Some(Seqs.Filter(s, HasKey(key, k))) else None
    decreases |s|
  {
    if s != [] {
      var init := s[..|s| - 1];
      var last := s[|s| - 1];
      var p := HasKey(key, k);
      var g := GroupBy(init, key);
      assert GroupBy(s, key) == Append(g, key(last), last);
      GroupByLookup(init, key, k);
      AppendLookup(g, key(last), last, k);
      FilterSnoc(s, p);
      OccursSnoc(s, key, k);
      if key(last) == k {
        assert p(last);
        if !Occurs(init, key, k) {
          Seqs.FilterNoneKept(init, p);
          assert Lookup(g, k) == None;
        } else {
          assert Lookup(g, k) == Some(Seqs.Filter(init, p));
        }
      } else {
        assert !p(last);
        assert Seqs.Filter(s, p) == Seqs.Filter(init, p);
      }
    }
  }

  lemma FilterSnoc<V>(s: seq<V>, p: V -> bool)
    requires s != []
    ensures Seqs.Filter(s, p) ==
      Seqs.Filter(s[..|s| - 1], p) + (if p(s[|s| - 1]) then [s[|s| - 1]] else [])
  {
    var init, last := s[..|s| - 1], s[|s| - 1];
    assert s == init + [last];
    Seqs.FilterConcat(init, [last], p);
    assert [last][1..] == [];
    assert Seqs.Filter([last], p) == (if p(last) then [last] else []);
  }

  lemma OccursSnoc<K, V>(s: seq<V>, key: V -> K, k: K)
    requires s != []
    ensures Occurs(s, key, k) <==> Occurs(s[..|s| - 1], key, k) || key(s[|s| - 1]) == k
  {
    var init := s[..|s| - 1];
    if Occurs(s, key, k) && key(s[|s| - 1]) != k {
      var i :| 0 <= i < |s| && key(s[i]) == k;
      assert init[i] == s[i];
    }
    if Occurs(init, key, k) {
      var i :| 0 <= i < |init| && key(init[i]) == k;
      assert s[i] == init[i];
    }
  }

  /** In a dictionary without repeated keys, looking up an entry's key gives
      that entry's value. */
  lemma {:induction false} LookupEntry<K(!new), V>(d: Dict<K, V>, i: int)
    requires DistinctKeys(d) && 0 <= i < |d|
    ensures Lookup(d, d[i].key) == Some(d[i].value)
    decreases |d|
  {
    if i > 0 {
      assert d[0].key != d[i].key;
      assert d[1..][i - 1] == d[i];
      LookupEntry(d[1..], i - 1);
    }
  }

  /** Each group's key is carried by some element, and the group holds
      exactly the elements carrying it, in order. */
  lemma GroupByEntry<K(!new), V>(s: seq<V>, key: V -> K, i: int)
    requires 0 <= i < |GroupBy(s, key)|
    ensures var g := GroupBy(s, key);
      Occurs(s, key, g[i].key) && g[i].value == Seqs.Filter(s, HasKey(key, g[i].key))
  {
    var g := GroupBy(s, key);
    GroupByDistinct(s, key);
    LookupEntry(g, i);
    GroupByLookup(s, key, g[i].key);
  }
}

=== FILE: entities.dfy ===
/** The backend's JPA entities as table rows. A relation is the id of the
    row it points to; nullable columns are `Option`s; dates are day numbers
    and timestamps are integers. */
module Entities {
  import opened Wrappers
  import opened Enums
  import Repo

  datatype BlockRow = BlockRow(blockLength: int, progressionRate: real, deloadRate: real,
                               macrocycle: string, mesocycle: string)

  datatype WeekRow = WeekRow(blockId: int, weekNumber: int, weekType: WeekType,
                             startDate: int, endDate: int)

  datatype DayRow = DayRow(weekId: int, dayNumber: int, dayName: string, restDay: bool)

  datatype ExerciseRow = ExerciseRow(dayId: int, name: string, category: Category, orderInWorkout: int)

  datatype PrescribedRow = PrescribedRow(exerciseId: int, setNumber: int, targetSets: int, targetReps: int,
                                         targetLoadMin: Option<real>, targetLoadMax: Option<real>,
                                         targetRPE: Option<int>, tempo: Tempo, videoRequired: bool)

  datatype ActualRow = ActualRow(exerciseId: int, prescribedSetId: Option<int>, setNumber: int,
                                 actualWeight: Option<real>, actualReps: Option<int>, actualRPE: Option<int>,
                                 tempoUsed: Option<Tempo>, videoRecorded: Option<bool>,
                                 feedback: Option<string>, completedAt: Option<int>)

  datatype UserRow = UserRow(name: string, email: string, startDate: Option<int>,
                             estimatedSquat1RM: Option<int>, estimatedBench1RM: Option<int>,
                             estimatedDeadlift1RM: Option<int>, role: string)

  /** The database the services share. */
  datatype Db = Db(blocks: Repo.Table<BlockRow>, weeks: Repo.Table<WeekRow>, days: Repo.Table<DayRow>,
                   exercises: Repo.Table<ExerciseRow>, prescribed: Repo.Table<PrescribedRow>,
                   actuals: Repo.Table<ActualRow>, users: Repo.Table<UserRow>)

  /** The foreign keys, as functions a generic table operation can take. */
  function BlockOf(w: WeekRow): int { w.blockId }
  function WeekOf(d: DayRow): int { d.weekId }
  function DayOf(e: ExerciseRow): int { e.dayId }
  function ExerciseOfPrescribed(p: PrescribedRow): int { p.exerciseId }
  function ExerciseOfActual(a: ActualRow): int { a.exerciseId }

  /** Every table is well formed and every foreign key names an id its
      table has already handed out. */
  ghost predicate ValidDb(db: Db) {
    Repo.Valid(db.blocks) && Repo.Valid(db.weeks) && Repo.Valid(db.days) && Repo.Valid(db.exercises)
    && Repo.Valid(db.prescribed) && Repo.Valid(db.actuals) && Repo.Valid(db.users)
    && db.blocks.next >= 1 && db.weeks.next >= 1 && db.days.next >= 1 && db.exercises.next >= 1
    && db.prescribed.next >= 1 && db.actuals.next >= 1 && db.users.next >= 1
    && (forall i :: 0 <= i < |db.weeks.rows| ==> db.weeks.rows[i].value.blockId < db.blocks.next)
    && (forall i :: 0 <= i < |db.days.rows| ==> db.days.rows[i].value.weekId < db.weeks.next)
    && (forall i :: 0 <= i < |db.exercises.rows| ==> db.exercises.rows[i].value.dayId < db.days.next)
    && (forall i :: 0 <= i < |db.prescribed.rows| ==> db.prescribed.rows[i].value.exerciseId < db.exercises.next)
    && (forall i :: 0 <= i < |db.actuals.rows| ==> db.actuals.rows[i].value.exerciseId < db.exercises.next)
  }

  /** No row refers to a row that is not there: what the non-null join
      columns guarantee. */
  ghost predicate Linked(db: Db) {
    Repo.LinkedTo(db.weeks, BlockOf, db.blocks) && Repo.LinkedTo(db.days, WeekOf, db.weeks)
    && Repo.LinkedTo(db.exercises, DayOf, db.days)
    && Repo.LinkedTo(db.prescribed, ExerciseOfPrescribed, db.exercises)
    && Repo.LinkedTo(db.actuals, ExerciseOfActual, db.exercises)
  }

  function EmptyDb(): (r: Db)
    ensures ValidDb(r) && Linked(r)
  {
    Db(Repo.Empty(), Repo.Empty(), Repo.Empty(), Repo.Empty(), Repo.Empty(), Repo.Empty(), Repo.Empty())
  }

  /** Replacing the set table by one whose sets point at existing exercises
      keeps the database well formed and linked. */
  lemma WithActuals(db: Db, t: Repo.Table<ActualRow>)
    requires ValidDb(db) && Linked(db)
    requires Repo.Valid(t) && t.next >= 1 && Repo.LinkedTo(t, ExerciseOfActual, db.exercises)
    ensures ValidDb(db.(actuals := t)) && Linked(db.(actuals := t))
  {
    forall i | 0 <= i < |t.rows|
      ensures t.rows[i].value.exerciseId < db.exercises.next
    {
      var e :| 0 <= e < |db.exercises.rows| && db.exercises.rows[e].id == ExerciseOfActual(t.rows[i].value);
    }
  }
}

=== FILE: enums.dfy ===
/** The enumerations shared by the front end's API payloads and the backend
    entities: exercise category, tempo and week type. */
module Enums {

  datatype Category = Squat | Bench | Deadlift | Accessory

  datatype Tempo = Explosive | Controlled

  datatype WeekType = Base | Progression | Deload
}

=== FILE: exercise_service.dfy ===
/** backend/.../service/ExerciseService.java: deleting an exercise, which
    loads it first so that the cascade to its prescribed and actual sets
    runs. */
module ExerciseService {
  import opened Wrappers
  import opened Entities
  import Repo

  const ExerciseEntity := "Exercise"

  /** `deleteExercise(id)`: a missing id is an error and nothing is
      deleted; otherwise the exercise goes with everything under it. */
  function DeleteExercise(db: Db, id: int): (r: Result<Db>)
    ensures r.Success? <==> Repo.Contains(db.exercises, id)
    ensures r.Failure? ==> r.error == Repo.NotFoundMessage(ExerciseEntity, id)
    ensures r.Success? ==> r.value == CascadeExercise(db, id)
  {
    match Repo.Find(db.exercises, id)
    case None => Failure(Repo.NotFoundMessage(ExerciseEntity, id))
    case Some(_) => Success(CascadeExercise(db, id))
  }

  /** `delete(exercise)` with `CascadeType.ALL` and orphan removal: the
      exercise goes with its prescribed and actual sets; every other
      exercise and every other table stays. */
  function CascadeExercise(db: Db, id: int): (d: Db)
    ensures !Repo.Contains(d.exercises, id)
    ensures d.blocks == db.blocks && d.weeks == db.weeks && d.days == db.days && d.users == db.users
    ensures forall x :: x in d.prescribed.rows <==> x in db.prescribed.rows && x.value.exerciseId != id
    ensures forall x :: x in d.actuals.rows <==> x in db.actuals.rows && x.value.exerciseId != id
    ensures Repo.Valid(db.exercises) ==>
      forall other :: other != id ==> Repo.Find(d.exercises, other) == Repo.Find(db.exercises, other)
  {
    db.(exercises := Repo.Remove(db.exercises, id),
        prescribed := Repo.RemoveChildren(db.prescribed, ExerciseOfPrescribed, {id}),
        actuals := Repo.RemoveChildren(db.actuals, ExerciseOfActual, {id}))
  }

  /** Deleting an exercise keeps the database well formed. */
  lemma CascadeExerciseKeepsValid(db: Db, id: int)
    requires ValidDb(db)
    ensures ValidDb(CascadeExercise(db, id))
  {
    var d := CascadeExercise(db, id);
    Repo.KeptRowsBelow(db.prescribed, d.prescribed, ExerciseOfPrescribed, db.exercises.next);
    Repo.KeptRowsBelow(db.actuals, d.actuals, ExerciseOfActual, db.exercises.next);
  }

  /** Deleting an exercise leaves no set pointing at it. */
  lemma CascadeExerciseKeepsLinked(db: Db, id: int)
    requires ValidDb(db) && Linked(db)
    ensures Linked(CascadeExercise(db, id))
  {
    var d := CascadeExercise(db, id);
    KeptLinked(db.prescribed, d.prescribed, ExerciseOfPrescribed, db.exercises, id);
    KeptLinked(db.actuals, d.actuals, ExerciseOfActual, db.exercises, id);
  }

  /** The children kept, none of which points at `id`, still have their
      parent once `id` is removed. */
  lemma KeptLinked<C, P(!new)>(t: Repo.Table<C>, r: Repo.Table<C>, parentOf: C -> int,
                               parent: Repo.Table<P>, id: int)
    requires Repo.Valid(parent) && Repo.LinkedTo(t, parentOf, parent)
    requires forall x :: x in r.rows ==> x in t.rows && parentOf(x.value) != id
    ensures Repo.LinkedTo(r, parentOf, Repo.Remove(parent, id))
  {
    forall i | 0 <= i < |r.rows|
      ensures Repo.Contains(parent, parentOf(r.rows[i].value))
    {
      assert r.rows[i] in t.rows;
    }
    Repo.RemoveKeepsLinked(r, parentOf, parent, id);
  }
}

=== FILE: js.dfy ===
/** The JavaScript values the front end manipulates, and the coercions it
    relies on: truthiness, `||`, `??`, property access, `Number(...)` and
    `parseInt(..., 10)`. Numbers are modelled as `real`; `NaN` is a value of
    its own; infinities and negative zero are not modelled. */
module Js {
  import opened Wrappers
  import Strings

  datatype Value =
    | Undefined
    | Null
    | Bool(b: bool)
    | Num(n: real)
    | NaN
    | Str(s: string)
    | Arr(items: seq<Value>)
    | Obj(fields: map<string, Value>)

  /** A plain object such as an exercise row: an absent key reads as `undefined`. */
  type Record = map<string, Value>

  /** `Number(s)` on a string. Its grammar (decimal, hexadecimal, exponent,
      `Infinity`, surrounding whitespace) is not modelled: callers pass it in.
      `None` stands for `NaN`. */
  type NumberFn = string -> Option<real>

  /** JavaScript truthiness: `undefined`, `null`, `NaN`, `0`, `false` and `""`
      are falsy; every other value, including every array and object, is truthy. */
  predicate Truthy(v: Value) {
    match v
    case Undefined => false
    case Null => false
    case Bool(b) => b
    case Num(n) => n != 0.0
    case NaN => false
    case Str(s) => s != ""
    case Arr(_) => true
    case Obj(_) => true
  }

  /** `a || b` */
  function Or(a: Value, b: Value): Value {
    if Truthy(a) then a else b
  }

  /** `a ?? b` */
  function Coalesce(a: Value, b: Value): Value {
    if a.Undefined? || a.Null? then b else a
  }

  /** `r[f]` on a plain object. */
  function Get(r: Record, f: string): Value {
    if f in r then r[f] else Undefined
  }

  /** The properties every object inherits from `Object.prototype`: looking
      one of them up in an object literal finds a method, or the prototype
      itself for `__proto__`, and either is truthy. */
  const ObjectPrototypeKeys: set<string> :=
    {"constructor", "__proto__", "hasOwnProperty", "isPrototypeOf", "propertyIsEnumerable",
     "toLocaleString", "toString", "valueOf", "__defineGetter__", "__defineSetter__",
     "__lookupGetter__", "__lookupSetter__"}

  /** `v[f]` for the named data properties the source reads (`blockId`, `id`):
      only objects carry them. */
  function Prop(v: Value, f: string): Value {
    if v.Obj? then Get(v.fields, f) else Undefined
  }

  /** A JavaScript number from an optional real, `None` being `NaN`. */
  function FromNumber(x: Option<real>): Value {
    if x.Some? then Num(x.value) else NaN
  }

  /** `Number(v)`; `None` is `NaN`. Arrays and objects are taken as `NaN`
      (JavaScript would first turn them into strings). */
  function ToNumber(v: Value, number: NumberFn): Option<real> {
    match v
    case Undefined => None
    case Null => Some(0.0)
    case Bool(b) => Some(if b then 1.0 else 0.0)
    case Num(n) => Some(n)
    case NaN => None
    case Str(s) => number(s)
    case Arr(_) => None
    case Obj(_) => None
  }

  /** Truncation toward zero, what `parseInt` does to the decimal text of a
      number with a fractional part. */
  function Trunc(x: real): (r: int)
    ensures x >= 0.0 ==> r as real <= x < r as real + 1.0
    ensures x < 0.0 ==> r as real - 1.0 < x <= r as real
  {
    if x >= 0.0 then x.Floor else -((-x).Floor)
  }

  /** `parseInt(String(v), 10)`. A number is exact when its decimal text is
      plain (no exponent); strings follow `parseInt`'s own grammar; the
      texts "undefined", "null", "NaN", "true", "false" hold no digits. */
  function ParseInt(v: Value): Option<int> {
    match v
    case Num(n) => Some(Trunc(n))
    case Str(s) => Strings.ParseIntText(s)
    case _ => None
  }

  /** `String(n)` for a number: integers print in plain decimal; the text of
      a fractional number is passed in, like `Number`'s grammar. */
  function NumberText(n: real, fractionText: real -> string): string {
    if n == n.Floor as real then Strings.IntToString(n.Floor) else fractionText(n)
  }

  /** `String(v)`, the property key a value denotes and what a template
      literal prints. Array elements that are `null` or `undefined` print as
      empty text. */
  function Text(v: Value, fractionText: real -> string): string
    decreases v
  {
    match v
    case Undefined => "undefined"
    case Null => "null"
    case Bool(b) => if b then "true" else "false"
    case Num(n) => NumberText(n, fractionText)
    case NaN => "NaN"
    case Str(s) => s
    case Arr(items) =>
      Strings.Join(seq(|items|, i requires 0 <= i < |items| =>
        if items[i].Undefined? || items[i].Null? then "" else Text(items[i], fractionText)), ',')
    case Obj(_) => "[object Object]"
  }
}

=== FILE: progression.dfy ===
/** The progression engine of src/utils/blockProgression.js: from the base
    week (day key -> ordered exercises) it derives every week of a block.
    Week 1 keeps its base loads, weeks 2 .. blockLength-1 grow by
    `(1 + progressionRate)^(week - 1)`, the last week is a deload at
    `deloadRate` times the base, and derived loads are rounded to 2.5 kg. */
module Progression {
  import opened Wrappers
  import opened Js
  import Rounding
  import Dicts
  import Seqs

  /** `Math.pow(x, n)` for a natural exponent. */
  function Pow(x: real, n: nat): real {
    if n == 0 then 1.0 else x * Pow(x, n - 1)
  }

  /** Powers of a base of at least 1 are at least 1 and grow with the exponent. */
  lemma {:induction false} PowMonotone(x: real, m: nat, n: nat)
    requires x >= 1.0 && m <= n
    ensures 1.0 <= Pow(x, m) <= Pow(x, n)
    decreases n
  {
    if n > 0 {
      if m == n {
        PowMonotone(x, m - 1, n - 1);
      } else {
        PowMonotone(x, m, n - 1);
      }
      Rounding.MulLeq(1.0, x, Pow(x, n - 1));
    }
  }

  /** `baseWeight * factor`: JavaScript first turns the load into a number;
      a load that is not one gives `NaN`, here `None`. */
  function Times(base: Value, factor: real, number: NumberFn): Option<real> {
    var x := ToNumber(base, number);
    if x.None? then None else Some(x.value * factor)
  }

  /** `roundToNearestIncrement` applied to a JavaScript number, `NaN` staying
      `NaN`. */
  function RoundedLoad(w: Option<real>): (r: Value)
    ensures r.NaN? <==> w.None?
    ensures w.Some? ==> r.Num? && Rounding.NearestLoad(r.n, w.value)
  {
    if w.None? then NaN else Num(Rounding.RoundToNearestIncrement(w.value))
  }

  /** A derived load: the base load times `factor`, rounded. */
  function ScaledLoad(base: Value, factor: real, number: NumberFn): Value {
    RoundedLoad(Times(base, factor, number))
  }

  /** The growth factor of a progression week. */
  function Growth(progressionRate: real, weekNumber: int): real
    requires weekNumber >= 1
  {
    Pow(1.0 + progressionRate, weekNumber - 1)
  }

  /** `calculateWeekWeight`. Week 1 returns the base load as it is, unrounded,
      and that rule wins over the deload rule when the block is one week
      long; the last week is the rounded deload; any other week is the
      rounded compounded growth. Weeks are numbered from 1. */
  function CalculateWeekWeight(base: Value, weekNumber: int, progressionRate: real,
                               deloadRate: real, blockLength: int, number: NumberFn): (r: Value)
    requires weekNumber >= 1
    ensures weekNumber == 1 ==> r == base
    ensures weekNumber != 1 && weekNumber == blockLength ==>
      r == ScaledLoad(base, deloadRate, number)
    ensures weekNumber != 1 && weekNumber != blockLength ==>
      r == ScaledLoad(base, Growth(progressionRate, weekNumber), number)
    ensures weekNumber != 1 ==> (r.NaN? <==> ToNumber(base, number).None?)
  {
    if weekNumber == 1 then base
    else if weekNumber == blockLength then ScaledLoad(base, deloadRate, number)
    else ScaledLoad(base, Pow(1.0 + progressionRate, weekNumber - 1), number)
  }

  /** Across the progression weeks (neither the first nor the deload week),
      a non-negative base with a non-negative rate never gives a lighter load
      in a later week. */
  lemma ProgressionMonotone(b: real, j: int, k: int, progressionRate: real,
                            deloadRate: real, blockLength: int, number: NumberFn)
    requires b >= 0.0 && progressionRate >= 0.0
    requires 2 <= j < k < blockLength
    ensures CalculateWeekWeight(Num(b), j, progressionRate, deloadRate, blockLength, number).n
         <= CalculateWeekWeight(Num(b), k, progressionRate, deloadRate, blockLength, number).n
  {
    PowMonotone(1.0 + progressionRate, j - 1, k - 1);
    ScaledLoadMonotone(b, Growth(progressionRate, j), Growth(progressionRate, k), number);
  }

  /** A larger factor never gives a smaller rounded load. */
  lemma ScaledLoadMonotone(b: real, f1: real, f2: real, number: NumberFn)
    requires b >= 0.0 && f1 <= f2
    ensures ScaledLoad(Num(b), f1, number).n <= ScaledLoad(Num(b), f2, number).n
  {
    assert Times(Num(b), f1, number).value == b * f1;
    assert Times(Num(b), f2, number).value == b * f2;
    Rounding.MulLeq(f1, f2, b);
    Rounding.RoundMonotone(b * f1, b * f2);
  }

  const BaseLoadMin := "BaseLoadMin"
  const BaseLoadMax := "BaseLoadMax"
  const LoadMin := "LoadMin"
  const LoadMax := "LoadMax"

  /** One exercise of week `weekNumber`: a copy of the base exercise whose
      `LoadMin`/`LoadMax` is computed from a truthy `BaseLoadMin`/`BaseLoadMax`,
      with both base fields deleted. */
  function ProgressExercise(e: Record, weekNumber: int, progressionRate: real, deloadRate: real,
                            blockLength: int, number: NumberFn): (r: Record)
    requires weekNumber >= 1
    ensures BaseLoadMin !in r && BaseLoadMax !in r
    ensures forall f :: f in e && f !in {BaseLoadMin, BaseLoadMax, LoadMin, LoadMax} ==>
                          f in r && r[f] == e[f]
    ensures forall f :: f in r ==> f in e || f == LoadMin || f == LoadMax
    ensures LoadMin in r <==> LoadMin in e || Truthy(Get(e, BaseLoadMin))
    ensures LoadMax in r <==> LoadMax in e || Truthy(Get(e, BaseLoadMax))
    ensures Truthy(Get(e, BaseLoadMin)) ==>
              r[LoadMin] == CalculateWeekWeight(e[BaseLoadMin], weekNumber, progressionRate,
                                                deloadRate, blockLength, number)
    ensures Truthy(Get(e, BaseLoadMax)) ==>
              r[LoadMax] == CalculateWeekWeight(e[BaseLoadMax], weekNumber, progressionRate,
                                                deloadRate, blockLength, number)
    ensures !Truthy(Get(e, BaseLoadMin)) && LoadMin in e ==> r[LoadMin] == e[LoadMin]
    ensures !Truthy(Get(e, BaseLoadMax)) && LoadMax in e ==> r[LoadMax] == e[LoadMax]
  {
    var withMin :=
      if Truthy(Get(e, BaseLoadMin))
      then e[LoadMin := CalculateWeekWeight(e[BaseLoadMin], weekNumber, progressionRate,
                                            deloadRate, blockLength, number)]
      else e;
    var withMax :=
      if Truthy(Get(e, BaseLoadMax))
      then withMin[LoadMax := CalculateWeekWeight(e[BaseLoadMax], weekNumber, progressionRate,
                                                  deloadRate, blockLength, number)]
      else withMin;
    withMax - {BaseLoadMin, BaseLoadMax}
  }

  /** A generated week: its number and its days, keyed as in the base week. */
  datatype Week = Week(weekNumber: int, days: Dicts.Dict<Value, seq<Record>>)

  /** The week `weekNumber` derived from the base week. */
  function ProgressWeek(week1Data: Dicts.Dict<Value, seq<Record>>, weekNumber: int,
                        progressionRate: real, deloadRate: real, blockLength: int,
                        number: NumberFn): (r: Week)
    requires weekNumber >= 1
    ensures r.weekNumber == weekNumber
    ensures |r.days| == |week1Data|
    ensures forall d :: 0 <= d < |week1Data| ==>
      r.days[d].key == week1Data[d].key && |r.days[d].value| == |week1Data[d].value|
    ensures forall d, i :: 0 <= d < |week1Data| && 0 <= i < |week1Data[d].value| ==>
      r.days[d].value[i] == ProgressExercise(week1Data[d].value[i], weekNumber,
                                             progressionRate, deloadRate, blockLength, number)
  {
    Week(weekNumber, Dicts.MapValues(week1Data, (exercises: seq<Record>) =>
      Seqs.Map(exercises, (e: Record) =>
        ProgressExercise(e, weekNumber, progressionRate, deloadRate, blockLength, number))))
  }

  /** `generateBlockWeeks`: one week per number `1 .. blockLength`, in order
      (none when `blockLength < 1`). */
  function GenerateBlockWeeks(week1Data: Dicts.Dict<Value, seq<Record>>, blockLength: int,
                              progressionRate: real, deloadRate: real,
                              number: NumberFn): (r: seq<Week>)
    ensures |r| == if blockLength > 0 then blockLength else 0
    ensures forall w :: 0 <= w < |r| ==>
      r[w] == ProgressWeek(week1Data, w + 1, progressionRate, deloadRate, blockLength, number)
  {
    if blockLength <= 0 then []
    else
      seq(blockLength, w requires 0 <= w < blockLength =>
        ProgressWeek(week1Data, w + 1, progressionRate, deloadRate, blockLength, number))
  }
}

=== FILE: repo.dfy ===
/** A JPA repository over a table whose ids come from an identity column:
    the rows in insertion order (which is id order) and the next id the
    column will hand out. Ids are never reused. */
module Repo {
  import opened Wrappers
  import Strings
  import Seqs

  datatype Row<T> = Row(id: int, value: T)

  datatype Table<T> = Table(rows: seq<Row<T>>, next: int)

  /** Ids start at 1, increase along the rows and stay below `next`. */
  ghost predicate Valid<T>(t: Table<T>) {
    (forall i :: 0 <= i < |t.rows| ==> 1 <= t.rows[i].id < t.next) && Sorted(t.rows)
  }

  ghost predicate Sorted<T>(rows: seq<Row<T>>) {
    forall i, j :: 0 <= i < j < |rows| ==> rows[i].id < rows[j].id
  }

  function Empty<T>(): (r: Table<T>)
    ensures Valid(r) && r.rows == []
  {
    Table([], 1)
  }

  /** `existsById(id)` */
  predicate Contains<T>(t: Table<T>, id: int) {
    exists i :: 0 <= i < |t.rows| && t.rows[i].id == id
  }

  /** `findById(id)`: the row with that id, if any. */
  function Find<T>(t: Table<T>, id: int): (r: Option<T>)
    ensures r.Some? <==> Contains(t, id)
    ensures r.Some? ==> Row(id, r.value) in t.rows
  {
    FindRow(t.rows, id)
  }

  /** The first row with that id. */
  function FindRow<T>(rows: seq<Row<T>>, id: int): (r: Option<T>)
    ensures r.Some? <==> exists i :: 0 <= i < |rows| && rows[i].id == id
    ensures r.Some? ==> Row(id, r.value) in rows
    decreases |rows|
  {
    if rows == [] then None
    else if rows[0].id == id then Some(rows[0].value)
    else
      var r := FindRow(rows[1..], id);
      assert forall i :: 1 <= i < |rows| ==> rows[i] == rows[1..][i - 1];
      r
  }

  /** In a valid table the row found is the only one with that id. */
  lemma FindUnique<T>(t: Table<T>, id: int, i: int)
    requires Valid(t) && 0 <= i < |t.rows| && t.rows[i].id == id
    ensures Find(t, id) == Some(t.rows[i].value)
  {
    var v := Find(t, id).value;
    var j :| 0 <= j < |t.rows| && t.rows[j] == Row(id, v);
    assert i == j;
  }

  /** Looking up after appending a row: the earlier rows come first. */
  lemma {:induction false} FindRowAppend<T>(rows: seq<Row<T>>, row: Row<T>, id: int)
    ensures FindRow(rows + [row], id) ==
      if FindRow(rows, id).Some? then FindRow(rows, id) else if row.id == id then Some(row.value) else None
    decreases |rows|
  {
    if rows == [] {
      assert [row][1..] == [];
    } else {
      assert (rows + [row])[1..] == rows[1..] + [row];
      FindRowAppend(rows[1..], row, id);
    }
  }

  /** `save(entity)` of a new entity: it gets the next id and goes last. */
  function Insert<T>(t: Table<T>, v: T): (r: Table<T>)
    ensures r.rows == t.rows + [Row(t.next, v)] && r.next == t.next + 1
    ensures Valid(t) && t.next >= 1 ==> Valid(r)
    ensures Valid(t) ==> Find(r, t.next) == Some(v)
    ensures forall id :: id != t.next ==> Find(r, id) == Find(t, id)
  {
    var r := Table(t.rows + [Row(t.next, v)], t.next + 1);
    FindRowAppend(t.rows, Row(t.next, v), t.next);
    forall id | id != t.next
      ensures Find(r, id) == Find(t, id)
    {
      FindRowAppend(t.rows, Row(t.next, v), id);
    }
    r
  }

  /** Saving several new entities in order: the `i`-th gets id `next + i`. */
  function InsertAll<T>(t: Table<T>, vs: seq<T>): (r: Table<T>)
    ensures r.next == t.next + |vs|
    ensures |r.rows| == |t.rows| + |vs| && r.rows[..|t.rows|] == t.rows
    ensures forall i :: 0 <= i < |vs| ==> r.rows[|t.rows| + i] == Row(t.next + i, vs[i])
    ensures Valid(t) && t.next >= 1 ==> Valid(r)
  {
    Table(t.rows + seq(|vs|, i requires 0 <= i < |vs| => Row(t.next + i, vs[i])), t.next + |vs|)
  }

  /** `save(entity)` of an existing entity: the row with that id is replaced. */
  function Update<T>(t: Table<T>, id: int, v: T): (r: Table<T>)
    ensures r.next == t.next && |r.rows| == |t.rows|
    ensures forall i :: 0 <= i < |t.rows| ==>
      r.rows[i] == if t.rows[i].id == id then Row(id, v) else t.rows[i]
    ensures Valid(t) ==> Valid(r)
  {
    Table(Seqs.Map(t.rows, (row: Row<T>) => if row.id == id then Row(id, v) else row), t.next)
  }

  /** Deletes the rows `gone` selects, keeping the others in order. */
  function RemoveWhere<T(!new)>(t: Table<T>, gone: Row<T> -> bool): (r: Table<T>)
    ensures r.next == t.next
    ensures forall x :: x in r.rows <==> x in t.rows && !gone(x)
    ensures Valid(t) ==> Valid(r)
  {
    var keep := (row: Row<T>) => !gone(row);
    var rows := Seqs.Filter(t.rows, keep);
    Seqs.FilterMembers(t.rows, keep);
    FilterSorted(t.rows, keep);
    forall x
      ensures x in rows <==> x in t.rows && !gone(x)
    {
      assert x in rows <==> x in t.rows && keep(x);
    }
    Table(rows, t.next)
  }

  /** Filtering keeps the rows sorted by id. */
  lemma {:induction false} FilterSorted<T(!new)>(rows: seq<Row<T>>, keep: Row<T> -> bool)
    ensures Sorted(rows) ==> Sorted(Seqs.Filter(rows, keep))
    decreases |rows|
  {
    if rows != [] && Sorted(rows) {
      var tail := Seqs.Filter(rows[1..], keep);
      FilterSorted(rows[1..], keep);
      Seqs.FilterMembers(rows[1..], keep);
      if keep(rows[0]) {
        var all := [rows[0]] + tail;
        forall i, j | 0 <= i < j < |all|
          ensures all[i].id < all[j].id
        {
          assert all[j] == tail[j - 1] && tail[j - 1] in tail;
          if i == 0 {
            assert all[j] in Seqs.Filter(rows[1..], keep);
            assert all[j] in rows[1..];
            var k :| 0 <= k < |rows[1..]| && rows[1..][k] == all[j];
            assert rows[k + 1] == all[j];
          } else {
            assert all[i] == tail[i - 1];
          }
        }
      }
    }
  }

  /** `deleteById(id)`: the row goes; in a valid table every other id reads as before. */
  function Remove<T(!new)>(t: Table<T>, id: int): (r: Table<T>)
    ensures r.next == t.next
    ensures !Contains(r, id)
    ensures Valid(t) ==> Valid(r) && forall other :: other != id ==> Find(r, other) == Find(t, other)
  {
    var r := RemoveWhere(t, (row: Row<T>) => row.id == id);
    RemoveKeepsOthers(t, id, r);
    r
  }

  lemma RemoveKeepsOthers<T>(t: Table<T>, id: int, r: Table<T>)
    requires forall x :: x in r.rows <==> x in t.rows && x.id != id
    ensures Valid(t) && Valid(r) ==> forall other :: other != id ==> Find(r, other) == Find(t, other)
  {
    forall other | other != id && Valid(t) && Valid(r)
      ensures Find(r, other) == Find(t, other)
    {
      if Contains(t, other) {
        var i :| 0 <= i < |t.rows| && t.rows[i].id == other;
        assert t.rows[i] in r.rows;
        var j :| 0 <= j < |r.rows| && r.rows[j] == t.rows[i];
        FindUnique(t, other, i);
        FindUnique(r, other, j);
      }
    }
  }

  /** "<Entity> not found with id: <id>", the message of `ResourceNotFoundException`. */
  function NotFoundMessage(entity: string, id: int): string {
    entity + " not found with id: " + Strings.IntToString(id)
  }

  /** The failure a save raises when a `nullable = false` column is left
      null; the exact text is the database's own. */
  function NotNullMessage(column: string): string {
    "NOT NULL constraint violated: " + column
  }

  /** `findById(id).orElseThrow(...)` */
  function Get<T>(t: Table<T>, id: int, entity: string): (r: Result<T>)
    ensures r.Success? <==> Contains(t, id)
    ensures r.Success? ==> Row(id, r.value) in t.rows
    ensures r.Failure? ==> r.error == NotFoundMessage(entity, id)
  {
    var found := Find(t, id);
    if found.Some? then Success(found.value) else Failure(NotFoundMessage(entity, id))
  }

  /** The entities of a table, in id order. */
  function Values<T>(t: Table<T>): (r: seq<T>)
    ensures |r| == |t.rows| && forall i :: 0 <= i < |t.rows| ==> r[i] == t.rows[i].value
  {
    Seqs.Map(t.rows, (row: Row<T>) => row.value)
  }

  /** The filter "its parent is `pid`", named so that every use denotes the same function. */
  function HasParent<C>(parentOf: C -> int, pid: int): C -> bool {
    c => parentOf(c) == pid
  }

  /** The entities whose foreign key `parentOf` is `pid`, in id order: what a
      `@OneToMany` list reads back. */
  function Children<C>(t: Table<C>, parentOf: C -> int, pid: int): (r: seq<C>)
    ensures forall i :: 0 <= i < |r| ==> parentOf(r[i]) == pid
  {
    Seqs.Filter(Values(t), HasParent(parentOf, pid))
  }

  /** The rows a cascading save writes for the children of `parents`, the
      `i`-th parent having id `firstId + i`: depth first, parent by parent. */
  function ChildRows<P, C>(parents: seq<P>, firstId: int, mk: (int, P) -> seq<C>): (r: seq<C>)
    decreases |parents|
  {
    if parents == [] then [] else mk(firstId, parents[0]) + ChildRows(parents[1..], firstId + 1, mk)
  }

  /** Child rows built by two functions that agree on the number of children
      of each parent have the same length. */
  lemma {:induction false} ChildRowsLength<P(!new), C, D>(parents: seq<P>, f: int, mk: (int, P) -> seq<C>,
                                                          g: int, mk2: (int, P) -> seq<D>)
    requires forall i, j, p :: |mk(i, p)| == |mk2(j, p)|
    ensures |ChildRows(parents, f, mk)| == |ChildRows(parents, g, mk2)|
    decreases |parents|
  {
    if parents != [] {
      ChildRowsLength(parents[1..], f + 1, mk, g + 1, mk2);
    }
  }

  /** `mk(id, p)` builds children that all point at `id`. */
  ghost predicate PointsAtParent<P(!new), C>(mk: (int, P) -> seq<C>, parentOf: C -> int) {
    forall id, p, m :: 0 <= m < |mk(id, p)| ==> parentOf(mk(id, p)[m]) == id
  }

  /** Every child row points at one of the parents' ids. */
  lemma {:induction false} ChildRowsParents<P(!new), C>(parents: seq<P>, firstId: int,
                                                         mk: (int, P) -> seq<C>, parentOf: C -> int)
    requires PointsAtParent(mk, parentOf)
    ensures forall m :: 0 <= m < |ChildRows(parents, firstId, mk)| ==>
      firstId <= parentOf(ChildRows(parents, firstId, mk)[m]) < firstId + |parents|
    decreases |parents|
  {
    if parents != [] {
      var head := mk(firstId, parents[0]);
      var tail := ChildRows(parents[1..], firstId + 1, mk);
      ChildRowsParents(parents[1..], firstId + 1, mk, parentOf);
      assert ChildRows(parents, firstId, mk) == head + tail;
      forall m | 0 <= m < |head| + |tail|
        ensures firstId <= parentOf((head + tail)[m]) < firstId + |parents|
      {
        if m < |head| {
          assert (head + tail)[m] == mk(firstId, parents[0])[m];
        } else {
          assert (head + tail)[m] == tail[m - |head|];
        }
      }
    }
  }

  /** The children of the `k`-th parent among the child rows are exactly the
      ones built for it, in order. */
  lemma {:induction false} ChildRowsSelect<P(!new), C>(parents: seq<P>, firstId: int, mk: (int, P) -> seq<C>,
                                                        parentOf: C -> int, k: int)
    requires PointsAtParent(mk, parentOf) && 0 <= k < |parents|
    ensures Seqs.Filter(ChildRows(parents, firstId, mk), HasParent(parentOf, firstId + k))
              == mk(firstId + k, parents[k])
    decreases |parents|
  {
    var keep := HasParent(parentOf, firstId + k);
    var head := mk(firstId, parents[0]);
    var tail := ChildRows(parents[1..], firstId + 1, mk);
    assert ChildRows(parents, firstId, mk) == head + tail;
    Seqs.FilterConcat(head, tail, keep);
    ChildRowsParents(parents[1..], firstId + 1, mk, parentOf);
    if k == 0 {
      Seqs.FilterAllKept(head, keep);
      Seqs.FilterNoneKept(tail, keep);
    } else {
      Seqs.FilterNoneKept(head, keep);
      ChildRowsSelect(parents[1..], firstId + 1, mk, parentOf, k - 1);
      assert parents[1..][k - 1] == parents[k];
    }
  }

  /** Saving the children of new parents (ids `firstId ..`) into a table whose
      rows all point at older parents: reading back the children of the
      `k`-th new parent gives exactly the ones built for it, in order. */
  lemma InsertChildren<P(!new), C>(t: Table<C>, parents: seq<P>, firstId: int, mk: (int, P) -> seq<C>,
                                   parentOf: C -> int, k: int)
    requires PointsAtParent(mk, parentOf) && 0 <= k < |parents|
    requires forall i :: 0 <= i < |t.rows| ==> parentOf(t.rows[i].value) < firstId
    ensures Children(InsertAll(t, ChildRows(parents, firstId, mk)), parentOf, firstId + k)
              == mk(firstId + k, parents[k])
  {
    var rows := ChildRows(parents, firstId, mk);
    var keep := HasParent(parentOf, firstId + k);
    var r := InsertAll(t, rows);
    assert Values(r) == Values(t) + rows;
    Seqs.FilterConcat(Values(t), rows, keep);
    Seqs.FilterNoneKept(Values(t), keep);
    ChildRowsSelect(parents, firstId, mk, parentOf, k);
  }

  /** The ids of the rows whose parent is one of `parents`. */
  function ChildIds<C>(t: Table<C>, parentOf: C -> int, parents: set<int>): (r: set<int>)
    ensures forall i :: 0 <= i < |t.rows| && parentOf(t.rows[i].value) in parents ==> t.rows[i].id in r
    ensures forall id :: id in r ==>
      exists i :: 0 <= i < |t.rows| && t.rows[i].id == id && parentOf(t.rows[i].value) in parents
  {
    set i | 0 <= i < |t.rows| && parentOf(t.rows[i].value) in parents :: t.rows[i].id
  }

  /** Orphan removal in a cascading delete: the rows whose parent is one of
      `parents` go, the others stay in order. */
  function RemoveChildren<C(!new)>(t: Table<C>, parentOf: C -> int, parents: set<int>): (r: Table<C>)
    ensures r.next == t.next
    ensures forall x :: x in r.rows <==> x in t.rows && parentOf(x.value) !in parents
    ensures Valid(t) ==> Valid(r)
  {
    RemoveWhere(t, (row: Row<C>) => parentOf(row.value) in parents)
  }

  /** Every row of `child` points at a row `parent` holds. */
  ghost predicate LinkedTo<C, P>(child: Table<C>, parentOf: C -> int, parent: Table<P>) {
    forall i :: 0 <= i < |child.rows| ==> Contains(parent, parentOf(child.rows[i].value))
  }

  /** One level of a cascading delete leaves no dangling reference: when the
      parents removed are those under `gone`, and the children removed are
      those of the removed parents, every remaining child still has its parent. */
  lemma CascadeKeepsLinked<C(!new), P(!new)>(child: Table<C>, parentOf: C -> int, parent: Table<P>,
                                             grandOf: P -> int, gone: set<int>)
    requires LinkedTo(child, parentOf, parent)
    ensures LinkedTo(RemoveChildren(child, parentOf, ChildIds(parent, grandOf, gone)), parentOf,
                     RemoveChildren(parent, grandOf, gone))
  {
    var goneIds := ChildIds(parent, grandOf, gone);
    var c := RemoveChildren(child, parentOf, goneIds);
    var q := RemoveChildren(parent, grandOf, gone);
    forall i | 0 <= i < |c.rows|
      ensures Contains(q, parentOf(c.rows[i].value))
    {
      var pid := parentOf(c.rows[i].value);
      assert c.rows[i] in child.rows;
      var k :| 0 <= k < |child.rows| && child.rows[k] == c.rows[i];
      var j :| 0 <= j < |parent.rows| && parent.rows[j].id == pid;
      assert grandOf(parent.rows[j].value) !in gone;
      assert parent.rows[j] in q.rows;
    }
  }

  /** Deleting one row by id keeps every reference to another row intact. */
  lemma RemoveKeepsLinked<C, P(!new)>(child: Table<C>, parentOf: C -> int, parent: Table<P>, id: int)
    requires Valid(parent) && LinkedTo(child, parentOf, parent)
    requires forall i :: 0 <= i < |child.rows| ==> parentOf(child.rows[i].value) != id
    ensures LinkedTo(child, parentOf, Remove(parent, id))
  {
    forall i | 0 <= i < |child.rows|
      ensures Contains(Remove(parent, id), parentOf(child.rows[i].value))
    {
      assert Find(parent, parentOf(child.rows[i].value)).Some?;
    }
  }

  /** The ids `InsertAll` hands out are the next `|vs|` ones. */
  lemma InsertAllContains<T>(t: Table<T>, vs: seq<T>, id: int)
    ensures Contains(InsertAll(t, vs), id) <== Contains(t, id) || t.next <= id < t.next + |vs|
  {
    var r := InsertAll(t, vs);
    if Contains(t, id) {
      var i :| 0 <= i < |t.rows| && t.rows[i].id == id;
      assert r.rows[i] == r.rows[..|t.rows|][i];
    } else if t.next <= id < t.next + |vs| {
      assert r.rows[|t.rows| + (id - t.next)].id == id;
    }
  }

  /** Inserting rows keeps every reference into the table intact, and the
      new children of the new parents `firstId ..` point at rows inserted
      with them. */
  lemma InsertKeepsLinked<C, P>(child: Table<C>, cs: seq<C>, parentOf: C -> int, parent: Table<P>, ps: seq<P>)
    requires LinkedTo(child, parentOf, parent)
    requires forall m :: 0 <= m < |cs| ==> parent.next <= parentOf(cs[m]) < parent.next + |ps|
    ensures LinkedTo(InsertAll(child, cs), parentOf, InsertAll(parent, ps))
  {
    var c := InsertAll(child, cs);
    forall i | 0 <= i < |c.rows|
      ensures Contains(InsertAll(parent, ps), parentOf(c.rows[i].value))
    {
      if i < |child.rows| {
        assert c.rows[i] == c.rows[..|child.rows|][i];
      } else {
        assert c.rows[i].value == cs[i - |child.rows|];
      }
      InsertAllContains(parent, ps, parentOf(c.rows[i].value));
    }
  }

  /** Rows kept from a table whose keys stay below `bound` stay below it. */
  lemma KeptRowsBelow<C>(t: Table<C>, r: Table<C>, key: C -> int, bound: int)
    requires forall i :: 0 <= i < |t.rows| ==> key(t.rows[i].value) < bound
    requires forall x :: x in r.rows ==> x in t.rows
    ensures forall i :: 0 <= i < |r.rows| ==> key(r.rows[i].value) < bound
  {
    forall i | 0 <= i < |r.rows|
      ensures key(r.rows[i].value) < bound
    {
      assert r.rows[i] in t.rows;
    }
  }

  /** The rows orphan removal keeps, like the rows before it, have keys below `bound`. */
  lemma RemoveChildrenBelow<C(!new)>(t: Table<C>, parentOf: C -> int, gone: set<int>, key: C -> int, bound: int)
    requires forall i :: 0 <= i < |t.rows| ==> key(t.rows[i].value) < bound
    ensures var r := RemoveChildren(t, parentOf, gone);
      forall i :: 0 <= i < |r.rows| ==> key(r.rows[i].value) < bound
  {
    KeptRowsBelow(t, RemoveChildren(t, parentOf, gone), key, bound);
  }

  /** Appending a child whose parent exists keeps every reference intact. */
  lemma LinkedAfterInsert<C, P>(child: Table<C>, c: C, parentOf: C -> int, parent: Table<P>)
    requires LinkedTo(child, parentOf, parent) && Contains(parent, parentOf(c))
    ensures LinkedTo(Insert(child, c), parentOf, parent)
  {
    var r := Insert(child, c);
    forall i | 0 <= i < |r.rows|
      ensures Contains(parent, parentOf(r.rows[i].value))
    {
      if i < |child.rows| {
        assert r.rows[i] == child.rows[i];
      }
    }
  }

  /** Replacing a row by one whose parent exists keeps every reference intact. */
  lemma LinkedAfterUpdate<C, P>(child: Table<C>, id: int, c: C, parentOf: C -> int, parent: Table<P>)
    requires LinkedTo(child, parentOf, parent) && Contains(parent, parentOf(c))
    ensures LinkedTo(Update(child, id, c), parentOf, parent)
  {
  }

  /** Deleting children keeps the references of the others intact. */
  lemma LinkedAfterRemove<C(!new), P>(child: Table<C>, id: int, parentOf: C -> int, parent: Table<P>)
    requires LinkedTo(child, parentOf, parent)
    ensures LinkedTo(Remove(child, id), parentOf, parent)
  {
    var r := Remove(child, id);
    forall i | 0 <= i < |r.rows|
      ensures Contains(parent, parentOf(r.rows[i].value))
    {
      assert r.rows[i] in child.rows;
    }
  }

  /** In a valid table an updated row reads back with its new value and every
      other row as before. */
  lemma UpdateReads<T>(t: Table<T>, id: int, v: T)
    ensures Valid(t) && Contains(t, id) ==> Find(Update(t, id, v), id) == Some(v)
    ensures Valid(t) ==> forall other :: other != id ==> Find(Update(t, id, v), other) == Find(t, other)
  {
    var u := Update(t, id, v);
    if Valid(t) {
      if Contains(t, id) {
        var i :| 0 <= i < |t.rows| && t.rows[i].id == id;
        FindUnique(u, id, i);
      }
      forall other | other != id
        ensures Find(u, other) == Find(t, other)
      {
        if Contains(t, other) {
          var i :| 0 <= i < |t.rows| && t.rows[i].id == other;
          FindUnique(t, other, i);
          FindUnique(u, other, i);
        } else {
          assert !Contains(u, other);
        }
      }
    }
  }
}

=== FILE: rounding.dfy ===
/** `Math.round` and rounding a load to the nearest 2.5 kg plate increment
    (src/utils/blockProgression.js). Numbers are exact reals. */
module Rounding {

  /** The gym increment every derived load is rounded to, in kilograms. */
  const Increment: real := 2.5

  /** `Math.round(x)`: the nearest integer, halves rounding towards +infinity
      (so `Math.round(-2.5)` is `-2`). */
  function MathRound(x: real): (r: int)
    ensures r as real - 0.5 <= x < r as real + 0.5
  {
    (x + 0.5).Floor
  }

  /** `Math.round` is the unique integer in `[x - 1/2, x + 1/2)`. */
  lemma MathRoundUnique(x: real, n: int)
    requires n as real - 0.5 <= x < n as real + 0.5
    ensures MathRound(x) == n
  {
  }

  /** `n` plate increments. */
  function Steps(n: int): real {
    n as real * Increment
  }

  /** `r` is a whole number of increments. */
  ghost predicate OnGrid(r: real) {
    exists n: int :: r == Steps(n)
  }

  /** `r` is the load nearest to `weight` on the 2.5 kg grid, a tie going to
      the heavier load. */
  ghost predicate NearestLoad(r: real, weight: real) {
    OnGrid(r) && weight - Increment / 2.0 < r <= weight + Increment / 2.0
  }

  /** `roundToNearestIncrement(weight)`, that is
      `Math.round(weight / 2.5) * 2.5`: the nearest multiple of 2.5, halves
      going up. */
  function RoundToNearestIncrement(weight: real): (r: real)
    ensures NearestLoad(r, weight)
  {
    var n := MathRound(weight / Increment);
    assert OnGrid(Steps(n));
    Steps(n)
  }

  /** There is only one nearest load: any multiple of 2.5 in
      `(weight - 1.25, weight + 1.25]` is the rounded weight. */
  lemma {:induction false} RoundUnique(weight: real, r: real)
    requires NearestLoad(r, weight)
    ensures RoundToNearestIncrement(weight) == r
  {
    var n :| r == Steps(n);
    MathRoundUnique(weight / Increment, n);
  }

  /** A load already on the grid is left as it is. */
  lemma RoundIdempotentOnMultiples(n: int)
    ensures RoundToNearestIncrement(Steps(n)) == Steps(n)
  {
    assert NearestLoad(Steps(n), Steps(n));
    RoundUnique(Steps(n), Steps(n));
  }

  /** Rounding twice is rounding once. */
  lemma RoundIdempotent(weight: real)
    ensures RoundToNearestIncrement(RoundToNearestIncrement(weight)) == RoundToNearestIncrement(weight)
  {
    var n := MathRound(weight / Increment);
    RoundIdempotentOnMultiples(n);
  }

  /** Rounding never reverses the order of two weights. */
  lemma RoundMonotone(w1: real, w2: real)
    requires w1 <= w2
    ensures RoundToNearestIncrement(w1) <= RoundToNearestIncrement(w2)
  {
    var n1 := MathRound(w1 / Increment);
    var n2 := MathRound(w2 / Increment);
    assert w1 / Increment <= w2 / Increment;
    assert n1 <= n2;
    assert Steps(n1) <= Steps(n2);
  }

  lemma MulLeq(a: real, b: real, c: real)
    requires a <= b && c >= 0.0
    ensures a * c <= b * c
  {
  }
}

=== FILE: seqs.dfy ===
/** Sequence helpers shared by the model: JavaScript's `Array.prototype.filter`
    and the "keeps the rest in order" relation it establishes. */
module Seqs {

  /** `s.filter(keep)`: the elements satisfying `keep`, in their original order. */
  function Filter<T>(s: seq<T>, keep: T -> bool): (r: seq<T>)
    ensures |r| <= |s|
    ensures forall i :: 0 <= i < |r| ==> keep(r[i])
    decreases |s|
  {
    if s == [] then []
    else (if keep(s[0]) then [s[0]] else []) + Filter(s[1..], keep)
  }

  /** `s.map(f)`. */
  function Map<T, U>(s: seq<T>, f: T -> U): (r: seq<U>)
    ensures |r| == |s|
    ensures forall i :: 0 <= i < |s| ==> r[i] == f(s[i])
  {
    seq(|s|, i requires 0 <= i < |s| => f(s[i]))
  }

  /** Mapping distributes over concatenation. */
  lemma MapConcat<T, U>(a: seq<T>, b: seq<T>, f: T -> U)
    ensures Map(a + b, f) == Map(a, f) + Map(b, f)
  {
    assert forall i :: 0 <= i < |a| + |b| ==> (a + b)[i] == if i < |a| then a[i] else b[i - |a|];
  }

  /** `a` is obtained from `b` by deleting elements, without reordering. */
  predicate IsSubsequence<T(==)>(a: seq<T>, b: seq<T>)
    decreases |b|
  {
    if a == [] then true
    else if b == [] then false
    else if a[0] == b[0] then IsSubsequence(a[1..], b[1..])
    else IsSubsequence(a, b[1..])
  }

  lemma {:induction false} FilterIsSubsequence<T>(s: seq<T>, keep: T -> bool)
    ensures IsSubsequence(Filter(s, keep), s)
    decreases |s|
  {
    if s != [] {
      FilterIsSubsequence(s[1..], keep);
      if keep(s[0]) {
        assert Filter(s, keep) == [s[0]] + Filter(s[1..], keep);
      } else {
        assert Filter(s, keep) == Filter(s[1..], keep);
        SubsequenceOfTail(Filter(s[1..], keep), s);
      }
    }
  }

  /** A subsequence of the tail is a subsequence of the whole. */
  lemma {:induction false} SubsequenceOfTail<T>(a: seq<T>, b: seq<T>)
    requires b != [] && IsSubsequence(a, b[1..])
    ensures IsSubsequence(a, b)
    decreases |b|, 0
  {
    if a != [] && a[0] == b[0] && |b| > 1 {
      SubsequenceDropHead(a, b[1..]);
    }
  }

  /** Dropping the first element of a subsequence keeps it a subsequence. */
  lemma {:induction false} SubsequenceDropHead<T>(a: seq<T>, b: seq<T>)
    requires a != [] && IsSubsequence(a, b)
    ensures IsSubsequence(a[1..], b)
    decreases |b|, 1
  {
    if a[0] == b[0] {
      if a[1..] != [] {
        SubsequenceOfTail(a[1..], b);
      }
    } else {
      SubsequenceDropHead(a, b[1..]);
      if a[1..] != [] {
        SubsequenceOfTail(a[1..], b);
      }
    }
  }

  /** Filtering keeps exactly the occurrences of each element that satisfy
      `keep`: as many copies as in `s` when `keep(x)`, none otherwise. */
  lemma {:induction false} FilterCounts<T>(s: seq<T>, keep: T -> bool)
    ensures forall x :: multiset(Filter(s, keep))[x] == if keep(x) then multiset(s)[x] else 0
    decreases |s|
  {
    if s != [] {
      FilterCounts(s[1..], keep);
      assert s == [s[0]] + s[1..];
      assert multiset(s) == multiset([s[0]]) + multiset(s[1..]);
    }
  }

  /** Filtering distributes over concatenation. */
  lemma {:induction false} FilterConcat<T>(a: seq<T>, b: seq<T>, keep: T -> bool)
    ensures Filter(a + b, keep) == Filter(a, keep) + Filter(b, keep)
    decreases |a|
  {
    if a != [] {
      assert (a + b)[1..] == a[1..] + b;
      FilterConcat(a[1..], b, keep);
    } else {
      assert a + b == b;
    }
  }

  /** The elements of a filter are the elements of `s` that pass it. */
  lemma {:induction false} FilterMembers<T(!new)>(s: seq<T>, keep: T -> bool)
    ensures forall x :: x in Filter(s, keep) <==> x in s && keep(x)
    decreases |s|
  {
    if s != [] {
      FilterMembers(s[1..], keep);
      assert s == [s[0]] + s[1..];
    }
  }

  /** A filter that every element passes is the identity. */
  lemma {:induction false} FilterAllKept<T>(s: seq<T>, keep: T -> bool)
    requires forall i :: 0 <= i < |s| ==> keep(s[i])
    ensures Filter(s, keep) == s
    decreases |s|
  {
    if s != [] {
      FilterAllKept(s[1..], keep);
    }
  }

  /** A filter that no element passes is empty. */
  lemma {:induction false} FilterNoneKept<T>(s: seq<T>, keep: T -> bool)
    requires forall i :: 0 <= i < |s| ==> !keep(s[i])
    ensures Filter(s, keep) == []
    decreases |s|
  {
    if s != [] {
      FilterNoneKept(s[1..], keep);
    }
  }

  /** `s.filter((_, idx) => idx !== i)`: the element at position `i` removed,
      or `s` itself when no position is `i`. */
  function RemoveAt<T>(s: seq<T>, i: int): (r: seq<T>)
    ensures 0 <= i < |s| ==> r == s[..i] + s[i + 1..]
    ensures !(0 <= i < |s|) ==> r == s
    decreases |s|
  {
    if s == [] then []
    else
      var rest := RemoveAt(s[1..], i - 1);
      if i == 0 then rest else [s[0]] + rest
  }

  /** Removing position `i` takes away one occurrence of `s[i]` and nothing else. */
  lemma RemoveAtCounts<T>(s: seq<T>, i: int)
    ensures 0 <= i < |s| ==> multiset(RemoveAt(s, i)) == multiset(s) - multiset{s[i]}
  {
    if 0 <= i < |s| {
      DropCounts(s, i);
    }
  }

  lemma DropCounts<T>(s: seq<T>, i: int)
    requires 0 <= i < |s|
    ensures multiset(s[..i] + s[i + 1..]) == multiset(s) - multiset{s[i]}
  {
    assert s == s[..i] + [s[i]] + s[i + 1..];
  }

  /** The elements at positions `i` and `j` exchanged. */
  function Swap<T>(s: seq<T>, i: nat, j: nat): (r: seq<T>)
    requires i < |s| && j < |s|
    ensures |r| == |s| && r[i] == s[j] && r[j] == s[i]
    ensures forall k :: 0 <= k < |s| && k != i && k != j ==> r[k] == s[k]
  {
    s[i := s[j]][j := s[i]]
  }

  /** Exchanging two elements permutes the sequence. */
  lemma SwapPermutes<T>(s: seq<T>, i: nat, j: nat)
    requires i < |s| && j < |s|
    ensures multiset(Swap(s, i, j)) == multiset(s)
  {
    var t := s[i := s[j]];
    assert multiset(t) == multiset(s) - multiset{s[i]} + multiset{s[j]};
    assert multiset(t[j := s[i]]) == multiset(t) - multiset{t[j]} + multiset{s[i]};
  }

  /** Filters that agree on the elements of `s` select the same elements. */
  lemma {:induction false} FilterAgree<T>(s: seq<T>, f: T -> bool, g: T -> bool)
    requires forall i :: 0 <= i < |s| ==> f(s[i]) == g(s[i])
    ensures Filter(s, f) == Filter(s, g)
    decreases |s|
  {
    if s != [] {
      FilterAgree(s[1..], f, g);
    }
  }

  /** A loop that skips the elements failing `keep` and converts the others
      with `f`, in one pass. */
  function FilterMap<T, U>(s: seq<T>, keep: T -> bool, f: T -> U): (r: seq<U>)
    ensures |r| <= |s|
    decreases |s|
  {
    if s == [] then []
    else (if keep(s[0]) then [f(s[0])] else []) + FilterMap(s[1..], keep, f)
  }

  /** The one-pass loop is `s.filter(keep).map(f)`. */
  lemma {:induction false} FilterMapIsMapFilter<T, U>(s: seq<T>, keep: T -> bool, f: T -> U)
    ensures FilterMap(s, keep, f) == Map(Filter(s, keep), f)
    decreases |s|
  {
    if s != [] {
      FilterMapIsMapFilter(s[1..], keep, f);
      var head := if keep(s[0]) then [s[0]] else [];
      MapConcat(head, Filter(s[1..], keep), f);
    }
  }

  /** The loop over `a + b` yields the results for `a`, then those for `b`. */
  lemma FilterMapConcat<T, U>(a: seq<T>, b: seq<T>, keep: T -> bool, f: T -> U)
    ensures FilterMap(a + b, keep, f) == FilterMap(a, keep, f) + FilterMap(b, keep, f)
  {
    FilterMapIsMapFilter(a + b, keep, f);
    FilterMapIsMapFilter(a, keep, f);
    FilterMapIsMapFilter(b, keep, f);
    FilterConcat(a, b, keep);
    MapConcat(Filter(a, keep), Filter(b, keep), f);
  }
}

=== FILE: standalone_setup.dfy ===
/** src/components/StandaloneSetup.js: the manual plan editor. The plan is
    `numDays` and `manualWeekData`, a map from day number to that day's
    exercises; the handlers below are its state transitions. */
module StandaloneSetup {
  import opened Wrappers
  import opened Js
  import Seqs

  datatype Plan = Plan(numDays: int, days: map<int, seq<Record>>)

  /** What the editor keeps true: between one and seven days, numbered
      `1 .. numDays`. */
  ghost predicate Valid(p: Plan) {
    1 <= p.numDays <= 7 && forall d :: d in p.days <==> 1 <= d <= p.numDays
  }

  /** The opening state: three empty days. */
  function Initial(): (r: Plan)
    ensures Valid(r)
    ensures forall d :: d in r.days ==> r.days[d] == []
  {
    Plan(3, map[1 := [], 2 := [], 3 := []])
  }

  /** The exercise object `handleSaveExercise` builds from the form. */
  function NewExercise(day: int, form: Record): (r: Record)
    ensures r.Keys == {"Day", "Exercise", "Sets", "Reps", "LoadMin", "LoadMax", "RPE",
                       "Category", "Equipment", "Tempo"}
    ensures r["Day"] == Num(day as real) && r["Exercise"] == Get(form, "name")
    ensures r["Equipment"] == if Truthy(Get(form, "equipment")) then Get(form, "equipment") else Str("")
  {
    map["Day" := Num(day as real), "Exercise" := Get(form, "name"), "Sets" := Get(form, "sets"),
        "Reps" := Get(form, "reps"), "LoadMin" := Get(form, "loadMin"),
        "LoadMax" := Get(form, "loadMax"), "RPE" := Get(form, "rpe"),
        "Category" := Get(form, "category"), "Equipment" := Or(Get(form, "equipment"), Str("")),
        "Tempo" := Get(form, "tempo")]
  }

  /** `handleSaveExercise`: without an exercise being edited the new exercise
      goes at the end of the current day; when editing, it replaces the one at
      `exerciseIndex`. Other days are untouched. */
  function SaveExercise(p: Plan, day: int, editing: Option<nat>, form: Record): (r: Plan)
    requires day in p.days
    requires editing.Some? ==> editing.value < |p.days[day]|
    ensures r.numDays == p.numDays && r.days.Keys == p.days.Keys
    ensures forall d :: d in p.days && d != day ==> r.days[d] == p.days[d]
    ensures editing.None? ==> r.days[day] == p.days[day] + [NewExercise(day, form)]
    ensures editing.Some? ==>
      |r.days[day]| == |p.days[day]| && r.days[day][editing.value] == NewExercise(day, form)
      && forall i :: 0 <= i < |p.days[day]| && i != editing.value ==> r.days[day][i] == p.days[day][i]
  {
    var e := NewExercise(day, form);
    if editing.Some? then Plan(p.numDays, p.days[day := p.days[day][editing.value := e]])
    else Plan(p.numDays, p.days[day := p.days[day] + [e]])
  }

  /** `handleDeleteExercise`: the exercise at the index goes, the others keep
      their order; an index that names no exercise changes nothing. */
  function DeleteExercise(p: Plan, day: int, index: int): (r: Plan)
    requires day in p.days
    ensures r.numDays == p.numDays && r.days.Keys == p.days.Keys
    ensures forall d :: d in p.days && d != day ==> r.days[d] == p.days[d]
    ensures 0 <= index < |p.days[day]| ==>
      |r.days[day]| == |p.days[day]| - 1
      && multiset(r.days[day]) == multiset(p.days[day]) - multiset{p.days[day][index]}
      && r.days[day] == p.days[day][..index] + p.days[day][index + 1..]
    ensures !(0 <= index < |p.days[day]|) ==> r.days[day] == p.days[day]
  {
    var before := p.days[day];
    var after := Seqs.RemoveAt(before, index);
    Seqs.RemoveAtCounts(before, index);
    Plan(p.numDays, p.days[day := after])
  }

  datatype Direction = Up | Down

  /** The position an exercise moves to, when it can move. */
  function Target(index: nat, len: nat, direction: Direction): Option<nat> {
    match direction
    case Up => if index == 0 then None else Some(index - 1)
    case Down => if index + 1 == len then None else Some(index + 1)
  }

  /** `handleMoveExercise`: swaps the exercise with its neighbour above or
      below; "up" on the first and "down" on the last change nothing. */
  function MoveExercise(p: Plan, day: int, index: nat, direction: Direction): (r: Plan)
    requires day in p.days && index < |p.days[day]|
    ensures r.numDays == p.numDays && r.days.Keys == p.days.Keys
    ensures forall d :: d in p.days && d != day ==> r.days[d] == p.days[d]
    ensures multiset(r.days[day]) == multiset(p.days[day])
    ensures Target(index, |p.days[day]|, direction).None? ==> r.days[day] == p.days[day]
    ensures Target(index, |p.days[day]|, direction).Some? ==>
      var j := Target(index, |p.days[day]|, direction).value;
      j < |p.days[day]| && (j == index - 1 || j == index + 1)
      && |r.days[day]| == |p.days[day]|
      && r.days[day][j] == p.days[day][index] && r.days[day][index] == p.days[day][j]
      && forall k :: 0 <= k < |p.days[day]| && k != index && k != j ==> r.days[day][k] == p.days[day][k]
  {
    var exercises := p.days[day];
    var target := Target(index, |exercises|, direction);
    if target.None? then p
    else
      Seqs.SwapPermutes(exercises, index, target.value);
      Plan(p.numDays, p.days[day := Seqs.Swap(exercises, index, target.value)])
  }

  /** Moving an exercise down and then back up restores the day. */
  lemma MoveDownThenUp(p: Plan, day: int, index: nat)
    requires day in p.days && index + 1 < |p.days[day]|
    ensures MoveExercise(MoveExercise(p, day, index, Down), day, index + 1, Up) == p
  {
    var q := MoveExercise(p, day, index, Down);
    var r := MoveExercise(q, day, index + 1, Up);
    assert r.days[day] == p.days[day];
    assert r.days == p.days;
  }

  /** `handleAddDay`: below seven days, an empty day after the last one. */
  function AddDay(p: Plan): (r: Plan)
    ensures p.numDays < 7 ==> r.numDays == p.numDays + 1 && r.days == p.days[p.numDays + 1 := []]
    ensures p.numDays >= 7 ==> r == p
  {
    if p.numDays < 7 then Plan(p.numDays + 1, p.days[p.numDays + 1 := []]) else p
  }

  /** `handleRemoveDay`: above one day, the last day and its exercises go. */
  function RemoveDay(p: Plan): (r: Plan)
    ensures p.numDays > 1 ==> r.numDays == p.numDays - 1 && r.days == p.days - {p.numDays}
    ensures p.numDays <= 1 ==> r == p
  {
    if p.numDays > 1 then Plan(p.numDays - 1, p.days - {p.numDays}) else p
  }

  /** Every handler keeps the plan valid: the day count stays within one to
      seven and the days stay numbered `1 .. numDays`. */
  lemma HandlersPreserveValid(p: Plan, day: int, editing: Option<nat>, form: Record, index: int,
                              direction: Direction)
    requires Valid(p)
    ensures Valid(AddDay(p)) && Valid(RemoveDay(p))
    ensures day in p.days && (editing.Some? ==> editing.value < |p.days[day]|) ==>
      Valid(SaveExercise(p, day, editing, form))
    ensures day in p.days ==> Valid(DeleteExercise(p, day, index))
    ensures day in p.days && 0 <= index < |p.days[day]| ==> Valid(MoveExercise(p, day, index, direction))
  {
    if p.numDays < 7 {
      assert AddDay(p).days.Keys == p.days.Keys + {p.numDays + 1};
    }
    if p.numDays > 1 {
      assert RemoveDay(p).days.Keys == p.days.Keys - {p.numDays};
    }
  }

  const NoExercisesMessage := "Please add at least one exercise to save"

  /** The ten fields a saved exercise carries. */
  const CopiedFields: set<string> := {"Day", "Exercise", "Sets", "Reps", "LoadMin", "LoadMax", "RPE",
                                      "Category", "Equipment", "Tempo"}

  /** The copy of an exercise that is saved: its ten known fields, with
      `Equipment || ''`. */
  function CopyExercise(ex: Record): (r: Record)
    ensures r.Keys == CopiedFields
    ensures forall f :: f in r && f != "Equipment" ==> r[f] == Get(ex, f)
    ensures r["Equipment"] == Or(Get(ex, "Equipment"), Str(""))
  {
    map f | f in CopiedFields :: if f == "Equipment" then Or(Get(ex, f), Str("")) else Get(ex, f)
  }

  /** What `handleSaveManualWorkout` saves and the day it opens. */
  datatype Saved = Saved(workoutsByDay: map<int, seq<Record>>, firstDay: int)

  /** The smallest element of a non-empty set of day numbers. */
  function MinDay(s: set<int>): (r: int)
    requires exists d :: d in s
    ensures r in s && forall d :: d in s ==> r <= d
  {
    MinimumExists(s);
    var m :| m in s && forall d :: d in s ==> m <= d;
    m
  }

  lemma {:induction false} MinimumExists(s: set<int>)
    requires exists d :: d in s
    ensures exists m :: m in s && forall d :: d in s ==> m <= d
    decreases |s|
  {
    var x :| x in s;
    var rest := s - {x};
    if exists d :: d in rest {
      MinimumExists(rest);
      var m :| m in rest && forall d :: d in rest ==> m <= d;
      var least := if x <= m then x else m;
      forall d | d in s
        ensures least <= d
      {
        if d != x {
          assert d in rest;
        }
      }
      assert least in s;
    } else {
      forall d | d in s
        ensures x <= d
      {
        assert d !in rest;
      }
    }
  }

  /** `handleSaveManualWorkout` up to the network calls: an error when no day
      has an exercise; otherwise exactly the non-empty days, each exercise
      copied in order, and the smallest of those days is opened. */
  function SaveManualWorkout(p: Plan): (r: Result<Saved>)
    ensures r.Failure? <==> forall d :: d in p.days ==> p.days[d] == []
    ensures r.Failure? ==> r.error == NoExercisesMessage
    ensures r.Success? ==>
      (forall d :: d in r.value.workoutsByDay <==> d in p.days && p.days[d] != [])
      && (forall d :: d in r.value.workoutsByDay ==>
            r.value.workoutsByDay[d] == Seqs.Map(p.days[d], CopyExercise))
      && r.value.firstDay in r.value.workoutsByDay
      && forall d :: d in r.value.workoutsByDay ==> r.value.firstDay <= d
  {
    if forall d :: d in p.days ==> p.days[d] == [] then Failure(NoExercisesMessage)
    else
      var data := map d | d in p.days && p.days[d] != [] :: Seqs.Map(p.days[d], CopyExercise);
      var d :| d in p.days && p.days[d] != [];
      assert d in data.Keys;
      assert exists d :: d in data.Keys;
      Success(Saved(data, MinDay(data.Keys)))
  }
}

=== FILE: strings.dfy ===
/** Text operations the source relies on: JavaScript's `trim`, `split` and
    `parseInt(s, 10)`, and Java's decimal rendering of integers in messages. */
module Strings {
  import opened Wrappers

  /** The characters `String.prototype.trim` removes: ECMAScript WhiteSpace
      (tab, VT, FF, space, NBSP, BOM and the Zs category) and LineTerminator. */
  predicate IsWhitespace(c: char) {
    c == '\t' || c == '\n' || c == '\U{000B}' || c == '\U{000C}' || c == '\r'
    || c == ' ' || c == '\U{00A0}' || c == '\U{1680}' || ('\U{2000}' <= c <= '\U{200A}')
    || c == '\U{2028}' || c == '\U{2029}' || c == '\U{202F}' || c == '\U{205F}'
    || c == '\U{3000}' || c == '\U{FEFF}'
  }

  /** Removes leading whitespace: the result is the suffix of `s` that starts at
      its first non-whitespace character. */
  function TrimStart(s: string): (r: string)
    ensures |r| <= |s| && r == s[|s| - |r|..]
    ensures r == [] || !IsWhitespace(r[0])
    ensures forall i :: 0 <= i < |s| - |r| ==> IsWhitespace(s[i])
  {
    if s != [] && IsWhitespace(s[0]) then TrimStart(s[1..]) else s
  }

  /** Removes trailing whitespace: the result is the prefix of `s` that ends at
      its last non-whitespace character. */
  function TrimEnd(s: string): (r: string)
    ensures |r| <= |s| && r == s[..|r|]
    ensures r == [] || !IsWhitespace(r[|r| - 1])
    ensures forall i :: |r| <= i < |s| ==> IsWhitespace(s[i])
  {
    if s != [] && IsWhitespace(s[|s| - 1]) then TrimEnd(s[..|s| - 1]) else s
  }

  /** `s.trim()`. */
  function Trim(s: string): (r: string)
    ensures |r| <= |s|
    ensures r == [] || (!IsWhitespace(r[0]) && !IsWhitespace(r[|r| - 1]))
    ensures (forall i :: 0 <= i < |s| ==> IsWhitespace(s[i])) <==> r == []
  {
    TrimEnd(TrimStart(s))
  }

  /** Trimming only removes characters: a character absent from `s` is absent
      from its trim. */
  lemma TrimWithin(s: string, c: char)
    requires c !in s
    ensures c !in Trim(s)
  {
    var t := TrimStart(s);
    assert forall k :: 0 <= k < |t| ==> t[k] == s[|s| - |t| + k];
    var r := TrimEnd(t);
    assert forall k :: 0 <= k < |r| ==> r[k] == t[k];
  }

  /** Trimming twice is trimming once. */
  lemma TrimIdempotent(s: string)
    ensures Trim(Trim(s)) == Trim(s)
  {
    var t := Trim(s);
    assert TrimStart(t) == t;
    assert TrimEnd(t) == t;
  }

  /** `parts.join(sep)` with a one-character separator. */
  function Join(parts: seq<string>, sep: char): string
  {
    if parts == [] then ""
    else if |parts| == 1 then parts[0]
    else parts[0] + [sep] + Join(parts[1..], sep)
  }

  /** `parts.join(sep)` with a separator of any length. */
  function JoinWith(parts: seq<string>, sep: string): string
  {
    if parts == [] then ""
    else if |parts| == 1 then parts[0]
    else parts[0] + sep + JoinWith(parts[1..], sep)
  }

  /** `s.split(sep)` with a one-character separator: never empty, no piece
      contains the separator, and joining the pieces gives back `s`. */
  function Split(s: string, sep: char): (r: seq<string>)
    ensures |r| >= 1
    ensures forall i :: 0 <= i < |r| ==> sep !in r[i]
    ensures Join(r, sep) == s
    decreases |s|
  {
    if s == [] then [""]
    else if s[0] == sep then
      var rest := Split(s[1..], sep);
      assert s == [sep] + s[1..];
      [""] + rest
    else
      var rest := Split(s[1..], sep);
      var r := [[s[0]] + rest[0]] + rest[1..];
      assert r[1..] == rest[1..];
      assert s == [s[0]] + s[1..];
      r
  }

  /** Splitting a join of separator-free pieces gives the pieces back. */
  lemma {:induction false} SplitJoin(parts: seq<string>, sep: char)
    requires |parts| >= 1
    requires forall i :: 0 <= i < |parts| ==> sep !in parts[i]
    ensures Split(Join(parts, sep), sep) == parts
    decreases |parts|, |parts[0]|
  {
    if |parts| == 1 {
      SplitPiece(parts[0], sep);
    } else if parts[0] == [] {
      var rest := Join(parts[1..], sep);
      assert Join(parts, sep) == [sep] + rest;
      SplitJoin(parts[1..], sep);
      SplitCons(sep, rest, sep);
      assert [""] + parts[1..] == parts;
    } else {
      var c := parts[0][0];
      var tail := [parts[0][1..]] + parts[1..];
      assert tail[1..] == parts[1..];
      assert sep !in parts[0][1..] by {
        assert forall k :: 0 <= k < |parts[0][1..]| ==> parts[0][1..][k] == parts[0][k + 1];
      }
      assert Join(tail, sep) == parts[0][1..] + [sep] + Join(parts[1..], sep);
      assert [c] + parts[0][1..] == parts[0];
      assert Join(parts, sep) == [c] + Join(tail, sep);
      SplitJoin(tail, sep);
      SplitCons(c, Join(tail, sep), sep);
      assert [[c] + tail[0]] + tail[1..] == parts;
    }
  }

  /** How `Split` treats its first character. */
  lemma SplitCons(c: char, s: string, sep: char)
    ensures Split([c] + s, sep) ==
      if c == sep then [""] + Split(s, sep)
      else [[c] + Split(s, sep)[0]] + Split(s, sep)[1..]
  {
    assert ([c] + s)[1..] == s;
  }

  /** A piece without the separator splits into itself. */
  lemma {:induction false} SplitPiece(s: string, sep: char)
    requires sep !in s
    ensures Split(s, sep) == [s]
    decreases |s|
  {
    if s != [] {
      assert sep !in s[1..] by {
        assert forall k :: 0 <= k < |s[1..]| ==> s[1..][k] == s[k + 1];
      }
      SplitPiece(s[1..], sep);
      assert [s[0]] + s[1..] == s;
    }
  }

  predicate IsDigit(c: char) {
    '0' <= c <= '9'
  }

  /** The longest prefix of `s` made of decimal digits. */
  function DigitPrefix(s: string): (r: string)
    ensures |r| <= |s| && r == s[..|r|]
    ensures forall i :: 0 <= i < |r| ==> IsDigit(r[i])
    ensures |r| == |s| || !IsDigit(s[|r|])
  {
    if s != [] && IsDigit(s[0]) then [s[0]] + DigitPrefix(s[1..]) else []
  }

  /** The number a run of decimal digits denotes. */
  function DigitsValue(ds: string): nat
    requires forall i :: 0 <= i < |ds| ==> IsDigit(ds[i])
  {
    if ds == [] then 0
    else
      var d := ds[|ds| - 1] as int - '0' as int;
      assert IsDigit(ds[|ds| - 1]);
      DigitsValue(ds[..|ds| - 1]) * 10 + (if d < 0 then 0 else d)
  }

  /** `parseInt(s, 10)`: skip leading whitespace, read an optional sign and the
      longest run of digits; no digits gives NaN, here `None`. */
  function ParseIntText(s: string): (r: Option<int>)
    ensures r.Some? <==> |DigitPrefix(UnsignedPart(TrimStart(s)))| > 0
  {
    var t := TrimStart(s);
    var digits := DigitPrefix(UnsignedPart(t));
    if digits == [] then None
    else
      var magnitude: int := DigitsValue(digits);
      Some(if t[0] == '-' then -magnitude else magnitude)
  }

  /** The text after an optional leading sign. */
  function UnsignedPart(t: string): string {
    if t != [] && (t[0] == '-' || t[0] == '+') then t[1..] else t
  }

  /** Decimal digits of a natural number, most significant first, without
      leading zeros. */
  function NatToString(n: nat): (r: string)
    ensures |r| >= 1
    ensures forall i :: 0 <= i < |r| ==> IsDigit(r[i])
    ensures |r| > 1 ==> r[0] != '0'
  {
    var last := ['0' + (n % 10) as char];
    if n < 10 then last else NatToString(n / 10) + last
  }

  /** Java's rendering of a `long` in decimal, as `"id: " + id` produces. */
  function IntToString(i: int): (r: string)
    ensures |r| >= 1
  {
    if i < 0 then "-" + NatToString(-i) else NatToString(i)
  }

  lemma {:induction false} NatToStringValue(n: nat)
    ensures DigitsValue(NatToString(n)) == n
  {
    if n >= 10 {
      NatToStringValue(n / 10);
      var r := NatToString(n);
      assert r[..|r| - 1] == NatToString(n / 10);
    }
  }

  /** `parseInt` reads back what `IntToString` writes. */
  lemma ParseIntTextRoundTrip(i: int)
    ensures ParseIntText(IntToString(i)) == Some(i)
  {
    var s := IntToString(i);
    var n: nat := if i < 0 then -i else i;
    var ds := NatToString(n);
    NatToStringValue(n);
    AllDigitsPrefix(ds);
    if i < 0 {
      assert s == "-" + ds;
      assert !IsWhitespace(s[0]);
      assert TrimStart(s) == s;
      assert UnsignedPart(s) == ds;
    } else {
      assert s == ds;
      assert IsDigit(s[0]);
      assert TrimStart(s) == s;
      assert UnsignedPart(s) == ds;
    }
  }

  /** A run made only of digits is its own longest digit prefix. */
  lemma {:induction false} AllDigitsPrefix(s: string)
    requires forall i :: 0 <= i < |s| ==> IsDigit(s[i])
    ensures DigitPrefix(s) == s
    decreases |s|
  {
    if s != [] {
      AllDigitsPrefix(s[1..]);
    }
  }

  /** Java's `Long.parseLong(s)` and `Integer.parseInt(s)`: an optional sign
      and at least one digit, and nothing else; `None` is the
      `NumberFormatException`. The range of the Java type is not modelled. */
  function ParseDecimal(s: string): (r: Option<int>)
    ensures r.Some? ==> s != []
  {
    var digits := if s != [] && (s[0] == '-' || s[0] == '+') then s[1..] else s;
    if digits == [] || exists i :: 0 <= i < |digits| && !IsDigit(digits[i]) then None
    else
      var magnitude: int := DigitsValue(digits);
      Some(if s[0] == '-' then -magnitude else magnitude)
  }

  /** Java parses back what `IntToString` writes. */
  lemma ParseDecimalRoundTrip(i: int)
    ensures ParseDecimal(IntToString(i)) == Some(i)
  {
    var n: nat := if i < 0 then -i else i;
    NatToStringValue(n);
    if i < 0 {
      assert IntToString(i)[1..] == NatToString(n);
    }
  }

  /** `IntToString` never writes `c` when `c` is neither a digit nor '-'. */
  lemma IntToStringAvoids(i: int, c: char)
    requires !IsDigit(c) && c != '-'
    ensures c !in IntToString(i)
  {
    var n: nat := if i < 0 then -i else i;
    var ds := NatToString(n);
    if i < 0 {
      assert IntToString(i) == "-" + ds;
      assert forall k :: 0 <= k < |IntToString(i)| ==> IntToString(i)[k] == '-' || IsDigit(IntToString(i)[k]);
    }
  }

  /** Java's `s.split(regex)` for a one-character separator: like `Split`,
      but trailing empty pieces are dropped, except that the empty string
      splits into one empty piece. */
  function JavaSplit(s: string, sep: char): (r: seq<string>)
    ensures s != [] && Split(s, sep)[|Split(s, sep)| - 1] != [] ==> r == Split(s, sep)
  {
    if s == [] then [""] else DropTrailingEmpty(Split(s, sep))
  }

  function DropTrailingEmpty(parts: seq<string>): (r: seq<string>)
    ensures |r| <= |parts| && r == parts[..|r|]
    ensures r == [] || r[|r| - 1] != []
    ensures forall i :: |r| <= i < |parts| ==> parts[i] == []
  {
    if parts == [] || parts[|parts| - 1] != [] then parts else DropTrailingEmpty(parts[..|parts| - 1])
  }
}

=== FILE: training_block_service.dfy ===
/** backend/.../service/TrainingBlockService.java: building a block with its
    weeks, days, exercises and prescribed sets from a request and saving it
    with one cascading save; reading and deleting a block. */
module TrainingBlockService {
  import opened Wrappers
  import opened Enums
  import opened Entities
  import Repo
  import Seqs

  datatype SetRequest = SetRequest(setNumber: int, targetSets: int, targetReps: int,
                                   targetLoadMin: Option<real>, targetLoadMax: Option<real>,
                                   targetRPE: Option<int>, tempo: Tempo, videoRequired: Option<bool>)

  datatype ExerciseRequest = ExerciseRequest(name: string, category: Category, orderInWorkout: int,
                                             prescribedSets: Option<seq<SetRequest>>)

  datatype DayRequest = DayRequest(dayNumber: int, dayName: string, restDay: Option<bool>,
                                   exercises: Option<seq<ExerciseRequest>>)

  datatype WeekRequest = WeekRequest(weekNumber: int, weekType: WeekType, startDate: int,
                                     days: Option<seq<DayRequest>>)

  /** `CreateBlockRequest`; the fields bean validation declares `@NotNull`
      are plain values here. */
  datatype BlockRequest = BlockRequest(blockLength: int, progressionRate: real, deloadRate: real,
                                       weeks: seq<WeekRequest>)

  /** The entity graph the service builds before saving it. */
  datatype SetNode = SetNode(setNumber: int, targetSets: int, targetReps: int,
                             targetLoadMin: Option<real>, targetLoadMax: Option<real>,
                             targetRPE: Option<int>, tempo: Tempo, videoRequired: bool)
  datatype ExerciseNode = ExerciseNode(name: string, category: Category, orderInWorkout: int,
                                       prescribedSets: seq<SetNode>)
  datatype DayNode = DayNode(dayNumber: int, dayName: string, restDay: bool, exercises: seq<ExerciseNode>)
  datatype WeekNode = WeekNode(weekNumber: int, weekType: WeekType, startDate: int, endDate: int,
                               days: seq<DayNode>)
  datatype BlockNode = BlockNode(block: BlockRow, weeks: seq<WeekNode>)

  const DefaultCycle := "Default"

  /** The set entity `createBlockWithWeeks` builds: every target is copied
      from the request and a null `videoRequired` becomes `false`. */
  function BuildSet(r: SetRequest): (n: SetNode)
    ensures n.setNumber == r.setNumber && n.targetSets == r.targetSets && n.targetReps == r.targetReps
    ensures n.targetLoadMin == r.targetLoadMin && n.targetLoadMax == r.targetLoadMax
    ensures n.targetRPE == r.targetRPE && n.tempo == r.tempo
    ensures n.videoRequired == (r.videoRequired == Some(true))
  {
    SetNode(r.setNumber, r.targetSets, r.targetReps, r.targetLoadMin, r.targetLoadMax, r.targetRPE,
            r.tempo, if r.videoRequired.Some? then r.videoRequired.value else false)
  }

  function BuildExercise(r: ExerciseRequest): (n: ExerciseNode)
    ensures n.name == r.name && n.category == r.category && n.orderInWorkout == r.orderInWorkout
    ensures |n.prescribedSets| == |r.prescribedSets.GetOr([])|
    ensures forall i :: 0 <= i < |n.prescribedSets| ==>
      n.prescribedSets[i] == BuildSet(r.prescribedSets.value[i])
  {
    ExerciseNode(r.name, r.category, r.orderInWorkout, Seqs.Map(r.prescribedSets.GetOr([]), BuildSet))
  }

  function BuildDay(r: DayRequest): (n: DayNode)
    ensures n.dayNumber == r.dayNumber && n.dayName == r.dayName
    ensures n.restDay == (r.restDay == Some(true))
    ensures |n.exercises| == |r.exercises.GetOr([])|
    ensures forall i :: 0 <= i < |n.exercises| ==> n.exercises[i] == BuildExercise(r.exercises.value[i])
  {
    DayNode(r.dayNumber, r.dayName, if r.restDay.Some? then r.restDay.value else false,
            Seqs.Map(r.exercises.GetOr([]), BuildExercise))
  }

  /** A week spans seven days: it ends six days after it starts. */
  function BuildWeek(r: WeekRequest): (n: WeekNode)
    ensures n.weekNumber == r.weekNumber && n.weekType == r.weekType
    ensures n.startDate == r.startDate && n.endDate - n.startDate == 6
    ensures |n.days| == |r.days.GetOr([])|
    ensures forall i :: 0 <= i < |n.days| ==> n.days[i] == BuildDay(r.days.value[i])
  {
    WeekNode(r.weekNumber, r.weekType, r.startDate, r.startDate + 6, Seqs.Map(r.days.GetOr([]), BuildDay))
  }

  /** The graph `createBlockWithWeeks` builds: one week per requested week,
      in order, and likewise for days, exercises and sets; a missing list is
      an empty one and a missing flag is `false`. */
  function BuildBlock(r: BlockRequest): (n: BlockNode)
    ensures n.block == BlockRow(r.blockLength, r.progressionRate, r.deloadRate, DefaultCycle, DefaultCycle)
    ensures |n.weeks| == |r.weeks|
    ensures forall i :: 0 <= i < |n.weeks| ==> n.weeks[i] == BuildWeek(r.weeks[i])
  {
    BlockNode(BlockRow(r.blockLength, r.progressionRate, r.deloadRate, DefaultCycle, DefaultCycle),
              Seqs.Map(r.weeks, BuildWeek))
  }

  /** The request a graph answers, with every list and flag present. */
  function WeekRequestOf(n: WeekNode): WeekRequest {
    WeekRequest(n.weekNumber, n.weekType, n.startDate, Some(Seqs.Map(n.days, DayRequestOf)))
  }

  function DayRequestOf(n: DayNode): DayRequest {
    DayRequest(n.dayNumber, n.dayName, Some(n.restDay), Some(Seqs.Map(n.exercises, ExerciseRequestOf)))
  }

  function ExerciseRequestOf(n: ExerciseNode): ExerciseRequest {
    ExerciseRequest(n.name, n.category, n.orderInWorkout, Some(Seqs.Map(n.prescribedSets, SetRequestOf)))
  }

  function SetRequestOf(n: SetNode): SetRequest {
    SetRequest(n.setNumber, n.targetSets, n.targetReps, n.targetLoadMin, n.targetLoadMax, n.targetRPE,
               n.tempo, Some(n.videoRequired))
  }

  /** Building loses nothing but the absent lists and flags: building the
      request read back from a built week gives the same week, so the week
      number, type, start date, every day, exercise and set, and their order
      all come from the request. */
  lemma BuildWeekRoundTrip(r: WeekRequest)
    ensures BuildWeek(WeekRequestOf(BuildWeek(r))) == BuildWeek(r)
  {
    var n := BuildWeek(r);
    forall i | 0 <= i < |n.days|
      ensures BuildDay(DayRequestOf(n.days[i])) == n.days[i]
    {
      var d := n.days[i];
      forall j | 0 <= j < |d.exercises|
        ensures BuildExercise(ExerciseRequestOf(d.exercises[j])) == d.exercises[j]
      {
        var e := d.exercises[j];
        assert Seqs.Map(Seqs.Map(e.prescribedSets, SetRequestOf), BuildSet) == e.prescribedSets;
      }
      assert Seqs.Map(Seqs.Map(d.exercises, ExerciseRequestOf), BuildExercise) == d.exercises;
    }
    assert Seqs.Map(Seqs.Map(n.days, DayRequestOf), BuildDay) == n.days;
  }

  /** The request as the service reads it: an absent list is empty and an
      absent flag is `false`, at every level. */
  function NormalWeek(r: WeekRequest): WeekRequest {
    r.(days := Some(Seqs.Map(r.days.GetOr([]), NormalDay)))
  }

  function NormalDay(r: DayRequest): DayRequest {
    r.(restDay := Some(r.restDay == Some(true)), exercises := Some(Seqs.Map(r.exercises.GetOr([]), NormalExercise)))
  }

  function NormalExercise(r: ExerciseRequest): ExerciseRequest {
    r.(prescribedSets := Some(Seqs.Map(r.prescribedSets.GetOr([]), NormalSet)))
  }

  function NormalSet(r: SetRequest): SetRequest {
    r.(videoRequired := Some(r.videoRequired == Some(true)))
  }

  /** Reading a built week back gives the request with its defaults filled
      in: every field of every day, exercise and set comes from the request,
      and building invents nothing else. */
  lemma BuildWeekReadsBack(r: WeekRequest)
    ensures WeekRequestOf(BuildWeek(r)) == NormalWeek(r)
  {
    var ds := r.days.GetOr([]);
    forall i | 0 <= i < |ds|
      ensures DayRequestOf(BuildDay(ds[i])) == NormalDay(ds[i])
    {
      BuildDayReadsBack(ds[i]);
    }
    assert Seqs.Map(Seqs.Map(ds, BuildDay), DayRequestOf) == Seqs.Map(ds, NormalDay);
  }

  lemma BuildDayReadsBack(r: DayRequest)
    ensures DayRequestOf(BuildDay(r)) == NormalDay(r)
  {
    var es := r.exercises.GetOr([]);
    forall i | 0 <= i < |es|
      ensures ExerciseRequestOf(BuildExercise(es[i])) == NormalExercise(es[i])
    {
      var ss := es[i].prescribedSets.GetOr([]);
      assert Seqs.Map(Seqs.Map(ss, BuildSet), SetRequestOf) == Seqs.Map(ss, NormalSet);
    }
    assert Seqs.Map(Seqs.Map(es, BuildExercise), ExerciseRequestOf) == Seqs.Map(es, NormalExercise);
  }

  /** The rows of the graph, each pointing at its parent's id. */
  function WeekRows(blockId: int, b: BlockNode): (r: seq<WeekRow>)
    ensures |r| == |b.weeks|
    ensures forall i :: 0 <= i < |r| ==> r[i] == WeekRow(blockId, b.weeks[i].weekNumber, b.weeks[i].weekType,
                                                          b.weeks[i].startDate, b.weeks[i].endDate)
  {
    seq(|b.weeks|, i requires 0 <= i < |b.weeks| =>
      WeekRow(blockId, b.weeks[i].weekNumber, b.weeks[i].weekType, b.weeks[i].startDate, b.weeks[i].endDate))
  }

  function DayRows(weekId: int, w: WeekNode): (r: seq<DayRow>)
    ensures |r| == |w.days|
    ensures forall i :: 0 <= i < |r| ==>
      r[i] == DayRow(weekId, w.days[i].dayNumber, w.days[i].dayName, w.days[i].restDay)
  {
    seq(|w.days|, i requires 0 <= i < |w.days| =>
      DayRow(weekId, w.days[i].dayNumber, w.days[i].dayName, w.days[i].restDay))
  }

  function ExerciseRows(dayId: int, d: DayNode): (r: seq<ExerciseRow>)
    ensures |r| == |d.exercises|
    ensures forall i :: 0 <= i < |r| ==>
      r[i] == ExerciseRow(dayId, d.exercises[i].name, d.exercises[i].category, d.exercises[i].orderInWorkout)
  {
    seq(|d.exercises|, i requires 0 <= i < |d.exercises| =>
      ExerciseRow(dayId, d.exercises[i].name, d.exercises[i].category, d.exercises[i].orderInWorkout))
  }

  function SetRows(exerciseId: int, e: ExerciseNode): (r: seq<PrescribedRow>)
    ensures |r| == |e.prescribedSets|
    ensures forall i :: 0 <= i < |r| ==> r[i] == PrescribedRowOf(exerciseId, e.prescribedSets[i])
  {
    seq(|e.prescribedSets|, i requires 0 <= i < |e.prescribedSets| =>
      PrescribedRowOf(exerciseId, e.prescribedSets[i]))
  }

  function PrescribedRowOf(exerciseId: int, s: SetNode): PrescribedRow {
    PrescribedRow(exerciseId, s.setNumber, s.targetSets, s.targetReps, s.targetLoadMin, s.targetLoadMax,
                  s.targetRPE, s.tempo, s.videoRequired)
  }

  /** The child lists, ignoring the parent id: flattening the graph level by level. */
  function DaysOf(id: int, w: WeekNode): seq<DayNode> { w.days }
  function ExercisesOf(id: int, d: DayNode): seq<ExerciseNode> { d.exercises }

  function AllDays(b: BlockNode): seq<DayNode> {
    Repo.ChildRows(b.weeks, 0, DaysOf)
  }

  function AllExercises(b: BlockNode): seq<ExerciseNode> {
    Repo.ChildRows(AllDays(b), 0, ExercisesOf)
  }

  /** `trainingBlockRepository.save(block)` with `CascadeType.ALL`: the block,
      then its weeks, days, exercises and prescribed sets, depth first. Each
      table hands out its ids in that order. */
  function Persist(db: Db, b: BlockNode): (r: Db)
    ensures r.actuals == db.actuals && r.users == db.users
    ensures r.blocks == Repo.Insert(db.blocks, b.block)
    ensures r.weeks.next == db.weeks.next + |b.weeks|
    ensures r.days.next == db.days.next + |AllDays(b)|
    ensures r.exercises.next == db.exercises.next + |AllExercises(b)|
  {
    var blockId := db.blocks.next;
    assert |Repo.ChildRows([b], blockId, WeekRows)| == |b.weeks| by {
      assert Repo.ChildRows([b], blockId, WeekRows) == WeekRows(blockId, b) + [];
    }
    Repo.ChildRowsLength(b.weeks, db.weeks.next, DayRows, 0, DaysOf);
    Repo.ChildRowsLength(AllDays(b), db.days.next, ExerciseRows, 0, ExercisesOf);
    Db(Repo.Insert(db.blocks, b.block),
       Repo.InsertAll(db.weeks, Repo.ChildRows([b], blockId, WeekRows)),
       Repo.InsertAll(db.days, Repo.ChildRows(b.weeks, db.weeks.next, DayRows)),
       Repo.InsertAll(db.exercises, Repo.ChildRows(AllDays(b), db.days.next, ExerciseRows)),
       Repo.InsertAll(db.prescribed, Repo.ChildRows(AllExercises(b), db.exercises.next, SetRows)),
       db.actuals, db.users)
  }

  datatype Created = Created(db: Db, blockId: int)

  /** `createBlockWithWeeks(request)`: the new block's id and the database
      after the save; every other block reads as before. */
  function CreateBlockWithWeeks(db: Db, r: BlockRequest): (c: Created)
    ensures c.blockId == db.blocks.next
    ensures Repo.Valid(db.blocks) ==>
      Repo.Find(c.db.blocks, c.blockId) == Some(BlockRow(r.blockLength, r.progressionRate, r.deloadRate, DefaultCycle, DefaultCycle))
    ensures forall id :: id != c.blockId ==> Repo.Find(c.db.blocks, id) == Repo.Find(db.blocks, id)
  {
    Created(Persist(db, BuildBlock(r)), db.blocks.next)
  }

  /** Reading the saved graph back through its foreign keys gives it back,
      level by level: the new block's weeks are the built weeks in order. */
  lemma PersistWeeks(db: Db, b: BlockNode)
    requires forall i :: 0 <= i < |db.weeks.rows| ==> db.weeks.rows[i].value.blockId < db.blocks.next
    ensures Repo.Children(Persist(db, b).weeks, BlockOf, db.blocks.next) == WeekRows(db.blocks.next, b)
  {
    assert Repo.PointsAtParent(WeekRows, BlockOf);
    assert forall i :: 0 <= i < |db.weeks.rows| ==> BlockOf(db.weeks.rows[i].value) < db.blocks.next;
    assert Persist(db, b).weeks == Repo.InsertAll(db.weeks, Repo.ChildRows([b], db.blocks.next, WeekRows));
    Repo.InsertChildren(db.weeks, [b], db.blocks.next, WeekRows, BlockOf, 0);
  }

  /** The `k`-th saved week's days are the `k`-th built week's days, in order. */
  lemma PersistDays(db: Db, b: BlockNode, k: int)
    requires forall i :: 0 <= i < |db.days.rows| ==> db.days.rows[i].value.weekId < db.weeks.next
    requires 0 <= k < |b.weeks|
    ensures Repo.Children(Persist(db, b).days, WeekOf, db.weeks.next + k) == DayRows(db.weeks.next + k, b.weeks[k])
  {
    SavedDays(db.days, b.weeks, db.weeks.next, k);
    assert Persist(db, b).days == Repo.InsertAll(db.days, Repo.ChildRows(b.weeks, db.weeks.next, DayRows));
  }

  lemma SavedDays(t: Repo.Table<DayRow>, weeks: seq<WeekNode>, firstId: int, k: int)
    requires forall i :: 0 <= i < |t.rows| ==> t.rows[i].value.weekId < firstId
    requires 0 <= k < |weeks|
    ensures Repo.Children(Repo.InsertAll(t, Repo.ChildRows(weeks, firstId, DayRows)), WeekOf, firstId + k)
              == DayRows(firstId + k, weeks[k])
  {
    assert Repo.PointsAtParent(DayRows, WeekOf);
    assert forall i :: 0 <= i < |t.rows| ==> WeekOf(t.rows[i].value) < firstId;
    Repo.InsertChildren(t, weeks, firstId, DayRows, WeekOf, k);
  }

  /** The `k`-th saved day's exercises are those of the `k`-th day of the graph. */
  lemma PersistExercises(db: Db, b: BlockNode, k: int)
    requires forall i :: 0 <= i < |db.exercises.rows| ==> db.exercises.rows[i].value.dayId < db.days.next
    requires 0 <= k < |AllDays(b)|
    ensures Repo.Children(Persist(db, b).exercises, DayOf, db.days.next + k)
              == ExerciseRows(db.days.next + k, AllDays(b)[k])
  {
    SavedExercises(db.exercises, AllDays(b), db.days.next, k);
    assert Persist(db, b).exercises
      == Repo.InsertAll(db.exercises, Repo.ChildRows(AllDays(b), db.days.next, ExerciseRows));
  }

  lemma SavedExercises(t: Repo.Table<ExerciseRow>, days: seq<DayNode>, firstId: int, k: int)
    requires forall i :: 0 <= i < |t.rows| ==> t.rows[i].value.dayId < firstId
    requires 0 <= k < |days|
    ensures Repo.Children(Repo.InsertAll(t, Repo.ChildRows(days, firstId, ExerciseRows)), DayOf, firstId + k)
              == ExerciseRows(firstId + k, days[k])
  {
    assert Repo.PointsAtParent(ExerciseRows, DayOf);
    assert forall i :: 0 <= i < |t.rows| ==> DayOf(t.rows[i].value) < firstId;
    Repo.InsertChildren(t, days, firstId, ExerciseRows, DayOf, k);
  }

  /** The `k`-th saved exercise's prescribed sets are those of the `k`-th
      exercise of the graph. */
  lemma PersistSets(db: Db, b: BlockNode, k: int)
    requires forall i :: 0 <= i < |db.prescribed.rows| ==> db.prescribed.rows[i].value.exerciseId < db.exercises.next
    requires 0 <= k < |AllExercises(b)|
    ensures Repo.Children(Persist(db, b).prescribed, ExerciseOfPrescribed, db.exercises.next + k)
              == SetRows(db.exercises.next + k, AllExercises(b)[k])
  {
    SavedSets(db.prescribed, AllExercises(b), db.exercises.next, k);
    assert Persist(db, b).prescribed
      == Repo.InsertAll(db.prescribed, Repo.ChildRows(AllExercises(b), db.exercises.next, SetRows));
  }

  lemma SavedSets(t: Repo.Table<PrescribedRow>, exercises: seq<ExerciseNode>, firstId: int, k: int)
    requires forall i :: 0 <= i < |t.rows| ==> t.rows[i].value.exerciseId < firstId
    requires 0 <= k < |exercises|
    ensures Repo.Children(Repo.InsertAll(t, Repo.ChildRows(exercises, firstId, SetRows)),
                          ExerciseOfPrescribed, firstId + k)
              == SetRows(firstId + k, exercises[k])
  {
    assert Repo.PointsAtParent(SetRows, ExerciseOfPrescribed);
    assert forall i :: 0 <= i < |t.rows| ==> ExerciseOfPrescribed(t.rows[i].value) < firstId;
    Repo.InsertChildren(t, exercises, firstId, SetRows, ExerciseOfPrescribed, k);
  }

  /** Saving a graph keeps the database well formed. */
  lemma PersistKeepsValid(db: Db, b: BlockNode)
    requires ValidDb(db)
    ensures ValidDb(Persist(db, b))
  {
    var r := Persist(db, b);
    assert Repo.PointsAtParent(WeekRows, BlockOf);
    assert Repo.PointsAtParent(DayRows, WeekOf);
    assert Repo.PointsAtParent(ExerciseRows, DayOf);
    assert Repo.PointsAtParent(SetRows, ExerciseOfPrescribed);
    Repo.ChildRowsParents([b], db.blocks.next, WeekRows, BlockOf);
    Repo.ChildRowsParents(b.weeks, db.weeks.next, DayRows, WeekOf);
    Repo.ChildRowsParents(AllDays(b), db.days.next, ExerciseRows, DayOf);
    Repo.ChildRowsParents(AllExercises(b), db.exercises.next, SetRows, ExerciseOfPrescribed);
    NewRowsBelow(db.weeks, Repo.ChildRows([b], db.blocks.next, WeekRows), BlockOf, r.blocks.next);
    NewRowsBelow(db.days, Repo.ChildRows(b.weeks, db.weeks.next, DayRows), WeekOf, r.weeks.next);
    NewRowsBelow(db.exercises, Repo.ChildRows(AllDays(b), db.days.next, ExerciseRows), DayOf, r.days.next);
    NewRowsBelow(db.prescribed, Repo.ChildRows(AllExercises(b), db.exercises.next, SetRows),
                 ExerciseOfPrescribed, r.exercises.next);
  }

  /** After inserting rows whose keys, like the old ones, stay below `bound`,
      every key stays below `bound`. */
  lemma NewRowsBelow<C>(t: Repo.Table<C>, vs: seq<C>, parentOf: C -> int, bound: int)
    requires forall i :: 0 <= i < |t.rows| ==> parentOf(t.rows[i].value) < bound
    requires forall m :: 0 <= m < |vs| ==> parentOf(vs[m]) < bound
    ensures forall i :: 0 <= i < |Repo.InsertAll(t, vs).rows| ==> parentOf(Repo.InsertAll(t, vs).rows[i].value) < bound
  {
    var r := Repo.InsertAll(t, vs);
    forall i | 0 <= i < |r.rows|
      ensures parentOf(r.rows[i].value) < bound
    {
      if i < |t.rows| {
        assert r.rows[i] == r.rows[..|t.rows|][i];
      } else {
        assert r.rows[i].value == vs[i - |t.rows|];
      }
    }
  }

  /** Saving a graph leaves no dangling reference. */
  lemma PersistKeepsLinked(db: Db, b: BlockNode)
    requires Linked(db)
    ensures Linked(Persist(db, b))
  {
    PersistLinksWeeks(db, b);
    PersistLinksDays(db, b);
    PersistLinksExercises(db, b);
    PersistLinksSets(db, b);
    assert Repo.InsertAll(db.exercises, Repo.ChildRows(AllDays(b), db.days.next, ExerciseRows))
      == Persist(db, b).exercises;
    Repo.InsertKeepsLinked(db.actuals, [], ExerciseOfActual, db.exercises,
                           Repo.ChildRows(AllDays(b), db.days.next, ExerciseRows));
    assert Repo.InsertAll(db.actuals, []) == db.actuals;
  }

  lemma PersistLinksWeeks(db: Db, b: BlockNode)
    requires Repo.LinkedTo(db.weeks, BlockOf, db.blocks)
    ensures Repo.LinkedTo(Persist(db, b).weeks, BlockOf, Persist(db, b).blocks)
  {
    assert Repo.PointsAtParent(WeekRows, BlockOf);
    Repo.ChildRowsParents([b], db.blocks.next, WeekRows, BlockOf);
    assert Persist(db, b).blocks == Repo.InsertAll(db.blocks, [b.block]);
    Repo.InsertKeepsLinked(db.weeks, Repo.ChildRows([b], db.blocks.next, WeekRows), BlockOf,
                           db.blocks, [b.block]);
  }

  lemma PersistLinksDays(db: Db, b: BlockNode)
    requires Repo.LinkedTo(db.days, WeekOf, db.weeks)
    ensures Repo.LinkedTo(Persist(db, b).days, WeekOf, Persist(db, b).weeks)
  {
    assert Repo.PointsAtParent(DayRows, WeekOf);
    Repo.ChildRowsParents(b.weeks, db.weeks.next, DayRows, WeekOf);
    assert |Repo.ChildRows([b], db.blocks.next, WeekRows)| == |b.weeks| by {
      assert Repo.ChildRows([b], db.blocks.next, WeekRows) == WeekRows(db.blocks.next, b) + [];
    }
    Repo.InsertKeepsLinked(db.days, Repo.ChildRows(b.weeks, db.weeks.next, DayRows), WeekOf,
                           db.weeks, Repo.ChildRows([b], db.blocks.next, WeekRows));
  }

  lemma PersistLinksExercises(db: Db, b: BlockNode)
    requires Repo.LinkedTo(db.exercises, DayOf, db.days)
    ensures Repo.LinkedTo(Persist(db, b).exercises, DayOf, Persist(db, b).days)
  {
    assert Repo.PointsAtParent(ExerciseRows, DayOf);
    Repo.ChildRowsParents(AllDays(b), db.days.next, ExerciseRows, DayOf);
    Repo.ChildRowsLength(b.weeks, db.weeks.next, DayRows, 0, DaysOf);
    Repo.InsertKeepsLinked(db.exercises, Repo.ChildRows(AllDays(b), db.days.next, ExerciseRows), DayOf,
                           db.days, Repo.ChildRows(b.weeks, db.weeks.next, DayRows));
  }

  lemma PersistLinksSets(db: Db, b: BlockNode)
    requires Repo.LinkedTo(db.prescribed, ExerciseOfPrescribed, db.exercises)
    ensures Repo.LinkedTo(Persist(db, b).prescribed, ExerciseOfPrescribed, Persist(db, b).exercises)
  {
    assert Repo.PointsAtParent(SetRows, ExerciseOfPrescribed);
    Repo.ChildRowsParents(AllExercises(b), db.exercises.next, SetRows, ExerciseOfPrescribed);
    Repo.ChildRowsLength(AllDays(b), db.days.next, ExerciseRows, 0, ExercisesOf);
    Repo.InsertKeepsLinked(db.prescribed, Repo.ChildRows(AllExercises(b), db.exercises.next, SetRows),
                           ExerciseOfPrescribed, db.exercises,
                           Repo.ChildRows(AllDays(b), db.days.next, ExerciseRows));
  }

  const BlockEntity := "Training block"

  /** `getTrainingBlockById(id)`. */
  function GetTrainingBlockById(db: Db, id: int): (r: Result<BlockRow>)
    ensures r.Success? <==> Repo.Contains(db.blocks, id)
    ensures r.Success? ==> Repo.Row(id, r.value) in db.blocks.rows
    ensures r.Failure? ==> r.error == Repo.NotFoundMessage(BlockEntity, id)
  {
    Repo.Get(db.blocks, id, BlockEntity)
  }

  /** A block just created reads back with the fields the request gave it. */
  lemma CreatedBlockIsFound(db: Db, r: BlockRequest)
    requires ValidDb(db)
    ensures var c := CreateBlockWithWeeks(db, r);
      GetTrainingBlockById(c.db, c.blockId)
        == Success(BlockRow(r.blockLength, r.progressionRate, r.deloadRate, DefaultCycle, DefaultCycle))
  {
  }

  /** `deleteTrainingBlock(id)`: a missing id is an error and nothing is
      deleted; otherwise the block goes together with everything under it. */
  function DeleteTrainingBlock(db: Db, id: int): (r: Result<Db>)
    ensures r.Success? <==> Repo.Contains(db.blocks, id)
    ensures r.Failure? ==> r.error == Repo.NotFoundMessage(BlockEntity, id)
    ensures r.Success? ==> r.value == CascadeBlock(db, id)
  {
    if !Repo.Contains(db.blocks, id) then Failure(Repo.NotFoundMessage(BlockEntity, id))
    else Success(CascadeBlock(db, id))
  }

  /** The ids of the weeks, days and exercises under block `id`. */
  function WeekIdsOf(db: Db, id: int): set<int> {
    Repo.ChildIds(db.weeks, BlockOf, {id})
  }

  function DayIdsOf(db: Db, id: int): set<int> {
    Repo.ChildIds(db.days, WeekOf, WeekIdsOf(db, id))
  }

  function ExerciseIdsOf(db: Db, id: int): set<int> {
    Repo.ChildIds(db.exercises, DayOf, DayIdsOf(db, id))
  }

  /** `deleteById(id)` on a block with `CascadeType.ALL` and orphan removal
      on every level: the block goes with its weeks, their days, the days'
      exercises and the exercises' prescribed and actual sets; users and
      every other block stay. */
  function CascadeBlock(db: Db, id: int): (r: Db)
    ensures !Repo.Contains(r.blocks, id) && r.users == db.users
    ensures Repo.Valid(db.blocks) ==>
      forall other :: other != id ==> Repo.Find(r.blocks, other) == Repo.Find(db.blocks, other)
  {
    Db(Repo.Remove(db.blocks, id),
       Repo.RemoveChildren(db.weeks, BlockOf, {id}),
       Repo.RemoveChildren(db.days, WeekOf, WeekIdsOf(db, id)),
       Repo.RemoveChildren(db.exercises, DayOf, DayIdsOf(db, id)),
       Repo.RemoveChildren(db.prescribed, ExerciseOfPrescribed, ExerciseIdsOf(db, id)),
       Repo.RemoveChildren(db.actuals, ExerciseOfActual, ExerciseIdsOf(db, id)),
       db.users)
  }

  /** What the cascade removes, level by level: the block's weeks, the days
      of those weeks, their exercises, and the sets of those exercises;
      every other row stays. */
  lemma CascadeBlockRemoves(db: Db, id: int)
    ensures var r := CascadeBlock(db, id);
      && (forall x :: x in r.weeks.rows <==> x in db.weeks.rows && x.value.blockId != id)
      && (forall x :: x in r.days.rows <==> x in db.days.rows && x.value.weekId !in WeekIdsOf(db, id))
      && (forall x :: x in r.exercises.rows <==> x in db.exercises.rows && x.value.dayId !in DayIdsOf(db, id))
      && (forall x :: x in r.prescribed.rows <==>
            x in db.prescribed.rows && x.value.exerciseId !in ExerciseIdsOf(db, id))
      && (forall x :: x in r.actuals.rows <==>
            x in db.actuals.rows && x.value.exerciseId !in ExerciseIdsOf(db, id))
  {
  }

  /** Deleting a block keeps the database well formed. */
  lemma CascadeBlockKeepsValid(db: Db, id: int)
    requires ValidDb(db)
    ensures ValidDb(CascadeBlock(db, id))
  {
    Repo.RemoveChildrenBelow(db.weeks, BlockOf, {id}, BlockOf, db.blocks.next);
    Repo.RemoveChildrenBelow(db.days, WeekOf, WeekIdsOf(db, id), WeekOf, db.weeks.next);
    Repo.RemoveChildrenBelow(db.exercises, DayOf, DayIdsOf(db, id), DayOf, db.days.next);
    Repo.RemoveChildrenBelow(db.prescribed, ExerciseOfPrescribed, ExerciseIdsOf(db, id),
                             ExerciseOfPrescribed, db.exercises.next);
    Repo.RemoveChildrenBelow(db.actuals, ExerciseOfActual, ExerciseIdsOf(db, id),
                             ExerciseOfActual, db.exercises.next);
  }

  /** Deleting a block leaves no row pointing at anything deleted. */
  lemma CascadeBlockKeepsLinked(db: Db, id: int)
    requires ValidDb(db) && Linked(db)
    ensures Linked(CascadeBlock(db, id))
  {
    var d := CascadeBlock(db, id);
    forall i | 0 <= i < |d.weeks.rows|
      ensures Repo.Contains(d.blocks, d.weeks.rows[i].value.blockId)
    {
      var x := d.weeks.rows[i];
      assert x in db.weeks.rows;
      var k :| 0 <= k < |db.weeks.rows| && db.weeks.rows[k] == x;
      assert Repo.Find(db.blocks, x.value.blockId).Some?;
    }
    Repo.CascadeKeepsLinked(db.days, WeekOf, db.weeks, BlockOf, {id});
    Repo.CascadeKeepsLinked(db.exercises, DayOf, db.days, WeekOf, WeekIdsOf(db, id));
    Repo.CascadeKeepsLinked(db.prescribed, ExerciseOfPrescribed, db.exercises, DayOf, DayIdsOf(db, id));
    Repo.CascadeKeepsLinked(db.actuals, ExerciseOfActual, db.exercises, DayOf, DayIdsOf(db, id));
  }
}

=== FILE: user_service.dfy ===
/** backend/.../service/UserService.java: users, whose emails are unique. */
module UserService {
  import opened Wrappers
  import opened Entities
  import Repo

  /** `CreateUserRequest`; bean validation makes name, email and role present. */
  datatype CreateUserRequest = CreateUserRequest(name: string, email: string, startDate: Option<int>,
                                                 estimatedSquat1RM: Option<int>, estimatedBench1RM: Option<int>,
                                                 estimatedDeadlift1RM: Option<int>, role: string)

  /** `UpdateUserRequest`: every field may be null. */
  datatype UpdateUserRequest = UpdateUserRequest(name: Option<string>, email: Option<string>,
                                                 startDate: Option<int>, estimatedSquat1RM: Option<int>,
                                                 estimatedBench1RM: Option<int>,
                                                 estimatedDeadlift1RM: Option<int>, role: Option<string>)

  const UserEntity := "User"

  function EmailTakenMessage(email: string): string {
    "User with email " + email + " already exists"
  }

  /** `existsByEmail(email)` */
  predicate ExistsByEmail(t: Repo.Table<UserRow>, email: string) {
    exists i :: 0 <= i < |t.rows| && t.rows[i].value.email == email
  }

  /** No two users share an email, what the unique column enforces. */
  ghost predicate EmailsUnique(t: Repo.Table<UserRow>) {
    forall i, j :: 0 <= i < |t.rows| && 0 <= j < |t.rows| && i != j ==> t.rows[i].value.email != t.rows[j].value.email
  }

  datatype Saved = Saved(users: Repo.Table<UserRow>, id: int)

  /** `getUserById(id)`. */
  function GetUserById(t: Repo.Table<UserRow>, id: int): (r: Result<UserRow>)
    ensures r.Success? <==> Repo.Contains(t, id)
    ensures r.Success? ==> Repo.Row(id, r.value) in t.rows
    ensures r.Failure? ==> r.error == Repo.NotFoundMessage(UserEntity, id)
  {
    Repo.Get(t, id, UserEntity)
  }

  /** `toEntity(request)` */
  function NewUser(r: CreateUserRequest): UserRow {
    UserRow(r.name, r.email, r.startDate, r.estimatedSquat1RM, r.estimatedBench1RM, r.estimatedDeadlift1RM, r.role)
  }

  /** `createUser(request)`: an email already in use is refused; otherwise
      the user is saved under the next id and no other user changes. */
  function CreateUser(t: Repo.Table<UserRow>, r: CreateUserRequest): (s: Result<Saved>)
    ensures s.Success? <==> !ExistsByEmail(t, r.email)
    ensures s.Failure? ==> s.error == EmailTakenMessage(r.email)
    ensures s.Success? ==>
      s.value.id == t.next
      && (Repo.Valid(t) ==> GetUserById(s.value.users, s.value.id) == Success(NewUser(r)))
      && forall id :: id != s.value.id ==> Repo.Find(s.value.users, id) == Repo.Find(t, id)
  {
    if ExistsByEmail(t, r.email) then Failure(EmailTakenMessage(r.email))
    else Success(Saved(Repo.Insert(t, NewUser(r)), t.next))
  }

  /** Creating a user keeps emails unique. */
  lemma CreateUserKeepsEmailsUnique(t: Repo.Table<UserRow>, r: CreateUserRequest)
    requires EmailsUnique(t)
    ensures var s := CreateUser(t, r);
      s.Success? ==> EmailsUnique(s.value.users)
  {
    var s := CreateUser(t, r);
    if s.Success? {
      var u := s.value.users;
      forall i, j | 0 <= i < |u.rows| && 0 <= j < |u.rows| && i != j
        ensures u.rows[i].value.email != u.rows[j].value.email
      {
        if i < |t.rows| && j < |t.rows| {
          assert u.rows[i] == t.rows[i] && u.rows[j] == t.rows[j];
        } else if i < |t.rows| {
          assert u.rows[i] == t.rows[i];
        } else {
          assert u.rows[j] == t.rows[j];
        }
      }
    }
  }

  /** `updateEntityFromRequest(request, user)` with null values ignored. */
  function Merge(u: UserRow, r: UpdateUserRequest): (m: UserRow)
  {
    UserRow(r.name.GetOr(u.name), r.email.GetOr(u.email),
            if r.startDate.Some? then r.startDate else u.startDate,
            if r.estimatedSquat1RM.Some? then r.estimatedSquat1RM else u.estimatedSquat1RM,
            if r.estimatedBench1RM.Some? then r.estimatedBench1RM else u.estimatedBench1RM,
            if r.estimatedDeadlift1RM.Some? then r.estimatedDeadlift1RM else u.estimatedDeadlift1RM,
            r.role.GetOr(u.role))
  }

  const NoChange := UpdateUserRequest(None, None, None, None, None, None, None)

  /** The request that writes back every field of `u`. */
  function RequestOf(u: UserRow): UpdateUserRequest {
    UpdateUserRequest(Some(u.name), Some(u.email), u.startDate, u.estimatedSquat1RM, u.estimatedBench1RM,
                      u.estimatedDeadlift1RM, Some(u.role))
  }

  /** Null fields are ignored: an all-null request changes nothing, applying
      a request twice is applying it once, a null field keeps its value and a
      present one takes the request's. */
  lemma MergeLaws(u: UserRow, r: UpdateUserRequest)
    ensures Merge(u, NoChange) == u
    ensures Merge(Merge(u, r), r) == Merge(u, r)
    ensures Merge(u, RequestOf(u)) == u
    ensures Merge(u, r).email == if r.email.Some? then r.email.value else u.email
    ensures Merge(u, r).name == if r.name.Some? then r.name.value else u.name
    ensures Merge(u, r).startDate == if r.startDate.Some? then r.startDate else u.startDate
    ensures Merge(u, r).estimatedSquat1RM ==
      if r.estimatedSquat1RM.Some? then r.estimatedSquat1RM else u.estimatedSquat1RM
    ensures Merge(u, r).estimatedBench1RM ==
      if r.estimatedBench1RM.Some? then r.estimatedBench1RM else u.estimatedBench1RM
    ensures Merge(u, r).estimatedDeadlift1RM ==
      if r.estimatedDeadlift1RM.Some? then r.estimatedDeadlift1RM else u.estimatedDeadlift1RM
    ensures Merge(u, r).role == if r.role.Some? then r.role.value else u.role
  {
  }

  /** `updateUser(id, request)`: the user must exist; a new email that
      differs from the user's own must be free; then the present fields are
      written and no other user changes. */
  function UpdateUser(t: Repo.Table<UserRow>, id: int, r: UpdateUserRequest): (s: Result<Repo.Table<UserRow>>)
    ensures !Repo.Contains(t, id) ==> s == Failure(Repo.NotFoundMessage(UserEntity, id))
    ensures s.Success? <==>
      Repo.Contains(t, id)
      && (r.email.Some? && r.email.value != Repo.Find(t, id).value.email ==> !ExistsByEmail(t, r.email.value))
    ensures Repo.Contains(t, id) && s.Failure? ==> s.error == EmailTakenMessage(r.email.value)
    ensures s.Success? && Repo.Valid(t) ==>
      GetUserById(s.value, id) == Success(Merge(Repo.Find(t, id).value, r))
      && forall other :: other != id ==> Repo.Find(s.value, other) == Repo.Find(t, other)
  {
    match Repo.Find(t, id)
    case None => Failure(Repo.NotFoundMessage(UserEntity, id))
    case Some(u) =>
      if r.email.Some? && r.email.value != u.email && ExistsByEmail(t, r.email.value) then
        Failure(EmailTakenMessage(r.email.value))
      else
        Repo.UpdateReads(t, id, Merge(u, r));
        Success(Repo.Update(t, id, Merge(u, r)))
  }

  /** Updating a user keeps emails unique: keeping one's own email is
      allowed, taking another user's is refused. */
  lemma UpdateUserKeepsEmailsUnique(t: Repo.Table<UserRow>, id: int, r: UpdateUserRequest)
    requires Repo.Valid(t) && EmailsUnique(t)
    ensures var s := UpdateUser(t, id, r);
      s.Success? ==> EmailsUnique(s.value)
  {
    if UpdateUser(t, id, r).Success? {
      var k :| 0 <= k < |t.rows| && t.rows[k].id == id;
      Repo.FindUnique(t, id, k);
      var u := t.rows[k].value;
      assert Repo.Find(t, id).value == u;
      assert UpdateUser(t, id, r).value == Repo.Update(t, id, Merge(u, r));
      UpdateRowKeepsEmailsUnique(t, k, Merge(u, r));
    }
  }

  /** Rewriting row `k` with an email that is its own or unused keeps
      emails unique. */
  lemma UpdateRowKeepsEmailsUnique(t: Repo.Table<UserRow>, k: int, m: UserRow)
    requires Repo.Valid(t) && EmailsUnique(t) && 0 <= k < |t.rows|
    requires m.email == t.rows[k].value.email || !ExistsByEmail(t, m.email)
    ensures EmailsUnique(Repo.Update(t, t.rows[k].id, m))
  {
    var id := t.rows[k].id;
    var n := Repo.Update(t, id, m);
    forall i, j | 0 <= i < |n.rows| && 0 <= j < |n.rows| && i != j
      ensures n.rows[i].value.email != n.rows[j].value.email
    {
      Repo.FindUnique(t, id, k);
      assert t.rows[i].id == id <==> i == k;
      assert t.rows[j].id == id <==> j == k;
      NewEmailDiffers(t, k, m.email, i, j);
    }
  }

  /** Two distinct rows of an update, at most one of which is the updated
      row `k`, carry different emails. */
  lemma NewEmailDiffers(t: Repo.Table<UserRow>, k: int, email: string, i: int, j: int)
    requires Repo.Valid(t) && EmailsUnique(t) && 0 <= k < |t.rows|
    requires email == t.rows[k].value.email || !ExistsByEmail(t, email)
    requires 0 <= i < |t.rows| && 0 <= j < |t.rows| && i != j
    ensures (if i == k then email else t.rows[i].value.email) != (if j == k then email else t.rows[j].value.email)
  {
    if i == k {
      assert t.rows[j].value.email != t.rows[k].value.email;
    } else if j == k {
      assert t.rows[i].value.email != t.rows[k].value.email;
    }
  }

  /** `deleteUser(id)`: a missing id is an error and nothing is deleted;
      otherwise that user goes and no other user changes. */
  function DeleteUser(t: Repo.Table<UserRow>, id: int): (s: Result<Repo.Table<UserRow>>)
    ensures s.Success? <==> Repo.Contains(t, id)
    ensures s.Failure? ==> s.error == Repo.NotFoundMessage(UserEntity, id)
    ensures s.Success? ==>
      GetUserById(s.value, id).Failure?
      && (Repo.Valid(t) ==> forall other :: other != id ==> Repo.Find(s.value, other) == Repo.Find(t, other))
  {
    if !Repo.Contains(t, id) then Failure(Repo.NotFoundMessage(UserEntity, id))
    else Success(Repo.Remove(t, id))
  }
}

=== FILE: workout_service.dfy ===
/** backend/.../service/WorkoutService.java: logging the sets of one workout
    day, reading a day's workout back grouped by exercise, and a block's
    progress grouped by (block, week, day). */
module WorkoutService {
  import opened Wrappers
  import opened Enums
  import opened Entities
  import Repo
  import Seqs
  import Strings
  import Dicts

  /** `CreateWorkoutActualSetRequest` */
  datatype SetEntry = SetEntry(prescribedSetId: Option<int>, setNumber: int, actualWeight: Option<real>,
                               actualReps: Option<int>, actualRPE: Option<int>, tempoUsed: Option<Tempo>,
                               videoRecorded: Option<bool>, feedback: Option<string>)

  /** `CreateWorkoutExerciseRequest` */
  datatype ExerciseEntry = ExerciseEntry(exerciseId: int, actualSets: seq<SetEntry>)

  /** Where a workout day sits: the block, the week number within it and the
      day number within the week. */
  datatype Place = Place(blockId: int, weekNumber: int, dayNumber: int)

  /** `CreateWorkoutRequest` */
  datatype WorkoutRequest = WorkoutRequest(place: Place, exercises: seq<ExerciseEntry>)

  /** `WorkoutExerciseResponseDto`: the sets keep their ids. */
  datatype ExerciseSets = ExerciseSets(exerciseId: int, exerciseName: string, actualSets: seq<Repo.Row<ActualRow>>)

  /** `WorkoutResponseDto` */
  datatype Workout = Workout(place: Place, completedAt: Option<int>, exercises: seq<ExerciseSets>)

  /** The place of a day, through its week; a day whose week is missing drops
      out of the inner join. */
  function DayPlace(db: Db, d: DayRow): Option<Place> {
    match Repo.Find(db.weeks, d.weekId)
    case None => None
    case Some(w) => Some(Place(w.blockId, w.weekNumber, d.dayNumber))
  }

  /** The place of a performed set, through its exercise and day. */
  function SetPlace(db: Db, a: ActualRow): Option<Place> {
    match Repo.Find(db.exercises, a.exerciseId)
    case None => None
    case Some(e) =>
      match Repo.Find(db.days, e.dayId)
      case None => None
      case Some(d) => DayPlace(db, d)
    }

  /** The filter "a day at `p`", named so that every use denotes the same function. */
  function DayAt(db: Db, p: Place): Repo.Row<DayRow> -> bool {
    (row: Repo.Row<DayRow>) => DayPlace(db, row.value) == Some(p)
  }

  function RowId<T>(row: Repo.Row<T>): int { row.id }

  /** The ids of the days the query `findByBlockIdAndWeekNumberAndDayNumber`
      returns, in id order. */
  function DaysAt(db: Db, p: Place): (r: seq<int>)
    ensures forall id :: id in r <==>
      exists i :: 0 <= i < |db.days.rows| && db.days.rows[i].id == id && DayPlace(db, db.days.rows[i].value) == Some(p)
  {
    var rows := Seqs.Filter(db.days.rows, DayAt(db, p));
    Seqs.FilterMembers(db.days.rows, DayAt(db, p));
    var r := Seqs.Map(rows, RowId);
    forall id | id in r
      ensures exists i :: 0 <= i < |db.days.rows| && db.days.rows[i].id == id && DayPlace(db, db.days.rows[i].value) == Some(p)
    {
      var k :| 0 <= k < |r| && r[k] == id;
      assert rows[k] in rows;
    }
    forall i | 0 <= i < |db.days.rows| && DayPlace(db, db.days.rows[i].value) == Some(p)
      ensures db.days.rows[i].id in r
    {
      assert db.days.rows[i] in rows;
      var k :| 0 <= k < |rows| && rows[k] == db.days.rows[i];
      assert r[k] == db.days.rows[i].id;
    }
    r
  }

  function DayNotFoundMessage(p: Place): string {
    "Workout day not found for block " + Strings.IntToString(p.blockId) + ", week "
    + Strings.IntToString(p.weekNumber) + ", day " + Strings.IntToString(p.dayNumber)
  }

  /** What an `Optional` query reports when more than one row matches. */
  function NotUniqueMessage(count: int): string {
    "query did not return a unique result: " + Strings.IntToString(count)
  }

  /** `workoutDayRepository.findByBlockIdAndWeekNumberAndDayNumber(...)
      .orElseThrow(...)`: the one day at `p`. */
  function FindDay(db: Db, p: Place): (r: Result<int>)
    ensures r.Success? <==> |DaysAt(db, p)| == 1
    ensures DaysAt(db, p) == [] ==> r == Failure(DayNotFoundMessage(p))
    ensures r.Success? ==>
      exists i :: 0 <= i < |db.days.rows| && db.days.rows[i].id == r.value && DayPlace(db, db.days.rows[i].value) == Some(p)
  {
    var ids := DaysAt(db, p);
    if ids == [] then Failure(DayNotFoundMessage(p))
    else if |ids| > 1 then Failure(NotUniqueMessage(|ids|))
    else
      assert ids[0] in ids;
      Success(ids[0])
  }

  function NotOwnedMessage(exerciseId: int): string {
    "Exercise " + Strings.IntToString(exerciseId) + " does not belong to the specified workout day"
  }

  /** The exercise of an entry must exist and belong to the day. */
  predicate Owned(db: Db, dayId: int, exerciseId: int) {
    Repo.Find(db.exercises, exerciseId).Some? && Repo.Find(db.exercises, exerciseId).value.dayId == dayId
  }

  /** The refusal of one entry: a missing exercise is not found, an exercise
      of another day does not belong to it. */
  function EntryError(db: Db, dayId: int, e: ExerciseEntry): (r: Option<string>)
    ensures r.None? <==> Owned(db, dayId, e.exerciseId)
    ensures Repo.Find(db.exercises, e.exerciseId).None? ==> r == Some(Repo.NotFoundMessage("Exercise", e.exerciseId))
    ensures Repo.Find(db.exercises, e.exerciseId).Some? && Repo.Find(db.exercises, e.exerciseId).value.dayId != dayId
      ==> r == Some(NotOwnedMessage(e.exerciseId))
  {
    match Repo.Find(db.exercises, e.exerciseId)
    case None => Some(Repo.NotFoundMessage("Exercise", e.exerciseId))
    case Some(x) => if x.dayId != dayId then Some(NotOwnedMessage(e.exerciseId)) else None
  }

  /** The position of the first entry, in request order, that is refused, or
      the length when none is. */
  function FirstRefused(db: Db, dayId: int, es: seq<ExerciseEntry>): (k: nat)
    ensures k <= |es|
    ensures forall j :: 0 <= j < k ==> Owned(db, dayId, es[j].exerciseId)
    ensures k < |es| ==> !Owned(db, dayId, es[k].exerciseId)
  {
    if es == [] || !Owned(db, dayId, es[0].exerciseId) then 0
    else
      assert forall j :: 1 <= j < |es| ==> es[j] == es[1..][j - 1];
      1 + FirstRefused(db, dayId, es[1..])
  }

  /** The error of the first entry, in request order, that is refused. */
  function FirstError(db: Db, dayId: int, es: seq<ExerciseEntry>): (r: Option<string>)
    ensures r.None? <==> forall k :: 0 <= k < |es| ==> Owned(db, dayId, es[k].exerciseId)
    ensures var k := FirstRefused(db, dayId, es); k < |es| ==> r == EntryError(db, dayId, es[k])
  {
    if es == [] then None
    else
      var e := EntryError(db, dayId, es[0]);
      if e.Some? then e
      else
        assert forall k :: 1 <= k < |es| ==> es[k] == es[1..][k - 1];
        FirstError(db, dayId, es[1..])
  }

  /** The set `logWorkout` builds: a null `videoRecorded` becomes false and
      every set of one call carries the same completion time. */
  function LoggedRow(exerciseId: int, s: SetEntry, now: int): (r: ActualRow)
    ensures r.exerciseId == exerciseId && r.prescribedSetId == s.prescribedSetId && r.setNumber == s.setNumber
    ensures r.actualWeight == s.actualWeight && r.actualReps == s.actualReps && r.actualRPE == s.actualRPE
    ensures r.tempoUsed == s.tempoUsed && r.feedback == s.feedback && r.completedAt == Some(now)
    ensures s.videoRecorded.None? ==> r.videoRecorded == Some(false)
    ensures s.videoRecorded.Some? ==> r.videoRecorded == s.videoRecorded
  {
    ActualRow(exerciseId, s.prescribedSetId, s.setNumber, s.actualWeight, s.actualReps, s.actualRPE,
              s.tempoUsed, Some(s.videoRecorded.GetOr(false)), s.feedback, Some(now))
  }

  /** The number of sets a request carries. */
  function SetCount(es: seq<ExerciseEntry>): nat {
    if es == [] then 0 else |es[0].actualSets| + SetCount(es[1..])
  }

  /** The sets saved, entry by entry and set by set, in request order; each
      is stamped `now` and records whether a video was taken. */
  function LoggedRows(es: seq<ExerciseEntry>, now: int): (r: seq<ActualRow>)
    ensures |r| == SetCount(es)
    ensures forall m :: 0 <= m < |r| ==> r[m].completedAt == Some(now) && r[m].videoRecorded.Some?
  {
    if es == [] then []
    else
      var e := es[0];
      seq(|e.actualSets|, i requires 0 <= i < |e.actualSets| => LoggedRow(e.exerciseId, e.actualSets[i], now))
      + LoggedRows(es[1..], now)
  }

  /** Set `i` of entry `k` is saved at position `SetCount(es[..k]) + i`, as
      the set that entry requested for that exercise. */
  lemma {:induction false} LoggedRowsAt(es: seq<ExerciseEntry>, now: int, k: int, i: int)
    requires 0 <= k < |es| && 0 <= i < |es[k].actualSets|
    ensures SetCount(es[..k]) + i < |LoggedRows(es, now)|
    ensures LoggedRows(es, now)[SetCount(es[..k]) + i] == LoggedRow(es[k].exerciseId, es[k].actualSets[i], now)
    decreases k
  {
    var e := es[0];
    var head := seq(|e.actualSets|, j requires 0 <= j < |e.actualSets| => LoggedRow(e.exerciseId, e.actualSets[j], now));
    assert LoggedRows(es, now) == head + LoggedRows(es[1..], now);
    if k == 0 {
      assert es[..0] == [];
    } else {
      LoggedRowsAt(es[1..], now, k - 1, i);
      assert es[1..][k - 1] == es[k];
      assert es[..k][0] == es[0] && es[..k][1..] == es[1..][..k - 1];
    }
  }

  /** Every saved set points at the exercise of one of the entries. */
  lemma {:induction false} LoggedRowsOwners(es: seq<ExerciseEntry>, now: int, m: int)
    requires 0 <= m < |LoggedRows(es, now)|
    ensures exists k :: 0 <= k < |es| && LoggedRows(es, now)[m].exerciseId == es[k].exerciseId
    decreases |es|
  {
    var e := es[0];
    var head := seq(|e.actualSets|, i requires 0 <= i < |e.actualSets| => LoggedRow(e.exerciseId, e.actualSets[i], now));
    assert LoggedRows(es, now) == head + LoggedRows(es[1..], now);
    if m < |head| {
      assert LoggedRows(es, now)[m] == head[m];
    } else {
      LoggedRowsOwners(es[1..], now, m - |head|);
      var k :| 0 <= k < |es[1..]| && LoggedRows(es[1..], now)[m - |head|].exerciseId == es[1..][k].exerciseId;
      assert es[1..][k] == es[k + 1];
    }
  }

  /** `logWorkout(request)`: the day must be found, then every entry's
      exercise must exist and belong to that day, in request order; the first
      refusal is the error and, the call being one transaction, nothing is
      saved. Otherwise one set is appended per requested set and nothing else
      changes. */
  function LogWorkout(db: Db, r: WorkoutRequest, now: int): (s: Result<Db>)
    ensures FindDay(db, r.place).Failure? ==> s == Failure(FindDay(db, r.place).error)
    ensures s.Success? <==>
      FindDay(db, r.place).Success?
      && forall k :: 0 <= k < |r.exercises| ==> Owned(db, FindDay(db, r.place).value, r.exercises[k].exerciseId)
    ensures FindDay(db, r.place).Success? && FirstError(db, FindDay(db, r.place).value, r.exercises).Some?
      ==> s == Failure(FirstError(db, FindDay(db, r.place).value, r.exercises).value)
    ensures s.Success? ==> s.value == db.(actuals := AppendSets(db.actuals, r.exercises, now))
  {
    var day := FindDay(db, r.place);
    if day.Failure? then Failure(day.error)
    else
      var error := FirstError(db, day.value, r.exercises);
      if error.Some? then Failure(error.value)
      else Success(db.(actuals := AppendSets(db.actuals, r.exercises, now)))
  }

  /** The set table after the save: the old sets, then one per requested
      set, each stamped `now`. */
  function AppendSets(t: Repo.Table<ActualRow>, es: seq<ExerciseEntry>, now: int): (r: Repo.Table<ActualRow>)
    ensures |r.rows| == |t.rows| + SetCount(es) && r.rows[..|t.rows|] == t.rows
    ensures forall m :: |t.rows| <= m < |r.rows| ==>
      r.rows[m].value.completedAt == Some(now) && r.rows[m].value.videoRecorded.Some?
    ensures forall j :: 0 <= j < SetCount(es) ==>
      r.rows[|t.rows| + j] == Repo.Row(t.next + j, LoggedRows(es, now)[j])
    ensures Repo.Valid(t) && t.next >= 1 ==> Repo.Valid(r)
  {
    var rows := LoggedRows(es, now);
    InsertedRowsAreStamped(t, rows, now);
    Repo.InsertAll(t, rows)
  }

  /** Set `i` of entry `k` is the new row at offset `SetCount(es[..k]) + i`,
      with the next free id at that offset and the requested set's fields. */
  lemma AppendedRowIs(t: Repo.Table<ActualRow>, es: seq<ExerciseEntry>, now: int, k: int, i: int)
    requires 0 <= k < |es| && 0 <= i < |es[k].actualSets|
    ensures var m := SetCount(es[..k]) + i;
      |t.rows| + m < |AppendSets(t, es, now).rows|
      && AppendSets(t, es, now).rows[|t.rows| + m]
           == Repo.Row(t.next + m, LoggedRow(es[k].exerciseId, es[k].actualSets[i], now))
  {
    var r := AppendSets(t, es, now);
    var m := SetCount(es[..k]) + i;
    LoggedRowsAt(es, now, k, i);
    assert 0 <= m < SetCount(es);
    assert r.rows[|t.rows| + m] == Repo.Row(t.next + m, LoggedRows(es, now)[m]);
  }

  lemma InsertedRowsAreStamped(t: Repo.Table<ActualRow>, rows: seq<ActualRow>, now: int)
    requires forall m :: 0 <= m < |rows| ==> rows[m].completedAt == Some(now) && rows[m].videoRecorded.Some?
    ensures var r := Repo.InsertAll(t, rows);
      forall m :: |t.rows| <= m < |r.rows| ==>
        r.rows[m].value.completedAt == Some(now) && r.rows[m].value.videoRecorded.Some?
  {
    var r := Repo.InsertAll(t, rows);
    forall m | |t.rows| <= m < |r.rows|
      ensures r.rows[m].value == rows[m - |t.rows|]
    {
      assert r.rows[|t.rows| + (m - |t.rows|)] == Repo.Row(t.next + (m - |t.rows|), rows[m - |t.rows|]);
    }
  }

  /** The ownership check is what keeps the database linked: every set
      saved points at an existing exercise. */
  lemma LogWorkoutKeepsLinked(db: Db, r: WorkoutRequest, now: int)
    requires ValidDb(db) && Linked(db)
    ensures var s := LogWorkout(db, r, now);
      s.Success? ==> ValidDb(s.value) && Linked(s.value)
  {
    if LogWorkout(db, r, now).Success? {
      AppendSetsLinked(db, FindDay(db, r.place).value, r.exercises, now);
      WithActuals(db, AppendSets(db.actuals, r.exercises, now));
    }
  }

  lemma AppendSetsLinked(db: Db, dayId: int, es: seq<ExerciseEntry>, now: int)
    requires Repo.LinkedTo(db.actuals, ExerciseOfActual, db.exercises)
    requires forall k :: 0 <= k < |es| ==> Owned(db, dayId, es[k].exerciseId)
    ensures Repo.LinkedTo(AppendSets(db.actuals, es, now), ExerciseOfActual, db.exercises)
  {
    var t := AppendSets(db.actuals, es, now);
    var rows := LoggedRows(es, now);
    forall i | 0 <= i < |t.rows|
      ensures Repo.Contains(db.exercises, t.rows[i].value.exerciseId)
    {
      if i < |db.actuals.rows| {
        assert t.rows[i] == t.rows[..|db.actuals.rows|][i];
      } else {
        var m := i - |db.actuals.rows|;
        assert t.rows[i].value == rows[m];
        LoggedRowsOwners(es, now, m);
        var k :| 0 <= k < |es| && rows[m].exerciseId == es[k].exerciseId;
        assert Owned(db, dayId, es[k].exerciseId);
      }
    }
  }

  /** The latest of the non-null completion times, `None` when there is none:
      `.filter(date -> date != null).max(...).orElse(null)`. */
  function LatestCompletion(sets: seq<Repo.Row<ActualRow>>): (r: Option<int>)
    ensures r.None? <==> forall i :: 0 <= i < |sets| ==> sets[i].value.completedAt.None?
    ensures r.Some? ==>
      (forall i :: 0 <= i < |sets| && sets[i].value.completedAt.Some? ==> sets[i].value.completedAt.value <= r.value)
      && exists i :: 0 <= i < |sets| && sets[i].value.completedAt == r
  {
    if sets == [] then None
    else
      var last := sets[|sets| - 1].value.completedAt;
      var prev := LatestCompletion(sets[..|sets| - 1]);
      assert forall i :: 0 <= i < |sets| - 1 ==> sets[..|sets| - 1][i] == sets[i];
      if prev.None? then last
      else if last.None? || last.value <= prev.value then prev
      else last
  }

  function ExerciseOfSet(row: Repo.Row<ActualRow>): int { row.value.exerciseId }

  /** The name of the exercise the sets of a group point at. */
  function ExerciseName(db: Db, exerciseId: int): string {
    match Repo.Find(db.exercises, exerciseId)
    case Some(e) => e.name
    case None => ""
  }

  /** `groupingBy(set -> set.getExercise().getId())`, one response entry per
      group. Groups come in the order their exercise first appears. */
  function ByExercise(db: Db, sets: seq<Repo.Row<ActualRow>>): seq<ExerciseSets> {
    Seqs.Map(Dicts.GroupBy(sets, ExerciseOfSet),
             (g: Dicts.Entry<int, seq<Repo.Row<ActualRow>>>) => ExerciseSets(g.key, ExerciseName(db, g.key), g.value))
  }

  /** Grouping by exercise partitions the sets: no exercise has two groups, a
      group holds exactly the sets of its exercise in their order, and every
      set's exercise has a group. */
  lemma ByExercisePartition(db: Db, sets: seq<Repo.Row<ActualRow>>)
    ensures var r := ByExercise(db, sets);
      && (sets == [] ==> r == [])
      && (forall i, j :: 0 <= i < j < |r| ==> r[i].exerciseId != r[j].exerciseId)
      && (forall i :: 0 <= i < |r| ==>
            r[i].actualSets == Seqs.Filter(sets, Dicts.HasKey(ExerciseOfSet, r[i].exerciseId)))
      && (forall m :: 0 <= m < |sets| ==> exists i :: 0 <= i < |r| && r[i].exerciseId == sets[m].value.exerciseId)
  {
    var g := Dicts.GroupBy(sets, ExerciseOfSet);
    var r := ByExercise(db, sets);
    Dicts.GroupByDistinct(sets, ExerciseOfSet);
    forall i | 0 <= i < |r|
      ensures r[i].actualSets == Seqs.Filter(sets, Dicts.HasKey(ExerciseOfSet, r[i].exerciseId))
    {
      Dicts.LookupEntry(g, i);
      Dicts.GroupByLookup(sets, ExerciseOfSet, g[i].key);
    }
    forall m | 0 <= m < |sets|
      ensures exists i :: 0 <= i < |r| && r[i].exerciseId == sets[m].value.exerciseId
    {
      var k := ExerciseOfSet(sets[m]);
      assert Dicts.Occurs(sets, ExerciseOfSet, k);
      Dicts.GroupByLookup(sets, ExerciseOfSet, k);
      assert k in Dicts.Keys(g);
      var i :| 0 <= i < |g| && Dicts.Keys(g)[i] == k;
      assert r[i].exerciseId == k;
    }
  }

  /** The filter "a set at `p`", named so that every use denotes the same function. */
  function SetAt(db: Db, p: Place): Repo.Row<ActualRow> -> bool {
    (row: Repo.Row<ActualRow>) => SetPlace(db, row.value) == Some(p)
  }

  /** `actualSetRepository.findByBlockIdAndWeekNumberAndDayNumber(...)`, in id order. */
  function SetsAt(db: Db, p: Place): (r: seq<Repo.Row<ActualRow>>)
    ensures forall x :: x in r <==> x in db.actuals.rows && SetPlace(db, x.value) == Some(p)
  {
    Seqs.FilterMembers(db.actuals.rows, SetAt(db, p));
    Seqs.Filter(db.actuals.rows, SetAt(db, p))
  }

  /** `getWorkout(blockId, weekNumber, dayNumber)`: the day must be found;
      the answer holds that day's sets grouped by exercise and the latest
      completion time among them. */
  function GetWorkout(db: Db, p: Place): (r: Result<Workout>)
    ensures r.Success? <==> FindDay(db, p).Success?
    ensures r.Failure? ==> r.error == FindDay(db, p).error
    ensures r.Success? ==>
      r.value.place == p && r.value.completedAt == LatestCompletion(SetsAt(db, p))
      && r.value.exercises == ByExercise(db, SetsAt(db, p))
  {
    var day := FindDay(db, p);
    if day.Failure? then Failure(day.error)
    else
      var sets := SetsAt(db, p);
      Success(Workout(p, LatestCompletion(sets), ByExercise(db, sets)))
  }

  /** Logging only adds sets, so the day is found as before. */
  lemma FindDayIgnoresSets(db: Db, t: Repo.Table<ActualRow>, p: Place)
    ensures FindDay(db.(actuals := t), p) == FindDay(db, p)
  {
    var d := db.(actuals := t);
    Seqs.FilterAgree(db.days.rows, DayAt(d, p), DayAt(db, p));
  }

  /** `logWorkout` answers with `getWorkout` of the same day, which then
      exists; when at least one set was logged, its completion time is no
      earlier than the time of the call. */
  lemma LogThenGet(db: Db, r: WorkoutRequest, now: int)
    requires ValidDb(db)
    ensures var s := LogWorkout(db, r, now);
      s.Success? ==> GetWorkout(s.value, r.place).Success?
    ensures var s := LogWorkout(db, r, now);
      s.Success? && SetCount(r.exercises) > 0 ==>
        GetWorkout(s.value, r.place).value.completedAt.Some?
        && GetWorkout(s.value, r.place).value.completedAt.value >= now
    ensures var s := LogWorkout(db, r, now);
      s.Success? ==>
        forall m :: |db.actuals.rows| <= m < |s.value.actuals.rows| ==>
          s.value.actuals.rows[m] in SetsAt(s.value, r.place)
  {
    var s := LogWorkout(db, r, now);
    if s.Success? {
      var t := AppendSets(db.actuals, r.exercises, now);
      var d := s.value;
      FindDayIgnoresSets(db, t, r.place);
      if SetCount(r.exercises) > 0 {
        var m := |db.actuals.rows|;
        var row := t.rows[m];
        var rows := LoggedRows(r.exercises, now);
        assert row.value == rows[0];
        LoggedSetIsAt(db, FindDay(db, r.place).value, r.place, r.exercises, now, 0);
        assert SetPlace(d, row.value) == SetPlace(db, row.value);
        assert row in SetsAt(d, r.place);
        var k :| 0 <= k < |SetsAt(d, r.place)| && SetsAt(d, r.place)[k] == row;
      }
      LoggedSetsAreAt(db, FindDay(db, r.place).value, r.place, r.exercises, now);
    }
  }

  /** After a successful log, every new set row is among the sets at the
      request's place. */
  lemma LoggedSetsAreAt(db: Db, dayId: int, p: Place, es: seq<ExerciseEntry>, now: int)
    requires Repo.Valid(db.days) && FindDay(db, p) == Success(dayId)
    requires forall k :: 0 <= k < |es| ==> Owned(db, dayId, es[k].exerciseId)
    ensures var t := AppendSets(db.actuals, es, now);
      forall m :: |db.actuals.rows| <= m < |t.rows| ==> t.rows[m] in SetsAt(db.(actuals := t), p)
  {
    var t := AppendSets(db.actuals, es, now);
    forall m | |db.actuals.rows| <= m < |t.rows|
      ensures t.rows[m] in SetsAt(db.(actuals := t), p)
    {
      LoggedRowIsAt(db, dayId, p, es, now, m);
    }
  }

  /** The new row at position `m` sits at `p` in the database it was appended to. */
  lemma LoggedRowIsAt(db: Db, dayId: int, p: Place, es: seq<ExerciseEntry>, now: int, m: int)
    requires Repo.Valid(db.days) && FindDay(db, p) == Success(dayId)
    requires forall k :: 0 <= k < |es| ==> Owned(db, dayId, es[k].exerciseId)
    requires |db.actuals.rows| <= m < |AppendSets(db.actuals, es, now).rows|
    ensures var t := AppendSets(db.actuals, es, now);
      t.rows[m] in SetsAt(db.(actuals := t), p)
  {
    var t := AppendSets(db.actuals, es, now);
    var rows := LoggedRows(es, now);
    var j := m - |db.actuals.rows|;
    assert t == Repo.InsertAll(db.actuals, rows);
    assert t.rows[|db.actuals.rows| + j].value == rows[j];
    LoggedSetIsAt(db, dayId, p, es, now, j);
    SetPlaceIgnoresSets(db, t, t.rows[m].value);
    assert t.rows[m] in t.rows;
  }

  /** Where a set sits does not depend on the set table. */
  lemma SetPlaceIgnoresSets(db: Db, t: Repo.Table<ActualRow>, a: ActualRow)
    ensures SetPlace(db.(actuals := t), a) == SetPlace(db, a)
  {
  }

  /** A logged set sits at the place of the request. */
  lemma LoggedSetIsAt(db: Db, dayId: int, p: Place, es: seq<ExerciseEntry>, now: int, j: int)
    requires Repo.Valid(db.days) && FindDay(db, p) == Success(dayId)
    requires forall k :: 0 <= k < |es| ==> Owned(db, dayId, es[k].exerciseId)
    requires 0 <= j < |LoggedRows(es, now)|
    ensures SetPlace(db, LoggedRows(es, now)[j]) == Some(p)
  {
    var rows := LoggedRows(es, now);
    LoggedRowsOwners(es, now, j);
    var k :| 0 <= k < |es| && rows[j].exerciseId == es[k].exerciseId;
    OwnedSetIsAt(db, dayId, p, rows[j]);
  }

  /** A set whose exercise belongs to the day found at `p` sits at `p`. */
  lemma OwnedSetIsAt(db: Db, dayId: int, p: Place, a: ActualRow)
    requires Repo.Valid(db.days) && FindDay(db, p) == Success(dayId) && Owned(db, dayId, a.exerciseId)
    ensures SetPlace(db, a) == Some(p)
  {
    var i :| 0 <= i < |db.days.rows| && db.days.rows[i].id == dayId && DayPlace(db, db.days.rows[i].value) == Some(p);
    Repo.FindUnique(db.days, dayId, i);
  }

  /** `String.format("%d_%d_%d", blockId, weekNumber, dayNumber)`, the key
      `getBlockProgress` groups by. */
  function PlaceKey(p: Place): string {
    Strings.IntToString(p.blockId) + "_" + Strings.IntToString(p.weekNumber) + "_"
    + Strings.IntToString(p.dayNumber)
  }

  function NumberFormatMessage(s: string): string {
    "For input string: \"" + s + "\""
  }

  function IndexMessage(index: int, length: int): string {
    "Index " + Strings.IntToString(index) + " out of bounds for length " + Strings.IntToString(length)
  }

  /** `entry.getKey().split("_")` followed by `Long.parseLong(parts[0])`,
      `Integer.parseInt(parts[1])` and `Integer.parseInt(parts[2])`, with the
      exception each step can throw. */
  function DecodeKey(key: string): (r: Result<Place>)
  {
    var parts := Strings.JavaSplit(key, '_');
    if parts == [] then Failure(IndexMessage(0, 0))
    else
      var b := Strings.ParseDecimal(parts[0]);
      if b.None? then Failure(NumberFormatMessage(parts[0]))
      else if |parts| < 2 then Failure(IndexMessage(1, |parts|))
      else
        var w := Strings.ParseDecimal(parts[1]);
        if w.None? then Failure(NumberFormatMessage(parts[1]))
        else if |parts| < 3 then Failure(IndexMessage(2, |parts|))
        else
          var d := Strings.ParseDecimal(parts[2]);
          if d.None? then Failure(NumberFormatMessage(parts[2]))
          else Success(Place(b.value, w.value, d.value))
  }

  /** The key decodes back to the place it was written from, so two places
      share a key only when they are equal. */
  lemma PlaceKeyRoundTrip(p: Place)
    ensures DecodeKey(PlaceKey(p)) == Success(p)
  {
    var a, b, c := Strings.IntToString(p.blockId), Strings.IntToString(p.weekNumber), Strings.IntToString(p.dayNumber);
    Strings.IntToStringAvoids(p.blockId, '_');
    Strings.IntToStringAvoids(p.weekNumber, '_');
    Strings.IntToStringAvoids(p.dayNumber, '_');
    assert Strings.Join([a, b, c], '_') == PlaceKey(p) by {
      assert [a, b, c][1..] == [b, c];
      assert [b, c][1..] == [c];
      assert Strings.Join([c], '_') == c;
      assert Strings.Join([b, c], '_') == b + ['_'] + c;
      assert Strings.Join([a, b, c], '_') == a + ['_'] + (b + ['_'] + c);
    }
    Strings.SplitJoin([a, b, c], '_');
    Strings.ParseDecimalRoundTrip(p.blockId);
    Strings.ParseDecimalRoundTrip(p.weekNumber);
    Strings.ParseDecimalRoundTrip(p.dayNumber);
  }

  /** The grouping key of a set of the block. */
  function KeyOf(db: Db): Repo.Row<ActualRow> -> string {
    (row: Repo.Row<ActualRow>) => if SetPlace(db, row.value).Some? then PlaceKey(SetPlace(db, row.value).value) else ""
  }

  /** The filter "a set of block `blockId`". */
  function InBlock(db: Db, blockId: int): Repo.Row<ActualRow> -> bool {
    (row: Repo.Row<ActualRow>) => SetPlace(db, row.value).Some? && SetPlace(db, row.value).value.blockId == blockId
  }

  /** `actualSetRepository.findByBlockId(blockId)`, in id order. */
  function SetsOfBlock(db: Db, blockId: int): (r: seq<Repo.Row<ActualRow>>)
    ensures forall x :: x in r <==> x in db.actuals.rows && InBlock(db, blockId)(x)
  {
    Seqs.FilterMembers(db.actuals.rows, InBlock(db, blockId));
    Seqs.Filter(db.actuals.rows, InBlock(db, blockId))
  }

  /** One response entry: the place read back from the key, the latest
      completion time and the sets grouped by exercise. */
  function ProgressEntry(db: Db, g: Dicts.Entry<string, seq<Repo.Row<ActualRow>>>): (r: Result<Workout>)
    ensures r.Success? <==> DecodeKey(g.key).Success?
    ensures r.Success? ==>
      r.value == Workout(DecodeKey(g.key).value, LatestCompletion(g.value), ByExercise(db, g.value))
  {
    var p := DecodeKey(g.key);
    if p.Failure? then Failure(p.error)
    else Success(Workout(p.value, LatestCompletion(g.value), ByExercise(db, g.value)))
  }

  /** The entries of all groups, in group order; the first failure aborts. */
  function Progress(db: Db, groups: seq<Dicts.Entry<string, seq<Repo.Row<ActualRow>>>>): (r: Result<seq<Workout>>)
    ensures r.Success? <==> forall i :: 0 <= i < |groups| ==> ProgressEntry(db, groups[i]).Success?
    ensures r.Success? ==>
      |r.value| == |groups| && forall i :: 0 <= i < |groups| ==> r.value[i] == ProgressEntry(db, groups[i]).value
  {
    if groups == [] then Success([])
    else
      var head := ProgressEntry(db, groups[0]);
      var rest := Progress(db, groups[1..]);
      assert forall i :: 1 <= i < |groups| ==> groups[i] == groups[1..][i - 1];
      if head.Failure? then Failure(head.error)
      else if rest.Failure? then Failure(rest.error)
      else Success([head.value] + rest.value)
  }

  /** `getBlockProgress(blockId)`: the block's sets grouped by
      (block, week, day), one answer per group. Every key decodes, so the
      call never fails. */
  function GetBlockProgress(db: Db, blockId: int): (r: Result<seq<Workout>>)
    ensures r.Success?
  {
    var groups := Dicts.GroupBy(SetsOfBlock(db, blockId), KeyOf(db));
    forall i | 0 <= i < |groups|
      ensures ProgressEntry(db, groups[i]).Success?
    {
      GroupKeyIsPlace(db, blockId, i);
    }
    Progress(db, groups)
  }

  /** Every group's key is the key of the place of one of the block's sets. */
  lemma GroupKeyIsPlace(db: Db, blockId: int, i: int)
    requires 0 <= i < |Dicts.GroupBy(SetsOfBlock(db, blockId), KeyOf(db))|
    ensures var g := Dicts.GroupBy(SetsOfBlock(db, blockId), KeyOf(db));
      exists m :: 0 <= m < |SetsOfBlock(db, blockId)|
        && SetPlace(db, SetsOfBlock(db, blockId)[m].value).Some?
        && SetPlace(db, SetsOfBlock(db, blockId)[m].value).value.blockId == blockId
        && g[i].key == PlaceKey(SetPlace(db, SetsOfBlock(db, blockId)[m].value).value)
        && DecodeKey(g[i].key) == Success(SetPlace(db, SetsOfBlock(db, blockId)[m].value).value)
  {
    var sets := SetsOfBlock(db, blockId);
    var g := Dicts.GroupBy(sets, KeyOf(db));
    Dicts.GroupByEntry(sets, KeyOf(db), i);
    var m :| 0 <= m < |sets| && KeyOf(db)(sets[m]) == g[i].key;
    assert sets[m] in sets;
    PlaceKeyRoundTrip(SetPlace(db, sets[m].value).value);
  }

  /** The sets of the block at place `p`. */
  function BlockSetsAt(db: Db, blockId: int, p: Place): seq<Repo.Row<ActualRow>> {
    Seqs.Filter(SetsOfBlock(db, blockId), Dicts.HasKey(KeyOf(db), PlaceKey(p)))
  }

  /** Each answer of `getBlockProgress` is at a place of the block where
      some set sits, and holds the sets at that place, their latest
      completion time and their grouping by exercise. */
  lemma BlockProgressEntry(db: Db, blockId: int, i: int)
    requires 0 <= i < |GetBlockProgress(db, blockId).value|
    ensures var sets := SetsOfBlock(db, blockId);
      var w := GetBlockProgress(db, blockId).value[i];
      && w.place.blockId == blockId
      && (exists m :: 0 <= m < |sets| && SetPlace(db, sets[m].value) == Some(w.place))
      && w.completedAt == LatestCompletion(BlockSetsAt(db, blockId, w.place))
      && w.exercises == ByExercise(db, BlockSetsAt(db, blockId, w.place))
      && Dicts.GroupBy(sets, KeyOf(db))[i].key == PlaceKey(w.place)
  {
    GroupKeyIsPlace(db, blockId, i);
    Dicts.GroupByEntry(SetsOfBlock(db, blockId), KeyOf(db), i);
  }

  /** Every place where a set of the block sits has an answer. */
  lemma BlockProgressCovers(db: Db, blockId: int, m: int)
    requires 0 <= m < |SetsOfBlock(db, blockId)|
    ensures var r := GetBlockProgress(db, blockId).value;
      exists i :: 0 <= i < |r| && Some(r[i].place) == SetPlace(db, SetsOfBlock(db, blockId)[m].value)
  {
    var sets := SetsOfBlock(db, blockId);
    var g := Dicts.GroupBy(sets, KeyOf(db));
    assert sets[m] in sets;
    var p := SetPlace(db, sets[m].value).value;
    var k := KeyOf(db)(sets[m]);
    assert Dicts.Occurs(sets, KeyOf(db), k);
    Dicts.GroupByLookup(sets, KeyOf(db), k);
    var i :| 0 <= i < |g| && Dicts.Keys(g)[i] == k;
    PlaceKeyRoundTrip(p);
    BlockProgressEntry(db, blockId, i);
  }

  /** No place is answered twice. */
  lemma BlockProgressDistinct(db: Db, blockId: int, i: int, j: int)
    requires 0 <= i < j < |GetBlockProgress(db, blockId).value|
    ensures GetBlockProgress(db, blockId).value[i].place != GetBlockProgress(db, blockId).value[j].place
  {
    Dicts.GroupByDistinct(SetsOfBlock(db, blockId), KeyOf(db));
    BlockProgressEntry(db, blockId, i);
    BlockProgressEntry(db, blockId, j);
  }

  /** A block without logged sets has no progress. */
  lemma BlockProgressEmpty(db: Db, blockId: int)
    ensures SetsOfBlock(db, blockId) == [] ==> GetBlockProgress(db, blockId).value == []
  {
  }
}

=== FILE: workout_storage.dfy ===
/** src/utils/workoutStorage.js on the web path: `localStorage` is a map from
    key to the value stored under it, JSON text being identified with the
    value it denotes. */
module WorkoutStorage {
  import opened Wrappers
  import opened Js
  import Strings
  import Seqs

  const LogsKey := "workout_logs"
  const BlocksKey := "training_blocks"
  const WorkoutsByDayKey := "workouts_by_day"
  const StandaloneBlockIdKey := "workout_standalone_block_id"

  type Store = map<string, Value>

  const SaveLogError := "Failed to save workout log"
  const SaveBlockError := "Failed to save training block"
  const DeleteBlockError := "Failed to delete training block"
  const DeleteLogError := "Failed to delete workout log"
  const UpdateBlockError := "Failed to update training block"

  /** `getFromStorage(key)`: the standalone id is returned raw (`null` when
      absent); a missing workouts-by-day map reads as `null`; missing lists
      read as `[]`. */
  function GetFromStorage(store: Store, key: string): (r: Value)
    ensures key in store ==> r == store[key]
    ensures key !in store && (key == WorkoutsByDayKey || key == StandaloneBlockIdKey) ==> r == Null
    ensures key !in store && key != WorkoutsByDayKey && key != StandaloneBlockIdKey ==> r == Arr([])
  {
    if key in store then store[key]
    else if key == WorkoutsByDayKey || key == StandaloneBlockIdKey then Null
    else Arr([])
  }

  /** `setInStorage(key, value)`: storing `null` or `undefined` removes the
      key, except the standalone id, which is stored as text. */
  function SetInStorage(store: Store, key: string, v: Value, fractionText: real -> string): (r: Store)
    ensures forall k :: k != key ==> (k in r <==> k in store) && (k in r ==> r[k] == store[k])
    ensures key == StandaloneBlockIdKey ==> key in r && r[key] == Str(Text(v, fractionText))
    ensures key != StandaloneBlockIdKey && (v.Null? || v.Undefined?) ==> key !in r
    ensures key != StandaloneBlockIdKey && !(v.Null? || v.Undefined?) ==> key in r && r[key] == v
  {
    if key == StandaloneBlockIdKey then store[key := Str(Text(v, fractionText))]
    else if v.Null? || v.Undefined? then store - {key}
    else store[key := v]
  }

  /** The stored value if it is an array, `[]` otherwise. */
  function ListAt(store: Store, key: string): seq<Value> {
    var v := GetFromStorage(store, key);
    if v.Arr? then v.items else []
  }

  /** `getWorkoutLogs()` */
  function GetWorkoutLogs(store: Store): seq<Value> {
    ListAt(store, LogsKey)
  }

  /** `getTrainingBlocks()` */
  function GetTrainingBlocks(store: Store): seq<Value> {
    ListAt(store, BlocksKey)
  }

  /** `saveWorkoutLog(log)`: the log goes after every earlier one. */
  function SaveWorkoutLog(store: Store, log: Value): (r: Store)
    ensures GetWorkoutLogs(r) == GetWorkoutLogs(store) + [log]
    ensures forall k :: k != LogsKey ==> (k in r <==> k in store) && (k in r ==> r[k] == store[k])
  {
    store[LogsKey := Arr(GetWorkoutLogs(store) + [log])]
  }

  /** `saveTrainingBlock(block)`: the block goes after every earlier one. */
  function SaveTrainingBlock(store: Store, block: Value): (r: Store)
    ensures GetTrainingBlocks(r) == GetTrainingBlocks(store) + [block]
    ensures forall k :: k != BlocksKey ==> (k in r <==> k in store) && (k in r ==> r[k] == store[k])
  {
    store[BlocksKey := Arr(GetTrainingBlocks(store) + [block])]
  }

  /** `Number(block.blockId ?? block.id)`; reading a property of `null` or
      `undefined` throws, which `None` reports. */
  function BlockNumber(block: Value, number: NumberFn): Option<Option<real>> {
    if block.Null? || block.Undefined? then None
    else Some(ToNumber(Coalesce(Prop(block, "blockId"), Prop(block, "id")), number))
  }

  /** A block whose number is `id`; `NaN` equals nothing. */
  predicate HasId(block: Value, id: real, number: NumberFn) {
    BlockNumber(block, number) == Some(Some(id))
  }

  /** Whether some element is `null` or `undefined`, so that reading its id throws. */
  predicate HasHole(blocks: seq<Value>) {
    exists i :: 0 <= i < |blocks| && (blocks[i].Null? || blocks[i].Undefined?)
  }

  /** `blocks.find(b => Number(b.blockId ?? b.id) === id)`: `Success(None)` when
      nothing matches, `Failure` when a `null` element is reached first. */
  function FindBlock(blocks: seq<Value>, id: real, number: NumberFn): (r: Result<Option<nat>>)
    ensures r.Success? && r.value.Some? ==>
      r.value.value < |blocks| && HasId(blocks[r.value.value], id, number)
      && forall j :: 0 <= j < r.value.value ==> !HasId(blocks[j], id, number)
    ensures r.Success? && r.value.None? ==>
      forall j :: 0 <= j < |blocks| ==> !HasId(blocks[j], id, number)
    ensures r.Success? <==>
      forall j :: 0 <= j < |blocks| && (blocks[j].Null? || blocks[j].Undefined?) ==>
        exists i :: 0 <= i < j && HasId(blocks[i], id, number)
    decreases |blocks|
  {
    if blocks == [] then Success(None)
    else if blocks[0].Null? || blocks[0].Undefined? then Failure("TypeError")
    else if HasId(blocks[0], id, number) then Success(Some(0))
    else
      match FindBlock(blocks[1..], id, number)
      case Failure(e) =>
        Failure(e)
      case Success(None) => Success(None)
      case Success(Some(i)) => Success(Some(i + 1))
  }

  /** Block `i` is where `find` stops for `id`: it has that id, and every
      block before it is neither a match nor a hole. */
  predicate FirstFound(blocks: seq<Value>, id: real, number: NumberFn, i: int) {
    0 <= i < |blocks| && HasId(blocks[i], id, number)
    && forall j :: 0 <= j < i ==> !HasId(blocks[j], id, number) && !(blocks[j].Null? || blocks[j].Undefined?)
  }

  /** `find` stops exactly at the first match that no hole precedes. */
  lemma {:induction false} FindBlockFirst(blocks: seq<Value>, id: real, number: NumberFn)
    ensures forall i :: FirstFound(blocks, id, number, i) ==> FindBlock(blocks, id, number) == Success(Some(i))
    ensures forall i :: FindBlock(blocks, id, number) == Success(Some(i)) ==> FirstFound(blocks, id, number, i)
    decreases |blocks|
  {
    if blocks != [] && !(blocks[0].Null? || blocks[0].Undefined?) && !HasId(blocks[0], id, number) {
      FindBlockFirst(blocks[1..], id, number);
      forall i | FirstFound(blocks, id, number, i)
        ensures FindBlock(blocks, id, number) == Success(Some(i))
      {
        assert FirstFound(blocks[1..], id, number, i - 1);
      }
      forall i | FindBlock(blocks, id, number) == Success(Some(i))
        ensures FirstFound(blocks, id, number, i)
      {
        assert FirstFound(blocks[1..], id, number, i - 1);
      }
    }
  }

  /** `getTrainingBlock(blockId)`: the first block with that numeric id, or
      `null` when there is none, when the id is `NaN`, or when reading the
      list throws because a `null` block comes first. */
  function GetTrainingBlock(store: Store, blockId: Value, number: NumberFn): (r: Value)
    ensures ToNumber(blockId, number).None? ==> r == Null
    ensures ToNumber(blockId, number).Some? ==>
      var blocks := GetTrainingBlocks(store);
      forall i :: FirstFound(blocks, ToNumber(blockId, number).value, number, i) ==>
        r == if Truthy(blocks[i]) then blocks[i] else Null
    ensures r != Null ==>
      ToNumber(blockId, number).Some?
      && exists i :: FirstFound(GetTrainingBlocks(store), ToNumber(blockId, number).value, number, i)
                     && GetTrainingBlocks(store)[i] == r
  {
    var id := ToNumber(blockId, number);
    if id.None? then Null
    else
      var blocks := GetTrainingBlocks(store);
      FindBlockFirst(blocks, id.value, number);
      match FindBlock(blocks, id.value, number)
      case Success(Some(i)) => if Truthy(blocks[i]) then blocks[i] else Null
      case _ => Null
  }

  /** `deleteTrainingBlock(blockId)`: keeps, in order, every block whose
      numeric id differs (a `NaN` id differs from everything). */
  function DeleteTrainingBlock(store: Store, blockId: Value, number: NumberFn): (r: Result<Store>)
    ensures r.Failure? <==> HasHole(GetTrainingBlocks(store))
    ensures r.Failure? ==> r.error == DeleteBlockError
    ensures r.Success? ==>
      GetTrainingBlocks(r.value) == Seqs.Filter(GetTrainingBlocks(store), KeepBlock(ToNumber(blockId, number), number))
      && forall k :: k != BlocksKey ==> (k in r.value <==> k in store) && (k in r.value ==> r.value[k] == store[k])
  {
    var blocks := GetTrainingBlocks(store);
    if HasHole(blocks) then Failure(DeleteBlockError)
    else Success(store[BlocksKey := Arr(Seqs.Filter(blocks, KeepBlock(ToNumber(blockId, number), number)))])
  }

  /** `Number(block.blockId ?? block.id) !== idNum` */
  function KeepBlock(id: Option<real>, number: NumberFn): Value -> bool {
    b => id.None? || !HasId(b, id.value, number)
  }

  /** After a delete, no block with that id remains, and the blocks that
      remain are a subsequence of the earlier ones. */
  lemma DeleteThenGet(store: Store, blockId: Value, number: NumberFn)
    requires DeleteTrainingBlock(store, blockId, number).Success?
    ensures var after := DeleteTrainingBlock(store, blockId, number).value;
            GetTrainingBlock(after, blockId, number) == Null
            && Seqs.IsSubsequence(GetTrainingBlocks(after), GetTrainingBlocks(store))
  {
    var after := DeleteTrainingBlock(store, blockId, number).value;
    var id := ToNumber(blockId, number);
    Seqs.FilterIsSubsequence(GetTrainingBlocks(store), KeepBlock(id, number));
  }

  /** `updateTrainingBlock(updated)`: every block with the same numeric id is
      replaced by `updated`; the others and the length are unchanged. A `NaN`
      id ('Invalid block id') and a `null` block both surface as
      'Failed to update training block'. */
  function UpdateTrainingBlock(store: Store, updated: Value, number: NumberFn): (r: Result<Store>)
    ensures r.Failure? ==> r.error == UpdateBlockError
    ensures r.Success? <==>
      BlockNumber(updated, number).Some? && BlockNumber(updated, number).value.Some?
      && !HasHole(GetTrainingBlocks(store))
    ensures r.Success? ==>
      var before, after := GetTrainingBlocks(store), GetTrainingBlocks(r.value);
      var id := BlockNumber(updated, number).value.value;
      |after| == |before|
      && (forall i :: 0 <= i < |before| ==>
            after[i] == if HasId(before[i], id, number) then updated else before[i])
      && forall k :: k != BlocksKey ==> (k in r.value <==> k in store) && (k in r.value ==> r.value[k] == store[k])
  {
    var updatedId := BlockNumber(updated, number);
    if updatedId.None? || updatedId.value.None? then Failure(UpdateBlockError)
    else
      var blocks := GetTrainingBlocks(store);
      if HasHole(blocks) then Failure(UpdateBlockError)
      else
        var id := updatedId.value.value;
        Success(store[BlocksKey := Arr(Seqs.Map(blocks, (b: Value) => if HasId(b, id, number) then updated else b))])
  }

  /** `deleteWorkoutLog(index)`: removes the log at position `index` (compared
      with `!==`, so only a number equal to the position matches); any other
      index leaves the list as it was. */
  function DeleteWorkoutLog(store: Store, index: Value): (r: Store)
    ensures var before, after := GetWorkoutLogs(store), GetWorkoutLogs(r);
            (index.Num? && index.n == index.n.Floor as real && 0 <= index.n.Floor < |before| ==>
               after == before[..index.n.Floor] + before[index.n.Floor + 1..])
            && (!(index.Num? && index.n == index.n.Floor as real && 0 <= index.n.Floor < |before|) ==>
               after == before)
    ensures forall k :: k != LogsKey ==> (k in r <==> k in store) && (k in r ==> r[k] == store[k])
  {
    var logs := GetWorkoutLogs(store);
    var position := if index.Num? && index.n == index.n.Floor as real then index.n.Floor else -1;
    store[LogsKey := Arr(Seqs.RemoveAt(logs, position))]
  }

  /** `getWorkoutsByDay()`: the stored map if it is a plain object, else `null`. */
  function GetWorkoutsByDay(store: Store): (r: Value)
    ensures r.Obj? || r.Null?
    ensures r.Obj? <==> WorkoutsByDayKey in store && store[WorkoutsByDayKey].Obj?
    ensures r.Obj? ==> r == store[WorkoutsByDayKey]
  {
    var data := GetFromStorage(store, WorkoutsByDayKey);
    if data.Obj? then data else Null
  }

  /** `saveWorkoutsByDay(workoutsByDay)` */
  function SaveWorkoutsByDay(store: Store, workoutsByDay: Value, fractionText: real -> string): Store {
    SetInStorage(store, WorkoutsByDayKey, workoutsByDay, fractionText)
  }

  /** What is saved as a workouts-by-day map reads back unchanged; anything
      else reads back as `null`. */
  lemma WorkoutsByDayRoundTrip(store: Store, v: Value, fractionText: real -> string)
    ensures GetWorkoutsByDay(SaveWorkoutsByDay(store, v, fractionText)) == if v.Obj? then v else Null
  {
  }

  /** `getStandaloneBlockId()`: `null` when nothing (or empty text) is stored
      or the text holds no leading integer; otherwise that integer. */
  function GetStandaloneBlockId(store: Store): (r: Option<int>)
    ensures StandaloneBlockIdKey !in store ==> r.None?
    ensures r.Some? ==> store[StandaloneBlockIdKey].Str? || store[StandaloneBlockIdKey].Num?
    ensures StandaloneBlockIdKey in store && store[StandaloneBlockIdKey] == Str("") ==> r.None?
    ensures StandaloneBlockIdKey in store && store[StandaloneBlockIdKey].Str? ==>
      r == if store[StandaloneBlockIdKey].s == "" then None else Strings.ParseIntText(store[StandaloneBlockIdKey].s)
  {
    var raw := GetFromStorage(store, StandaloneBlockIdKey);
    if raw.Null? || raw.Undefined? || raw == Str("") then None
    else ParseInt(raw)
  }

  /** `setStandaloneBlockId(id)`: a non-null id is stored as text; `null`
      removes it. */
  function SetStandaloneBlockId(store: Store, id: Value, fractionText: real -> string): Store {
    if id.Null? || id.Undefined? then store - {StandaloneBlockIdKey}
    else SetInStorage(store, StandaloneBlockIdKey, Str(Text(id, fractionText)), fractionText)
  }

  /** An integer id saved as the standalone block reads back as itself. */
  lemma StandaloneBlockIdRoundTrip(store: Store, id: int, fractionText: real -> string)
    ensures GetStandaloneBlockId(SetStandaloneBlockId(store, Num(id as real), fractionText)) == Some(id)
  {
    var text := Strings.IntToString(id);
    assert Text(Num(id as real), fractionText) == text;
    assert Text(Str(text), fractionText) == text;
    Strings.ParseIntTextRoundTrip(id);
  }
}

=== FILE: wrappers.dfy ===
/** Option and Result, used for JavaScript null/undefined results, Java's
    nullable fields and Optional lookups, and for thrown errors. */
module Wrappers {

  datatype Option<+T> = None | Some(value: T) {
    function GetOr(default: T): T {
      match this
      case Some(v) => v
      case None => default
    }
  }

  /** `Failure` carries the message of the exception the source throws. */
  datatype Result<+R> = Success(value: R) | Failure(error: string) {
    predicate IsFailure() {
      Failure?
    }
  }
}
